=== FILE: README.md ===
# Desktop pet: the simulation rules in Dafny

This project models the monster simulation of a Unity desktop-pet game. It
covers the rules that decide what the creatures on the desktop do:

- **Modular monster.** Hunger and happiness are clamped to [0, 100].
  - A poke cooldown restarts on every accepted poke, and the coin-after-poke flag is armed.
  - The nearest food is chosen by a strict squared-distance scan, and the monster then eats it or walks up to it.
  - Its behaviour state machine filters a transition table and makes a cumulative-weight pick.
  - It evolves through a table of thresholds, with an id of the form `{definition}_Lv{level}_{8 chars}`.
  - Its skeleton stage is clamped into the definition's array.
  - Its record is saved under `"Pet" + id`.
- **Older single-file monster.** It has hunger only and a five-second poke cooldown, and drops one silver coin when it leaves the poke state a poke put it in.
  - Its state machine blocks poke states during the cooldown and stays put when no row qualifies.
- **Simple pet.** It walks along the bottom edge of the play area and only poops while its hunger is above its eating threshold.
- **Game manager.** It runs food, poop and coin pools as first-in-first-out queues, the coin purse, buying pets, eight-character pet ids and random positions in the play area.
- **Other pieces.**
  - The gacha pays its price, then makes a weighted rarity pick and a random monster pick.
  - The farming manager grows plants from seed to mature or withered.
  - The persistence helper keeps the key-value store, a comma-joined id list and key defaults.
  - The service locator maps a type to its one service.
  - The coin asset and the two catalogue assets are also modelled.

Each piece is a pure function over immutable datatypes.
- Scalars are `real`.
- The engine's random draws are explicit parameters: a unit draw `u` in [0, 1] for `Random.Range(a, b)`, an integer for `Random.Range(0, n)`.
- So are the frame time, the clock, fresh GUID characters and new object handles.
- The key-value store is a `map`, and JSON serialisation is the identity on records.
- Where a source method throws (a null it dereferences, a duplicate dictionary key), the model returns `None` or leaves the state unchanged, and the member's contract says which.

The modules follow the scripts:

| module | models |
|---|---|
| `Shared`, `Strings`, `Weighted`, `FoodScan`, `Data` | `Mathf` clamps, .NET `Split`/`Join`, the cumulative-weight pick, the nearest-food scan, the data records |
| `Monster`, `MonsterUpdate`, `StateMachine`, `FoodHandler`, `InteractionHandler`, `MovementBounds`, `VisualHandler`, `SaveHandler`, `Evolution` | the modular monster under `Unit/Monster/` |
| `LegacyController`, `LegacyStateMachine` | the older `Unit/MonsterController.cs` and `Unit/MonsterStateMachine.cs` |
| `Pet` | `Unit/PetController.cs` |
| `GameManager`, `Gacha`, `Farming` | the managers |
| `SaveSystem`, `ServiceLocator`, `Catalog`, `Coin` | the utilities and assets |

`OnEvolutionComplete` resets the time-alive counter with the other four counters (`MonsterEvolutionHandler.cs` lines 243-247); `Evolution.ResetCounters` and `Evolution.TriggerEvolution` state it.

## Model

| member | source | states |
|---|---|---|
| Strings.Split | Assets/Game/Scripts/Runtime/Utility/SaveSystem.cs:47 | `Split(',')` yields at least one piece, no piece holds the separator, and joining the pieces gives the input back |
| Strings.SplitJoin | Assets/Game/Scripts/Runtime/Utility/SaveSystem.cs:37-48 | splitting the join of separator-free pieces returns exactly those pieces |
| Weighted.FirstReaching | Assets/Game/Scripts/Runtime/Unit/Monster/MonsterStateMachine.cs:61-76 | the pick is the first candidate whose running total reaches the roll; no pick means every running total stays below the roll |
| Weighted.RollWithinTotalPicks | Assets/Game/Scripts/Runtime/Unit/Monster/MonsterStateMachine.cs:61-76 | a roll no larger than the total always selects some candidate |
| Weighted.UnitRollPicks | Assets/Game/Scripts/Runtime/Unit/Monster/MonsterStateMachine.cs:65-76 | `Random.Range(0, total)` over non-negative weights never falls through the loop |
| Weighted.PickIsBucket | Assets/Game/Scripts/Runtime/Unit/MonsterStateMachine.cs:51-67 | for non-negative weights and a positive roll, candidate `i` is picked iff the roll lies in its slice (prefix sum before it, prefix sum after it] |
| FoodScan.Scan | Assets/Game/Scripts/Runtime/Unit/Monster/MonsterFoodHandler.cs:28-53 | nothing is chosen iff no non-null food lies strictly inside the detection range; a chosen food is in range, no food is strictly nearer, and no earlier food is as near |
| FoodScan.ScanChoiceUnique | Assets/Game/Scripts/Runtime/Unit/Monster/MonsterFoodHandler.cs:36-49 | the nearest-food properties single out one entry, so any entry with them is the scan's choice |
| SaveSystem.MonKey | Assets/Game/Scripts/Runtime/Utility/SaveSystem.cs:19 | a monster's record key is `"Pet"` followed by its id |
| SaveSystem.MonKeyInjective | Assets/Game/Scripts/Runtime/Utility/SaveSystem.cs:19 | distinct monsters never share a record key |
| SaveSystem.MonKeyNotGlobal | Assets/Game/Scripts/Runtime/Utility/SaveSystem.cs:7-9 | no record key collides with `Coin`, `Poop` or `MonsterIDs` |
| SaveSystem.GetInt | Assets/Game/Scripts/Runtime/Utility/SaveSystem.cs:12 | the stored int when the key holds one, otherwise the default |
| SaveSystem.GetString | Assets/Game/Scripts/Runtime/Utility/SaveSystem.cs:44 | the stored string when the key holds one, otherwise the default |
| SaveSystem.SaveCoin | Assets/Game/Scripts/Runtime/Utility/SaveSystem.cs:11 | loading the coin count afterwards gives the saved amount; every other key keeps its value |
| SaveSystem.LoadCoin | Assets/Game/Scripts/Runtime/Utility/SaveSystem.cs:12 | 100 coins when nothing was saved, otherwise the saved count |
| SaveSystem.SavePoop | Assets/Game/Scripts/Runtime/Utility/SaveSystem.cs:13 | loading the poop count afterwards gives the saved amount; every other key keeps its value |
| SaveSystem.LoadPoop | Assets/Game/Scripts/Runtime/Utility/SaveSystem.cs:14 | 0 when nothing was saved, otherwise the saved count |
| SaveSystem.SaveMon | Assets/Game/Scripts/Runtime/Utility/SaveSystem.cs:17-22 | the record lands under the monster's key, which is the only key added or changed |
| SaveSystem.LoadMon | Assets/Game/Scripts/Runtime/Utility/SaveSystem.cs:24-35 | found iff the monster's key exists; a record comes back iff the key holds one, and it is the stored record |
| SaveSystem.LoadAfterSave | Assets/Game/Scripts/Runtime/Utility/SaveSystem.cs:17-35 | loading right after saving returns the saved record |
| SaveSystem.SaveKeepsOthers | Assets/Game/Scripts/Runtime/Utility/SaveSystem.cs:17-35 | saving one monster does not change what loading another returns |
| SaveSystem.SaveMonIDs | Assets/Game/Scripts/Runtime/Utility/SaveSystem.cs:37-40 | the comma-joined list under `MonsterIDs`, every other key unchanged |
| SaveSystem.LoadSavedMonIDs | Assets/Game/Scripts/Runtime/Utility/SaveSystem.cs:42-48 | no id holds a comma; the list is empty iff the stored string is missing or empty; otherwise it joins back to the stored string |
| SaveSystem.IdsRoundTrip | Assets/Game/Scripts/Runtime/Utility/SaveSystem.cs:37-48 | a saved id list loads back unchanged when it is empty, or when no id holds a comma and it is not the single empty id |
| SaveSystem.SingleEmptyIdLost | Assets/Game/Scripts/Runtime/Utility/SaveSystem.cs:42-48 | the list holding one empty id loads back empty |
| SaveSystem.CommaIdSplits | Assets/Game/Scripts/Runtime/Utility/SaveSystem.cs:37-48 | an id holding a comma loads back as two ids |
| SaveSystem.DeleteMonRecords | Assets/Game/Scripts/Runtime/Utility/SaveSystem.cs:58-63 | the record of every non-empty listed id is gone; every other key survives with its value; nothing is added |
| SaveSystem.ClearAsWrittenKeepsRecords | Assets/Game/Scripts/Runtime/Utility/SaveSystem.cs:51-66 | as written, clearing removes exactly the three global keys and no monster record |
| SaveSystem.ClearAsWrittenWitness | Assets/Game/Scripts/Runtime/Utility/SaveSystem.cs:55-62 | a store listing monster `abc` still holds `Petabc` after the as-written clear |
| SaveSystem.ClearSaveData | Assets/Game/Scripts/Runtime/Utility/SaveSystem.cs:51-66 | with the list read first: the global keys and the record of every non-empty listed id are gone, and nothing else changes value |
| SaveSystem.ClearKeepsUnlisted | Assets/Game/Scripts/Runtime/Utility/SaveSystem.cs:51-66 | a key that is neither global nor a listed monster's record survives the corrected clear with its value |
| ServiceLocator.Register | Assets/Game/Scripts/Runtime/Utility/ServiceLocator.cs:8-18 | a type that has a service keeps it; a new type gets the given service; other types are untouched |
| ServiceLocator.Unregister | Assets/Game/Scripts/Runtime/Utility/ServiceLocator.cs:20-25 | the type has no service afterwards; other types are untouched |
| Shared.TryGetValue | Assets/Game/Scripts/Runtime/Utility/ServiceLocator.cs:27-35 | `Get<T>` is the dictionary lookup: the registered service, or the default when the type has none; `FarmingManager.TryGetPlant` (FarmingManager.cs:40-43) is the same lookup, finding a plant iff its id is stored |
| ServiceLocator.Has | Assets/Game/Scripts/Runtime/Utility/ServiceLocator.cs:37-40 | true iff a service is registered under the key, so exactly when the lookup finds one |
| ServiceLocator.FirstRegistrationWins | Assets/Game/Scripts/Runtime/Utility/ServiceLocator.cs:8-35 | a second registration changes nothing and `Get` still returns the first service |
| ServiceLocator.UnregisterThenRegister | Assets/Game/Scripts/Runtime/Utility/ServiceLocator.cs:8-35 | after unregistering, a new registration takes effect and other types are untouched |
| Catalog.FindById | Assets/Game/Scripts/Runtime/ScriptableObject/MonsterDatabaseSO.cs:9-12 | nothing iff no definition has the id; otherwise the definition at the first position holding the id |
| Catalog.FindByIdIsFirst | Assets/Game/Scripts/Runtime/ScriptableObject/MonsterDatabaseSO.cs:9-12 | the definition at the first position with the id is what the lookup returns |
| Catalog.OfRarity | Assets/Game/Scripts/Runtime/ScriptableObject/MonsterDatabaseSO.cs:16 | exactly the definitions of the rarity, each as often as in the list and in list order |
| Catalog.RandomByRarity | Assets/Game/Scripts/Runtime/ScriptableObject/MonsterDatabaseSO.cs:14-19 | nothing iff no definition has the rarity; otherwise a definition of that rarity from the list |
| Catalog.EveryMatchReachable | Assets/Game/Scripts/Runtime/ScriptableObject/MonsterDatabaseSO.cs:14-19 | every definition of the rarity comes out for some draw |
| Catalog.GetMonsterByID | Assets/Game/Scripts/Runtime/ScriptableObject/MonsterDatabaseSO.cs:9-12 | the first monster with the id, or nothing iff none has it |
| Catalog.GetRandomMonsterByRarity | Assets/Game/Scripts/Runtime/ScriptableObject/MonsterDatabaseSO.cs:14-19 | a monster of the rarity from the database, or nothing iff there is none |
| Catalog.GetPetByID | Assets/Game/Scripts/Runtime/ScriptableObject/PetDatabaseSO.cs:9-12 | the first pet with the id, or nothing iff none has it |
| Catalog.GetRandomPetByRarity | Assets/Game/Scripts/Runtime/ScriptableObject/PetDatabaseSO.cs:14-19 | a pet of the rarity from the database, or nothing iff there is none |
| Coin.CalculateValue | Assets/Game/Scripts/Runtime/ScriptableObjects/CoinSO.cs:12-17 | silver is worth 1 and gold 10; the answer always equals the value stored afterwards; other kinds keep their stored value |
| Coin.CalculateValueStable | Assets/Game/Scripts/Runtime/ScriptableObjects/CoinSO.cs:12-17 | asking twice gives the same answer and leaves the asset as the first call left it |
| Monster.SetHunger | Assets/Game/Scripts/Runtime/Unit/Monster/MonsterController.cs:236-241 | an equal value changes nothing and raises no event; a different one is stored and announced |
| Monster.SetHappiness | Assets/Game/Scripts/Runtime/Unit/Monster/MonsterController.cs:243-248 | an equal value changes nothing and raises no event; a different one is stored and announced |
| Monster.SetHovered | Assets/Game/Scripts/Runtime/Unit/Monster/MonsterController.cs:250-255 | the hover event fires iff the flag changes |
| Monster.IncreaseHappiness | Assets/Game/Scripts/Runtime/Unit/Monster/MonsterController.cs:268-271 | happiness moves by the amount, saturating at 0 and 100; hunger is untouched |
| Monster.Feed | Assets/Game/Scripts/Runtime/Unit/Monster/MonsterController.cs:261-266 | hunger and happiness both move by the amount, each saturating at 0 and 100 |
| Monster.FeedRaises | Assets/Game/Scripts/Runtime/Unit/Monster/MonsterController.cs:261-271 | a non-negative meal never lowers either need and keeps both in [0, 100] |
| Monster.HungerTick | Assets/Game/Scripts/Runtime/Unit/Monster/MonsterController.cs:323-330 | hunger drops by the depletion rate, never below 0 |
| Monster.HungerTicksDrain | Assets/Game/Scripts/Runtime/Unit/Monster/MonsterController.cs:323-330 | repeated ticks change hunger only, following the drain sequence |
| Monster.DrainIsFlooredSpent | Assets/Game/Scripts/Runtime/Unit/Monster/MonsterController.cs:327 | at a non-negative rate each tick takes the rate until 0 is reached, and hunger stays at 0 from then on |
| Monster.HungerTicksFloor | Assets/Game/Scripts/Runtime/Unit/Monster/MonsterController.cs:323-330 | after `n` ticks at a non-negative rate, hunger is `max(0, hunger - n * rate)` |
| Monster.AreaHappiness | Assets/Game/Scripts/Runtime/Unit/Monster/MonsterController.cs:273-286 | without a play area nothing changes; an area at least half the screen's height adds the area rate, a smaller one subtracts it, clamped either way |
| Monster.AreaRatioIsHalfHeight | Assets/Game/Scripts/Runtime/Unit/Monster/MonsterController.cs:278-282 | the ratio test holds iff twice the area's height reaches the screen's |
| Monster.InitializeID | Assets/Game/Scripts/Runtime/Unit/Monster/MonsterController.cs:105-111 | an empty id becomes `temp_` plus the eight fresh characters; any other id is kept |
| Monster.LevelTag | Assets/Game/Scripts/Runtime/Unit/Monster/MonsterController.cs:306 | the level part of an id is `Lv` followed by the level's decimal digits |
| Monster.IdParts | Assets/Game/Scripts/Runtime/Unit/Monster/MonsterController.cs:306 | `a_Lv{level}_c` splits at underscores into `a`, the level tag and `c` when `a` and `c` hold no underscore |
| Monster.DefinitionIDParts | Assets/Game/Scripts/Runtime/Unit/Monster/MonsterController.cs:306 | the permanent id splits back into definition id, level tag and fresh characters |
| Monster.AssignDefinition | Assets/Game/Scripts/Runtime/Unit/Monster/MonsterController.cs:298-308 | a null definition changes nothing; otherwise the definition is stored and a temporary or empty id, and only such an id, becomes the permanent form |
| Monster.DefinitionIDNotTemp | Assets/Game/Scripts/Runtime/Unit/Monster/MonsterController.cs:304-306 | the permanent id never reads as temporary unless the definition id starts with `temp_` or is `temp` |
| Monster.PermanentIdIsStable | Assets/Game/Scripts/Runtime/Unit/Monster/MonsterController.cs:298-308 | a fresh monster gets its permanent id once; a later definition keeps it |
| Monster.TempDefinitionIdReplacedAgain | Assets/Game/Scripts/Runtime/Unit/Monster/MonsterController.cs:304-306 | a definition whose id is `temp` gives a permanent id that still reads as temporary, so the next definition replaces it again |
| MonsterUpdate.FoodPhase | Assets/Game/Scripts/Runtime/Unit/Monster/MonsterController.cs:203-214 | outside walking and running nothing happens; a moving monster without food scans; one with food eats or approaches it |
| MonsterUpdate.HandleMovement | Assets/Game/Scripts/Runtime/Unit/Monster/MonsterController.cs:191-224 | an eating monster is left as it was; otherwise the food phase runs, the movement helper moves the monster, and a new wander target comes iff it is moving, not chasing food and within 10 units of its target |
| MonsterUpdate.StillMonsterOnlyMoves | Assets/Game/Scripts/Runtime/Unit/Monster/MonsterController.cs:203-223 | a monster neither walking nor running only moves: no scan, no meal, no state change, no new target |
| MonsterUpdate.ChasesKnownFood | Assets/Game/Scripts/Runtime/Unit/Monster/MonsterController.cs:211-216 | a moving monster with food it is not near hands the food's position to the movement helper as its target |
| MonsterUpdate.Update | Assets/Game/Scripts/Runtime/Unit/Monster/MonsterController.cs:90-96 | an unloaded monster is untouched; a loaded one ticks its cooldown and then moves |
| StateMachine.ValidTransitions | Assets/Game/Scripts/Runtime/Unit/Monster/MonsterStateMachine.cs:79-96 | exactly the rows, in table order and with their multiplicities, leaving the current state with food present if required and hunger and happiness at their thresholds; none without configuration or table |
| StateMachine.Positive | Assets/Game/Scripts/Runtime/Unit/Monster/MonsterStateMachine.cs:178-189 | a configured bound is used when positive and replaced by its default otherwise |
| StateMachine.StateDuration | Assets/Game/Scripts/Runtime/Unit/Monster/MonsterStateMachine.cs:159-194 | without configuration, jumping lasts 1, walking and running between 3 and 5, idle between 2 and 4; with it, jumping lasts its positive setting or 1, itching between 2 and 4, eating between 1.5 and 3 |
| StateMachine.ConfiguredDurationBetween | Assets/Game/Scripts/Runtime/Unit/Monster/MonsterStateMachine.cs:177-187 | an idle, walking or running spell lies between its two configured bounds, in whichever order they are given |
| StateMachine.ChangeState | Assets/Game/Scripts/Runtime/Unit/Monster/MonsterStateMachine.cs:98-107 | the old state becomes the previous state, the new one is entered, the timer restarts at 0 and the duration is a positive draw from the new state's range |
| StateMachine.ForceState | Assets/Game/Scripts/Runtime/Unit/Monster/MonsterStateMachine.cs:196-200 | the forced state is entered with the timer at 0 and the duration taken from the second draw of the state's range |
| StateMachine.ForceIsChangeWithSecondDraw | Assets/Game/Scripts/Runtime/Unit/Monster/MonsterStateMachine.cs:196-200 | forcing is a plain change drawn with the second draw: the first draw is overwritten |
| StateMachine.TriggerEating | Assets/Game/Scripts/Runtime/Unit/Monster/MonsterStateMachine.cs:202-208 | with a nearest food the machine enters `Eating`; without one it is unchanged |
| StateMachine.SelectNextState | Assets/Game/Scripts/Runtime/Unit/Monster/MonsterStateMachine.cs:44-77 | `Eating` ends in `Idle` or `Walking` by the coin without consulting the table; no candidate means `Idle`; otherwise the target of the first row whose running total reaches the roll, or, if the roll falls through, the machine as it was |
| StateMachine.SelectPicksCandidate | Assets/Game/Scripts/Runtime/Unit/Monster/MonsterStateMachine.cs:53-76 | outside `Eating`, with non-negative probabilities and some candidate, the new state is the target of the first row whose cumulative probability reaches the roll |
| StateMachine.Update | Assets/Game/Scripts/Runtime/Unit/Monster/MonsterStateMachine.cs:28-42 | an `Eating` machine without food drops to `Idle` before the timer is looked at; an expired `Eating` timer moves to `Idle` or `Walking` by the coin draw; any other expired timer is the next-state selection on the advanced machine, `Idle` when no row qualifies; otherwise only the timer grows |
| StateMachine.UpdateAtExpiry | Assets/Game/Scripts/Runtime/Unit/Monster/MonsterStateMachine.cs:38-76 | with non-negative probabilities and a qualifying row, an expired timer outside `Eating` moves to the target of a row that admits the state and the needs, with the timer restarted |
| StateMachine.UpdateBeforeExpiry | Assets/Game/Scripts/Runtime/Unit/Monster/MonsterStateMachine.cs:38-41 | a timer short of its duration only advances: state, previous state and duration stay |
| FoodHandler.Initialize | Assets/Game/Scripts/Runtime/Unit/Monster/MonsterFoodHandler.cs:22-26 | the squared ranges are non-negative and a distance is below the detection range iff its square is below the squared range; nothing else changes |
| FoodHandler.FindNearestFood | Assets/Game/Scripts/Runtime/Unit/Monster/MonsterFoodHandler.cs:28-53 | unloaded: no change; loaded: the nearest in-range food, earliest among ties, or none iff nothing is in range; near iff the cached distance is below the squared eat distance |
| FoodHandler.NoFoodNotNear | Assets/Game/Scripts/Runtime/Unit/Monster/MonsterFoodHandler.cs:32-52 | with nothing in range the monster has no food and is not near |
| FoodHandler.HandleFoodLogic | Assets/Game/Scripts/Runtime/Unit/Monster/MonsterFoodHandler.cs:55-71 | no food: nothing changes; near: `Eating` is forced, the food's nutrition is fed, the food is handed back and forgotten and the wander target taken; not near: the target becomes the food's position |
| FoodHandler.EatsOnce | Assets/Game/Scripts/Runtime/Unit/Monster/MonsterFoodHandler.cs:55-71 | a food is eaten at most once: a second call without a new scan eats nothing and changes nothing |
| InteractionHandler.UpdateTimers | Assets/Game/Scripts/Runtime/Unit/Monster/MonsterInteractionHandler.cs:16-20 | a positive cooldown drops by the frame time; any other value stays |
| InteractionHandler.CooldownNeverRises | Assets/Game/Scripts/Runtime/Unit/Monster/MonsterInteractionHandler.cs:16-20 | at non-negative frame times the cooldown never rises and, once not positive, stays fixed |
| InteractionHandler.HandlePoke | Assets/Game/Scripts/Runtime/Unit/Monster/MonsterInteractionHandler.cs:22-34 | a poke during the cooldown changes nothing; otherwise the cooldown restarts from the stats, happiness rises by the poke value (clamped), the coin flag is set and `Jumping` (draw 0) or `Itching` (draw 1) is forced |
| InteractionHandler.SecondPokeIgnored | Assets/Game/Scripts/Runtime/Unit/Monster/MonsterInteractionHandler.cs:22-34 | with a positive cooldown duration, a second immediate poke leaves everything as the first left it |
| InteractionHandler.OnPointer | Assets/Game/Scripts/Runtime/Unit/Monster/MonsterInteractionHandler.cs:36-37 | entering sets the hover flag, leaving clears it |
| InteractionHandler.OnPointerClick | Assets/Game/Scripts/Runtime/Unit/Monster/MonsterInteractionHandler.cs:38-41 | a click pokes a hovered monster and changes nothing on one that is not hovered |
| MovementBounds.CalculateMovementBounds | Assets/Game/Scripts/Runtime/Unit/Monster/MonsterMovementBounds.cs:23-35 | the play area shrunk on each side by half the monster's size |
| MovementBounds.BoundsSymmetric | Assets/Game/Scripts/Runtime/Unit/Monster/MonsterMovementBounds.cs:23-35 | the bounds are symmetric about the origin, and non-empty on an axis iff the monster's half-size fits in the area's |
| MovementBounds.GetRandomTarget | Assets/Game/Scripts/Runtime/Unit/Monster/MonsterMovementBounds.cs:14-21 | each coordinate of the target lies between the two bounds of its axis, in whichever order they fall |
| MovementBounds.TargetInsideArea | Assets/Game/Scripts/Runtime/Unit/Monster/MonsterMovementBounds.cs:14-35 | a monster that fits gets a target whose distance from the centre is at most the area's half-size less its own, on each axis |
| MovementBounds.SetRandomTarget | Assets/Game/Scripts/Runtime/Unit/Monster/MonsterController.cs:231-234 | the drawn target, or the origin when there is no bounds helper |
| VisualHandler.StageIndex | Assets/Game/Scripts/Runtime/Unit/Monster/MonsterVisualHandler.cs:67 | the level clamped into the array's index range |
| VisualHandler.GetCurrentSkeletonData | Assets/Game/Scripts/Runtime/Unit/Monster/MonsterVisualHandler.cs:58-69 | nothing without a definition or with a null or empty array; otherwise the skeleton of the clamped stage |
| VisualHandler.ApplyMonsterVisuals | Assets/Game/Scripts/Runtime/Unit/Monster/MonsterVisualHandler.cs:15-46 | nothing without a definition or graphic; a different wanted skeleton replaces the shown one and rebuilds once; the same one changes nothing |
| VisualHandler.ApplyTwiceIsApplyOnce | Assets/Game/Scripts/Runtime/Unit/Monster/MonsterVisualHandler.cs:15-33 | refreshing a second time changes nothing |
| VisualHandler.StagesSaturate | Assets/Game/Scripts/Runtime/Unit/Monster/MonsterVisualHandler.cs:58-69 | levels past the last stage show the last skeleton and negative levels the first |
| SaveHandler.Snapshot | Assets/Game/Scripts/Runtime/Unit/Monster/MonsterSaveHandler.cs:14-22 | the record holds id, hunger, happiness, both flags and level; its evolution counters stay at zero |
| SaveHandler.SaveData | Assets/Game/Scripts/Runtime/Unit/Monster/MonsterSaveHandler.cs:12-24 | the snapshot is stored under the monster's own key and every other key keeps its value |
| SaveHandler.InitNewMonster | Assets/Game/Scripts/Runtime/Unit/Monster/MonsterSaveHandler.cs:63-78 | needs start at the definition's base values (50 and 0 without one); with a definition, its flags are cleared and its level is 0 |
| SaveHandler.LoadFromSaveData | Assets/Game/Scripts/Runtime/Unit/Monster/MonsterSaveHandler.cs:42-61 | needs, id, flags and level come from the record; with a definition they are also copied onto it and the visuals refreshed |
| SaveHandler.ApplyMonsterDataStats | Assets/Game/Scripts/Runtime/Unit/Monster/MonsterSaveHandler.cs:80-90 | with a definition, the five tuning stats equal its fields; without one nothing changes |
| SaveHandler.LoadData | Assets/Game/Scripts/Runtime/Unit/Monster/MonsterSaveHandler.cs:26-40 | without a definition: a new monster at 50 and 0; with one: the stored record or a new monster at base needs, then the definition's stats |
| SaveHandler.SaveThenLoad | Assets/Game/Scripts/Runtime/Unit/Monster/MonsterSaveHandler.cs:12-61 | saving then loading with a definition restores needs, id, flags and level, and the definition carries the flags |
| SaveHandler.SetMonsterData | Assets/Game/Scripts/Runtime/Unit/Monster/MonsterController.cs:298-316 | a null definition changes nothing; otherwise the definition and id are assigned, the visuals applied and the save loaded |
| SaveHandler.NewMonsterStartsAtBase | Assets/Game/Scripts/Runtime/Unit/Monster/MonsterSaveHandler.cs:26-39 | a monster with nothing saved under its new id starts at the definition's base needs with the definition's stats |
| Evolution.LoadEvolutionData | Assets/Game/Scripts/Runtime/Unit/Monster/MonsterEvolutionHandler.cs:104-114 | the five counters come from the save and the last samples are the current needs |
| Evolution.NextRequirement | Assets/Game/Scripts/Runtime/Unit/Monster/MonsterEvolutionHandler.cs:168-181 | the first table entry aimed at the next level, or none iff no entry is |
| Evolution.DefaultNextRequirement | Assets/Game/Scripts/Runtime/Unit/Monster/MonsterEvolutionHandler.cs:75-102 | the built-in table has a next requirement exactly at levels 0 and 1 |
| Evolution.UpdateMonsterID | Assets/Game/Scripts/Runtime/Unit/Monster/MonsterEvolutionHandler.cs:228-235 | an id of at least three underscore parts becomes `{part 0}_Lv{level}_{part 2}`; a shorter one is kept |
| Evolution.UpdateKeepsDefinitionForm | Assets/Game/Scripts/Runtime/Unit/Monster/MonsterEvolutionHandler.cs:228-235 | a permanent id for one level becomes the permanent id for the new level, same definition id and characters |
| Evolution.UpdateDropsExtraParts | Assets/Game/Scripts/Runtime/Unit/Monster/MonsterEvolutionHandler.cs:230-234 | parts after the third are lost by the rewrite |
| Evolution.ResetCounters | Assets/Game/Scripts/Runtime/Unit/Monster/MonsterEvolutionHandler.cs:243-247 | all five counters are zero, the time alive included |
| Evolution.FinalFormTest | Assets/Game/Scripts/Runtime/Unit/Monster/MonsterEvolutionHandler.cs:210-214 | final when the new level is past the table or the stages run out at it; a null skeleton array read inside the table gives no answer |
| Evolution.TriggerEvolution | Assets/Game/Scripts/Runtime/Unit/Monster/MonsterEvolutionHandler.cs:198-226 | an ineligible monster is unchanged; otherwise level + 1, evolved, final form set when the test says so and never cleared, id rewritten, counters reset, session marked, and nothing else about the monster changes; a null skeleton array stops it after the level change |
| Evolution.DefaultFinalForm | Assets/Game/Scripts/Runtime/Unit/Monster/MonsterEvolutionHandler.cs:210-214 | with the built-in table, level 2 or beyond is final, and level 1 is final iff there are at most two stages |
| Evolution.CheckEvolutionConditions | Assets/Game/Scripts/Runtime/Unit/Monster/MonsterEvolutionHandler.cs:155-166 | evolves iff allowed, not yet evolved this session, a next requirement exists and all its thresholds are met; otherwise unchanged |
| Evolution.CheckEvolvesOnce | Assets/Game/Scripts/Runtime/Unit/Monster/MonsterEvolutionHandler.cs:155-226 | a met requirement raises the level by exactly one, and no further automatic check that session evolves again |
| Evolution.UpdateTracking | Assets/Game/Scripts/Runtime/Unit/Monster/MonsterEvolutionHandler.cs:116-141 | ineligible: counters untouched; eligible: time grows by the frame time and the need totals by their rises since the last samples |
| Evolution.TrackingNeverShrinks | Assets/Game/Scripts/Runtime/Unit/Monster/MonsterEvolutionHandler.cs:116-140 | in any tracking step that does not evolve the monster, checked or not, the monster is unchanged, time grows by the frame time, each need total grows by exactly its rise since the last sample and never shrinks, and the event counts stay |
| Evolution.OnFoodConsumed | Assets/Game/Scripts/Runtime/Unit/Monster/MonsterEvolutionHandler.cs:143-147 | exactly one more meal is counted before the check |
| Evolution.OnInteraction | Assets/Game/Scripts/Runtime/Unit/Monster/MonsterEvolutionHandler.cs:149-153 | exactly one more interaction is counted before the check |
| Evolution.EvolvedSessionOnlyCounts | Assets/Game/Scripts/Runtime/Unit/Monster/MonsterEvolutionHandler.cs:143-157 | after an evolution this session, meals and interactions only count |
| Evolution.ForceEvolution | Assets/Game/Scripts/Runtime/Unit/Monster/MonsterEvolutionHandler.cs:251-257 | evolves whenever the definition allows it, whatever the counters and session say |
| Evolution.GetEvolutionProgress | Assets/Game/Scripts/Runtime/Unit/Monster/MonsterEvolutionHandler.cs:260-294 | 1 without a next requirement; otherwise, with `n` positive thresholds, `n` times the progress is the sum of the clamped ratios (the mean), 0 when none is positive; always in [0, 1] |
| Evolution.FullProgressIffReached | Assets/Game/Scripts/Runtime/Unit/Monster/MonsterEvolutionHandler.cs:260-294 | with a next requirement that has a positive progress threshold, progress is 1 exactly when every positive time, happiness, hunger and food threshold is reached |
| Evolution.MetMeansFullProgress | Assets/Game/Scripts/Runtime/Unit/Monster/MonsterEvolutionHandler.cs:183-294 | a met requirement with any positive progress threshold shows as full progress |
| LegacyStateMachine.ValidTransitions | Assets/Game/Scripts/Runtime/Unit/MonsterStateMachine.cs:70-92 | exactly the rows, in order and with their multiplicities, leaving the current state, not entering a poke state during the cooldown, with food if required and hunger at the threshold; happiness is not consulted |
| LegacyStateMachine.StateDuration | Assets/Game/Scripts/Runtime/Unit/MonsterStateMachine.cs:104-141 | every duration is positive; without configuration 1 to 5; jumping 1 or its positive setting; flying 2; itching and eating between 2 and 4 |
| LegacyStateMachine.DurationsAgreeOutsideItchAndEat | Assets/Game/Scripts/Runtime/Unit/MonsterStateMachine.cs:104-141 | the two machines give the same duration for every state but itching and eating |
| LegacyStateMachine.ChangeState | Assets/Game/Scripts/Runtime/Unit/MonsterStateMachine.cs:94-102 | previous state recorded, timer at 0, duration a positive draw from the new state's range; the cooldown is untouched |
| LegacyStateMachine.ForceState | Assets/Game/Scripts/Runtime/Unit/MonsterStateMachine.cs:143-152 | forcing a poke state sets the cooldown to 5; any other state leaves it |
| LegacyStateMachine.SelectNextState | Assets/Game/Scripts/Runtime/Unit/MonsterStateMachine.cs:45-68 | no candidate, or a roll nothing reaches, leaves the machine unchanged; otherwise the target of the first row whose running total reaches the roll is entered, with the timer restarted |
| LegacyStateMachine.Tick | Assets/Game/Scripts/Runtime/Unit/MonsterStateMachine.cs:31-37 | the timer grows by the frame time; the cooldown drops by it only while positive |
| LegacyStateMachine.Update | Assets/Game/Scripts/Runtime/Unit/MonsterStateMachine.cs:29-43 | the clocks tick, and an expired timer asks for a next state |
| LegacyStateMachine.NoPokeDuringCooldown | Assets/Game/Scripts/Runtime/Unit/MonsterStateMachine.cs:80-83 | while the cooldown outlasts the frame, no frame enters a poke state |
| LegacyStateMachine.StuckWithoutCandidates | Assets/Game/Scripts/Runtime/Unit/MonsterStateMachine.cs:47-49 | when no row is a candidate after the clocks tick, the state stays and the timer keeps growing, expired or not |
| LegacyStateMachine.SelectPicksCandidate | Assets/Game/Scripts/Runtime/Unit/MonsterStateMachine.cs:51-67 | with non-negative probabilities and some candidate, an expired timer always picks: the first row whose running total reaches the roll, whose target is entered |
| LegacyController.Awake | Assets/Game/Scripts/Runtime/Unit/MonsterController.cs:116-123 | an empty id becomes the fresh GUID string; any other id stays |
| LegacyController.InitializeValues | Assets/Game/Scripts/Runtime/Unit/MonsterController.cs:156-168 | loaded iff the game manager is present and active; the squared ranges are the squares of the configured ones |
| LegacyController.SetHunger | Assets/Game/Scripts/Runtime/Unit/MonsterController.cs:82-91 | an equal value is ignored; a different one is stored and announced |
| LegacyController.Feed | Assets/Game/Scripts/Runtime/Unit/MonsterController.cs:387-390 | hunger moves by the amount, saturating at 0 and 100 |
| LegacyController.HungerTick | Assets/Game/Scripts/Runtime/Unit/MonsterController.cs:459-468 | hunger drops by the rate, saturating at 0 and 100 |
| LegacyController.HungerStaysInRange | Assets/Game/Scripts/Runtime/Unit/MonsterController.cs:459-468 | any run of meals and hunger passes keeps hunger in [0, 100] once there and lands in it after the first event; with a non-negative rate, passes alone never raise it |
| LegacyController.ReplayChangesOnlyHunger | Assets/Game/Scripts/Runtime/Unit/MonsterController.cs:387-390 | meals and hunger passes change nothing but hunger |
| LegacyController.SetHovered | Assets/Game/Scripts/Runtime/Unit/MonsterController.cs:93-106 | entering sets the hover flag and leaving clears it; the event fires only on a change |
| LegacyController.OnStateChanged | Assets/Game/Scripts/Runtime/Unit/MonsterController.cs:531-551 | with the flag set, leaving a poke state for a non-poke state drops one silver coin and clears the flag; any other change drops nothing |
| LegacyController.Poke | Assets/Game/Scripts/Runtime/Unit/MonsterController.cs:507-529 | ignored during the cooldown; otherwise cooldown 5, coin flag set, and `Jumping` or `Itching` forced, which itself drops nothing |
| LegacyController.OnPointerClick | Assets/Game/Scripts/Runtime/Unit/MonsterController.cs:107-113 | a click pokes only a hovered monster |
| LegacyController.CoinOncePerPoke | Assets/Game/Scripts/Runtime/Unit/MonsterController.cs:507-551 | a poke yields exactly one silver coin: the first change out of the forced state drops it and later changes drop none |
| LegacyController.GetCurrentMoveSpeed | Assets/Game/Scripts/Runtime/Unit/MonsterController.cs:241-252 | no machine: the configured speed; walking and running: the configuration's speeds; every other state: 0 |
| LegacyController.FindNearestFood | Assets/Game/Scripts/Runtime/Unit/MonsterController.cs:358-385 | unloaded: unchanged; loaded: the nearest in-range food, earliest among ties; near iff the closest distance is below the squared eat distance |
| LegacyController.SetRandomTarget | Assets/Game/Scripts/Runtime/Unit/MonsterController.cs:317-335 | the target lies inside the play area shrunk by half the monster's size |
| LegacyController.HandleFoodLogic | Assets/Game/Scripts/Runtime/Unit/MonsterController.cs:339-356 | near: the food's nutrition is fed to hunger, the food is forgotten and the wander target taken; otherwise the food becomes the target |
| LegacyController.HandleMovement | Assets/Game/Scripts/Runtime/Unit/MonsterController.cs:208-233 | the frame fails iff the speed cannot be read; the monster moves at its state's speed; a standing monster within 10 of its target takes a new one; a walking or running monster then runs the food phase from the moved position; a meal only happens near a known food, which is then forgotten |
| LegacyController.WalkFrame | Assets/Game/Scripts/Runtime/Unit/MonsterController.cs:222-232 | a food is eaten iff a known food is near, raising hunger by its nutrition, clamped, and forgetting it; otherwise hunger and the known food stay; the food logic's target (the eating wander point, the far food, or the old target) is kept unless the position before the move is within 10 of it, when a new one is taken; nothing else changes |
| LegacyController.WalkingEatsNearFood | Assets/Game/Scripts/Runtime/Unit/MonsterController.cs:208-233 | a configured walking or running monster eats exactly when a known food is near, and its hunger rises by that food's nutrition, clamped |
| LegacyController.Update | Assets/Game/Scripts/Runtime/Unit/MonsterController.cs:184-195 | an unloaded monster is untouched; a loaded one ticks its cooldown while positive and moves |
| LegacyController.PokeIgnoredWithinCooldown | Assets/Game/Scripts/Runtime/Unit/MonsterController.cs:507-512 | a second poke within five seconds of frame time changes nothing |
| LegacyController.SaveMonData | Assets/Game/Scripts/Runtime/Unit/MonsterController.cs:394-405 | the legacy record under the controller's own key, every other key unchanged |
| LegacyController.InitializeAsNewMonster | Assets/Game/Scripts/Runtime/Unit/MonsterController.cs:436-445 | hunger 100, and the definition's level is 0 and flags cleared |
| LegacyController.LoadFromSaveData | Assets/Game/Scripts/Runtime/Unit/MonsterController.cs:427-434 | hunger and id go onto the controller; flags and level go onto the definition, never the controller |
| LegacyController.ApplyMonsterDataStats | Assets/Game/Scripts/Runtime/Unit/MonsterController.cs:447-455 | speed, hunger rate and poop interval come from the definition |
| LegacyController.LoadMonData | Assets/Game/Scripts/Runtime/Unit/MonsterController.cs:407-425 | without a definition a new monster; with one, a missing record starts a new monster and a stored one is loaded, then the stats are applied; an unreadable key changes nothing |
| LegacyController.SaveThenLoad | Assets/Game/Scripts/Runtime/Unit/MonsterController.cs:394-434 | saving and loading restores hunger and id and puts the controller's flags onto the definition |
| LegacyController.LoadLeavesControllerFlags | Assets/Game/Scripts/Runtime/Unit/MonsterController.cs:427-434 | a record whose flags differ from the controller's leaves the two disagreeing after a load |
| Pet.Feed | Assets/Game/Scripts/Runtime/Unit/PetController.cs:276-279 | hunger moves by the amount, saturating at 0 and 100 |
| Pet.HungerTick | Assets/Game/Scripts/Runtime/Unit/PetController.cs:124 | hunger drops by the rate, saturating at 0 and 100 |
| Pet.PoopStep | Assets/Game/Scripts/Runtime/Unit/PetController.cs:281-287 | a poop at the pet's position iff hunger is above the eating threshold |
| Pet.HungryPetDoesNotPoop | Assets/Game/Scripts/Runtime/Unit/PetController.cs:137-148 | once hunger has dropped to the threshold the pet stops pooping until fed above it |
| Pet.FindNearestFood | Assets/Game/Scripts/Runtime/Unit/PetController.cs:196-216 | the nearest in-range food, earliest among ties, or none iff nothing is in range |
| Pet.SetRandomTarget | Assets/Game/Scripts/Runtime/Unit/PetController.cs:270-274 | the target is on the bottom line with `x` between the area's edges |
| Pet.MoveTowardsOnLine | Assets/Game/Scripts/Runtime/Unit/PetController.cs:223-226 | the pet reaches the target when it is within the step and otherwise moves exactly the whole step towards it, never past it |
| Pet.Step | Assets/Game/Scripts/Runtime/Unit/PetController.cs:220-226 | the pet's `y` is pinned to the bottom line, its `x` moves towards the target's by the speed-limited step, and nothing else about it changes |
| Pet.Arrive | Assets/Game/Scripts/Runtime/Unit/PetController.cs:228-239 | a food is destroyed iff the pet is within 10 of the target's `x` and the food is within eating distance, and then hunger rises by one meal; on arrival a new target is drawn on the bottom line; otherwise the frame is unchanged |
| Pet.HandleMovementAsWritten | Assets/Game/Scripts/Runtime/Unit/PetController.cs:218-254 | the food is destroyed iff the moved pet arrives within eating distance of it, and handed back iff the old position was within eating distance; when both happen hunger rises by two meals, otherwise by the meals that happened; a hand-back draws a new target on the bottom line; a food destroyed or handed back is no longer known afterwards; only position, hunger, known food and target change |
| Pet.DoubleFeedWitness | Assets/Game/Scripts/Runtime/Unit/PetController.cs:229-253 | a pet on a food at its target eats it twice in one frame: hunger 50 with a food worth 10 ends at 70 |
| Pet.HandleMovement | Assets/Game/Scripts/Runtime/Unit/PetController.cs:218-254 | the corrected frame eats a food at most once: destroyed iff the moved pet arrives within eating distance of it, handed back iff not destroyed and within eating distance of the old position, hunger rising by one meal; the new target comes from the hand-back draw, else the arrival draw, else stays; only position, hunger, known food and target change |
| Pet.LoadPetData | Assets/Game/Scripts/Runtime/Unit/PetController.cs:172-189 | a stored record restores hunger, position and id; none sets the bottom line from the area and draws a target on it |
| Farming.SavePlant | Assets/Game/Scripts/Runtime/Manager/FarmingManager.cs:28-38 | the plant is stored under its id, replacing any plant there, and every other plant is untouched |
| Farming.GetAfterSave | Assets/Game/Scripts/Runtime/Manager/FarmingManager.cs:28-43 | a saved plant is found under its id and other lookups are undisturbed |
| Farming.SaveIdempotent | Assets/Game/Scripts/Runtime/Manager/FarmingManager.cs:28-38 | saving twice is saving once |
| Farming.WaterPlant | Assets/Game/Scripts/Runtime/Manager/FarmingManager.cs:50-58 | an unknown id changes nothing; a known plant has full water and the current watering time, and no other plant changes |
| Farming.PlantNewSeed | Assets/Game/Scripts/Runtime/Manager/FarmingManager.cs:60-73 | a new seed with full water, no growth and both times now is added under the new id |
| Farming.UpdatePlant | Assets/Game/Scripts/Runtime/Manager/FarmingManager.cs:84-116 | final plants are untouched; water and growth stay in [0, 1]; the change flag holds iff the state changed; only state, growth and water change |
| Farming.GrowthNeverFalls | Assets/Game/Scripts/Runtime/Manager/FarmingManager.cs:93-98 | with time running forward, growth never falls |
| Farming.StatesMoveForward | Assets/Game/Scripts/Runtime/Manager/FarmingManager.cs:86-115 | a seed may sprout, mature or wither; a growing plant may mature or wither; final states stay |
| Farming.UpdatesCountWateringTimeAgain | Assets/Game/Scripts/Runtime/Manager/FarmingManager.cs:90-93 | updates at hours 10 and 12 wither a plant watered at hour 0, where one update at hour 12 leaves it 40% water |
| Farming.UpdateAllPlants | Assets/Game/Scripts/Runtime/Manager/FarmingManager.cs:79-122 | every plant is updated at the same time and no id is added or lost; a save is due iff some state changed |
| Farming.FinalPlantsUntouched | Assets/Game/Scripts/Runtime/Manager/FarmingManager.cs:86-87 | a mature or withered plant comes out of an update unchanged |
| Farming.ToDictionary | Assets/Game/Scripts/Runtime/Manager/FarmingManager.cs:143 | every key of the dictionary holds the plant with that id |
| Farming.ToDictionaryHolds | Assets/Game/Scripts/Runtime/Manager/FarmingManager.cs:143 | every listed plant is in the dictionary under its id |
| Farming.ToDictionaryOnlyListed | Assets/Game/Scripts/Runtime/Manager/FarmingManager.cs:143 | the dictionary holds only listed ids |
| Farming.ToDictionaryIffDistinct | Assets/Game/Scripts/Runtime/Manager/FarmingManager.cs:143 | the dictionary exists iff no two listed plants share an id |
| Farming.SaveAllPlants | Assets/Game/Scripts/Runtime/Manager/FarmingManager.cs:147-151 | the saved list has one plant per key, in the dictionary's enumeration order |
| Farming.LoadPlants | Assets/Game/Scripts/Runtime/Manager/FarmingManager.cs:138-145 | no saved list, or one with a repeated id, keeps the current plants; otherwise every listed plant is present under its id and no other id is |
| Farming.SaveThenLoad | Assets/Game/Scripts/Runtime/Manager/FarmingManager.cs:138-151 | saving every plant and loading the list restores the dictionary, in any enumeration order |
| GameManager.InitializePools | Assets/Game/Scripts/Runtime/Manager/GameManager.cs:48-64 | each pool holds `size` (or no) unplaced objects of its own prefab, with handles interleaved food, poop, coin in creation order |
| GameManager.SpawnFrom | Assets/Game/Scripts/Runtime/Manager/GameManager.cs:66-74 | the head of the pool, or a new object of the prefab when it is empty, comes out placed and active; the rest of the pool stays in order |
| GameManager.Despawn | Assets/Game/Scripts/Runtime/Manager/GameManager.cs:95-111 | the object is deactivated and joins the back of its pool |
| GameManager.PoolsKeepTheirPrefab | Assets/Game/Scripts/Runtime/Manager/GameManager.cs:66-111 | pools keep one prefab each, and spawning from a pool hands out one of its own objects |
| GameManager.DespawnThenSpawn | Assets/Game/Scripts/Runtime/Manager/GameManager.cs:66-111 | pools are first in, first out: an object despawned into an empty pool is the next one spawned |
| GameManager.SpawnFoodAt | Assets/Game/Scripts/Runtime/Manager/GameManager.cs:66-74 | from well-formed pools the object is food, active and at the position; a non-empty pool gives up its head; only the food pool changes |
| GameManager.SpawnPoopAt | Assets/Game/Scripts/Runtime/Manager/GameManager.cs:85-93 | from well-formed pools the object is poop, active and at the position; a non-empty pool gives up its head; only the poop pool changes |
| GameManager.SpawnCoinAtAsWritten | Assets/Game/Scripts/Runtime/Manager/GameManager.cs:75-83 | as written, an empty coin pool instantiates the food prefab |
| GameManager.EmptyCoinPoolSpawnsFood | Assets/Game/Scripts/Runtime/Manager/GameManager.cs:75-83 | with the coin pool used up, the as-written coin spawn hands out food |
| GameManager.SpawnCoinAt | Assets/Game/Scripts/Runtime/Manager/GameManager.cs:75-83 | corrected: a coin spawn always yields a coin, from the pool or the coin prefab |
| GameManager.CoinRoundTrip | Assets/Game/Scripts/Runtime/Manager/GameManager.cs:75-111 | a coin taken from the pool and despawned leaves the pool rotated by one |
| GameManager.SpentCoin | Assets/Game/Scripts/Runtime/Manager/GameManager.cs:130-137 | refused, with nothing changed, iff the purse holds less than the price; otherwise the purse shrinks by the price and the new balance is saved |
| GameManager.SpendingAdds | Assets/Game/Scripts/Runtime/Manager/GameManager.cs:130-137 | two purchases cost the sum of their prices |
| GameManager.SpawnNewPet | Assets/Game/Scripts/Runtime/Manager/GameManager.cs:159-166 | the new id joins the saved list, which is written under its key; an active pet prefab registers the new pet through its `Awake`, and nothing else joins the registry |
| GameManager.BuyPet | Assets/Game/Scripts/Runtime/Manager/GameManager.cs:188-198 | a pet is added iff the purse covers its price; the purse shrinks by the price, which is saved, and the registry gains the new pet when the prefab is active |
| GameManager.BuyPetPays | Assets/Game/Scripts/Runtime/Manager/GameManager.cs:188-198 | the ids grow by one exactly when the purse shrinks by the price |
| GameManager.RegisterPet | Assets/Game/Scripts/Runtime/Manager/GameManager.cs:113-119 | the pet is registered afterwards; nothing else is added; a registered pet changes nothing; a duplicate-free list stays so |
| GameManager.RegisterIdempotent | Assets/Game/Scripts/Runtime/Manager/GameManager.cs:113-119 | registering twice is registering once |
| GameManager.AlphabetIsAlphanumeric | Assets/Game/Scripts/Runtime/Manager/GameManager.cs:169 | the alphabet holds exactly the 62 ASCII letters and digits |
| GameManager.GenerateRandomID | Assets/Game/Scripts/Runtime/Manager/GameManager.cs:167-176 | an id of the requested length whose every character is an ASCII letter or digit, character `i` chosen by draw `i` |
| GameManager.GetRandomPositionInGameArea | Assets/Game/Scripts/Runtime/Manager/GameManager.cs:178-186 | each coordinate lies between the area's edges |
| GameManager.RandomPositionInArea | Assets/Game/Scripts/Runtime/Manager/GameManager.cs:178-221 | a random position is inside the area iff neither draw lands on a maximum edge |
| Gacha.ValidWeights | Assets/Game/Scripts/Runtime/Manager/GachaManager.cs:99 | exactly the weight entries whose rarity is allowed, in order and with their multiplicities |
| Gacha.GetRandomRarity | Assets/Game/Scripts/Runtime/Manager/GachaManager.cs:96-119 | none iff nothing is allowed; always an allowed rarity; the first allowed one when no weight is valid; otherwise the first valid entry whose running total reaches the roll, or the first valid entry when none does |
| Gacha.RarityIsWeightedPick | Assets/Game/Scripts/Runtime/Manager/GachaManager.cs:96-119 | with non-negative weights the rarity is the entry whose slice of the running total holds the roll |
| Gacha.SelectRandomMonster | Assets/Game/Scripts/Runtime/Manager/GachaManager.cs:86-94 | none iff the rarity is not allowed or has no monster; otherwise a monster of that rarity |
| Gacha.RollGacha | Assets/Game/Scripts/Runtime/Manager/GachaManager.cs:60-79 | no manager: nothing; a short purse: nothing paid; otherwise the price is paid and the spawned id is that of the monster selected for the drawn rarity, nothing when there is none; any spawned id is an allowed monster from the database |
| Gacha.PaidRollSpawns | Assets/Game/Scripts/Runtime/Manager/GachaManager.cs:60-79 | a paid roll whose drawn rarity has a monster in the database spawns one of that rarity |
| Gacha.PaidWithoutMonster | Assets/Game/Scripts/Runtime/Manager/GachaManager.cs:60-79 | the price is paid even when the drawn rarity has no monster |
| Gacha.AddAllowedRarity | Assets/Game/Scripts/Runtime/Manager/GachaManager.cs:133-139 | the rarity is allowed afterwards, the allowed set grows by it alone, and the list stays duplicate-free |
| Gacha.AddAllowedIdempotent | Assets/Game/Scripts/Runtime/Manager/GachaManager.cs:133-139 | adding twice is adding once |

## Left out

- Coroutines, `Time.time` and `DateTime.Now`. Each loop body is one step function, and the elapsed time or the clock is a parameter. The 5-second throttle of the evolution check is modelled with the clock as the parameter `now` (`Evolution.UpdateTracking`); the coin, poop and food-scan intervals are not modelled (the `CoinType` enum values that set the coin intervals are not shown).
- Rendering and engine calls. Spine animation calls, the try/catch animation fallback and directional flipping are left out, and so are colour lerps, `UIManager` messages (including the one in `SpentCoin`), hunger text and `Instantiate`/`SetActive` beyond the abstract pool queue.
- Event subscription and unsubscription. This is delegate identity in the runtime.
- Floating point. Scalars are exact reals, so NaN, infinity and rounding are not modelled. `Mathf.Approximately` is modelled as equality.
- The movement helper `MonsterMovement` is not part of this model. `MonsterUpdate.HandleMovement` takes it as a function parameter, and `LegacyController.HandleMovement` takes the engine's `MoveTowards` as one.
- The food handler's `IsEating` flag and `ForceResetEating` are not part of this model. `MonsterUpdate.HandleMovement` takes the flag as a parameter.
- `Monster.AreaHappiness` takes the screen height as a parameter, and the area height stands in for `sizeDelta.y`.
- `MonsterSeparationBehavior` is float steering geometry.
- The managers' start-up, save and debug methods are left out. Each either composes modelled operations with engine calls, or reads and writes through `SaveSystem` pet members (`SavePet`, `TryLoadPet`, `LoadSavedPetIDs`, `SavePetIDs`, `Flush`) that are not part of this model:
  - `GameManager.Awake` registers the singleton, builds the pools (`GameManager.InitializePools`) and calls `LoadGame`.
  - `GameManager.LoadGame` loads the coin count and the saved pet ids, then spawns every pet whose record loads (GameManager.cs:121-128).
  - `GameManager.SpawnSavedPets` instantiates a pet, sets its id and runs `Pet.LoadPetData` on it.
  - `GameManager.SaveAllPets` writes every active pet's hunger and position and the id list (GameManager.cs:139-149).
  - `GameManager.OnApplicationQuit` saves the pets, then writes the coin and poop counts and saves the preferences (GameManager.cs:223-230).
  - `GameManager.SpawnFood` instantiates a food, outside the pools, at `GameManager.GetRandomPositionInGameArea` (GameManager.cs:210-216); `Instantiate`'s identity is not modelled.
  - `GameManager.DebugPetData` only logs.
  - `GachaManager.Awake` and `OnDestroy` register and unregister the manager (`ServiceLocator.Register`, `ServiceLocator.Unregister`), and `ValidateConfiguration` only logs.
  - `FarmingManager`'s `Awake` and `OnDestroy` register and unregister it, `Start` runs `Farming.LoadPlants` then `Farming.UpdateAllPlants`, and `OnApplicationQuit` runs `Farming.SaveAllPlants`.
- The two monster controllers register with the game manager on start: `RegisterActiveMonster` (Unit/Monster/MonsterController.cs:133) and the legacy `RegisterToActiveMons` (Unit/MonsterController.cs:160). The game manager's active-monster list is not part of this model, and neither is `GameManager.SpawnLoadedMonsViaGacha`.
- The plant list save is therefore a plain list. `Farming.SaveAllPlants` returns it and `Farming.LoadPlants` takes it, and `FarmingManager.GetAllPlants` is the same value list `Farming.SaveAllPlants` builds.
- Repeated farming updates keep the source's rule that every update takes the whole time since the last watering, not since the previous update. Repeated updates therefore dry a plant faster than one update would, as `Farming.UpdatesCountWateringTimeAgain` shows. This is written behaviour rather than a modelling choice, and no intended alternative is evident.
- GameManager.GenerateRandomID: the `Random.Range(0, 62)` draws are a parameter, required to lie in [0, 62).
- GameManager.SpawnFrom: a new object's handle is a parameter, since `Instantiate`'s identity is not modelled.
- GameManager.SpawnNewPet: the new pet's handle and whether the pet prefab is active are parameters. The pet controller's `Awake` (PetController.cs:91-94) registers the pet only when the prefab is instantiated active; its coroutines and event wiring are not modelled.
- VisualHandler.GetCurrentSkeletonData: skeleton array entries are never null in the model, so the source's guard against a null entry (MonsterVisualHandler.cs:21) has no case to cover.
- LegacyController.LoadMonData: a key holding a foreign string makes the source throw inside `JsonUtility`. The model leaves the controller unchanged, as it does for `SaveHandler.LoadData` and `Pet.LoadPetData`.
- SaveHandler.LoadFromSaveData: writes the evolution flags and level onto the definition (MonsterSaveHandler.cs:54-57), but the source keeps one `MonsterData` asset per species, shared by every monster of it, while the model gives each monster its own copy of the definition; the effect on the other monsters of the species is not modelled.
- SaveHandler.InitNewMonster: clears the definition's evolution flags and level (MonsterSaveHandler.cs:74-76), but the source keeps one `MonsterData` asset per species, shared by every monster of it, while the model gives each monster its own copy of the definition; the effect on the other monsters of the species is not modelled.
- LegacyController.LoadFromSaveData: writes the flags and level onto the definition (MonsterController.cs:431-433), but the source keeps one `MonsterData` asset per species, shared by every monster of it, while the model gives each monster its own copy of the definition; the effect on the other monsters of the species is not modelled.
- LegacyController.InitializeAsNewMonster: resets the definition's flags and level (MonsterController.cs:441-443), but the source keeps one `MonsterData` asset per species, shared by every monster of it, while the model gives each monster its own copy of the definition; the effect on the other monsters of the species is not modelled.
- Evolution.CanEvolve: reads the definition's own flags (MonsterEvolutionHandler.cs:61), which in the source another monster of the species may have written last; the model reads the monster's own copy.
- The pools' objects carry no `Despawn` type check, as in the source. `GameManager.Despawn` is given the pool to return to, so a food handed to the coin pool is modelled as the source would do it.

## Findings

| source | as written | input that shows it | evidently intended | confidence | as-written member | corrected member |
|---|---|---|---|---|---|---|
| Assets/Game/Scripts/Runtime/Utility/SaveSystem.cs:53-62 | `MonsterIDs` is deleted before the id list is read back, so the read sees `""` and no `Pet{id}` record is deleted | a store holding `MonsterIDs = "abc"` and `Petabc`: the record survives the clear | read the id list first, then delete the records and the global keys | not executed | SaveSystem.ClearAsWrittenWitness | SaveSystem.ClearSaveData |
| Assets/Game/Scripts/Runtime/Manager/GameManager.cs:78 | an empty coin pool instantiates `foodPrefab` | a coin spawn with the coin pool used up hands out a food object | instantiate `coinPrefab` | not executed | GameManager.EmptyCoinPoolSpawnsFood | GameManager.SpawnCoinAt |
| Assets/Game/Scripts/Runtime/Unit/PetController.cs:229-253 | a food eaten on arrival is only destroyed at the end of the frame, so the second check feeds it again | pet at (0,0), target (0,0), food at (0,0) worth 10, hunger 50, eat distance 30, frame time 0: hunger ends at 70 | skip the second check once the food has been eaten on arrival | not executed | Pet.DoubleFeedWitness | Pet.HandleMovement |

=== FILE: catalog.dfy ===
/**
 The two catalogue assets: the monster database and the pet database, each a
 list of monster definitions, looked up by id (first match) or by rarity (a
 random match). The random index is a parameter `roll`; taken modulo the
 number of matches it stands for `Random.Range(0, count)`, and every index is
 reached by some roll.
 */
module Catalog {
  import opened Shared
  import opened Data

  /** The list scan of `List.Find` from position `start`, with nothing
      before `start` matching. */
  function FindFrom(all: seq<MonsterDefinition>, id: string, start: nat): (r: Option<nat>)
    requires start <= |all|
    requires forall j :: 0 <= j < start ==> all[j].monID != id
    ensures r.None? <==> forall i :: 0 <= i < |all| ==> all[i].monID != id
    ensures r.Some? ==> IsFirstWithId(all, id, r.value)
    decreases |all| - start
  {
    if start == |all| then None
    else if all[start].monID == id then Some(start)
    else FindFrom(all, id, start + 1)
  }

  /** The first definition whose `monID` is `id` (`List.Find`). */
  function FindById(all: seq<MonsterDefinition>, id: string): (r: Option<MonsterDefinition>)
    ensures r.None? <==> forall i :: 0 <= i < |all| ==> all[i].monID != id
    ensures r.Some? ==> exists i :: 0 <= i < |all| && all[i] == r.value && IsFirstWithId(all, id, i)
  {
    match FindFrom(all, id, 0)
    case None => None
    case Some(i) => Some(all[i])
  }

  /** `i` is the first position holding id `id`. */
  ghost predicate IsFirstWithId(all: seq<MonsterDefinition>, id: string, i: nat) {
    && i < |all| && all[i].monID == id
    && forall j :: 0 <= j < i ==> all[j].monID != id
  }

  /** The first match is unique, so the lookup is the definition at the
      first position with that id. */
  lemma FindByIdIsFirst(all: seq<MonsterDefinition>, id: string, i: nat)
    requires IsFirstWithId(all, id, i)
    ensures FindById(all, id) == Some(all[i])
  {
    assert FindFrom(all, id, 0).Some?;
    var k := FindFrom(all, id, 0).value;
    assert IsFirstWithId(all, id, k);
    assert k == i;
  }

  /** The definitions of one rarity, in list order (`List.FindAll`). */
  function OfRarity(all: seq<MonsterDefinition>, rarity: MonsterType): (r: seq<MonsterDefinition>)
    ensures forall i :: 0 <= i < |r| ==> r[i] in all && r[i].monType == rarity
    ensures forall i :: 0 <= i < |all| && all[i].monType == rarity ==> all[i] in r
    ensures Subsequence(r, all)
    ensures forall m :: multiset(r)[m] == (if m.monType == rarity then multiset(all)[m] else 0)
  {
    var ofRarity := (m: MonsterDefinition) => m.monType == rarity;
    FilterCounts(all, ofRarity);
    Filter(all, ofRarity)
  }

  /** A random definition of one rarity, `None` when there is none. */
  function RandomByRarity(all: seq<MonsterDefinition>, rarity: MonsterType, roll: nat): (r: Option<MonsterDefinition>)
    ensures r.None? <==> forall i :: 0 <= i < |all| ==> all[i].monType != rarity
    ensures r.Some? ==> r.value in all && r.value.monType == rarity
  {
    var matching := OfRarity(all, rarity);
    if |matching| == 0 then None
    else Some(matching[roll % |matching|])
  }

  /** Every definition of the rarity can come out of the random pick. */
  lemma EveryMatchReachable(all: seq<MonsterDefinition>, rarity: MonsterType, m: MonsterDefinition)
    requires m in all && m.monType == rarity
    ensures exists roll: nat :: RandomByRarity(all, rarity, roll) == Some(m)
  {
    var matching := OfRarity(all, rarity);
    var i :| 0 <= i < |all| && all[i] == m;
    assert all[i] in matching;
    var k :| 0 <= k < |matching| && matching[k] == m;
    SmallRemainder(k, |matching|);
    assert RandomByRarity(all, rarity, k) == Some(matching[k]);
  }

  /** A draw below the count picks its own position. */
  lemma SmallRemainder(k: nat, n: nat)
    requires k < n
    ensures k % n == k
  {
  }

  datatype MonsterDatabase = MonsterDatabase(allMonsters: seq<MonsterDefinition>)

  datatype PetDatabase = PetDatabase(allPets: seq<MonsterDefinition>)

  /** `MonsterDatabaseSO.GetMonsterByID`. */
  function GetMonsterByID(db: MonsterDatabase, id: string): (r: Option<MonsterDefinition>)
    ensures r.None? <==> forall i :: 0 <= i < |db.allMonsters| ==> db.allMonsters[i].monID != id
    ensures r.Some? ==> exists i :: 0 <= i < |db.allMonsters| && db.allMonsters[i] == r.value
                                   && IsFirstWithId(db.allMonsters, id, i)
  {
    FindById(db.allMonsters, id)
  }

  /** `MonsterDatabaseSO.GetRandomByRarity`. */
  function GetRandomMonsterByRarity(db: MonsterDatabase, rarity: MonsterType, roll: nat): (r: Option<MonsterDefinition>)
    ensures r.None? <==> forall i :: 0 <= i < |db.allMonsters| ==> db.allMonsters[i].monType != rarity
    ensures r.Some? ==> r.value in db.allMonsters && r.value.monType == rarity
  {
    RandomByRarity(db.allMonsters, rarity, roll)
  }

  /** `PetDatabaseSO.GetPetByID`. */
  function GetPetByID(db: PetDatabase, id: string): (r: Option<MonsterDefinition>)
    ensures r.None? <==> forall i :: 0 <= i < |db.allPets| ==> db.allPets[i].monID != id
    ensures r.Some? ==> exists i :: 0 <= i < |db.allPets| && db.allPets[i] == r.value
                                   && IsFirstWithId(db.allPets, id, i)
  {
    FindById(db.allPets, id)
  }

  /** `PetDatabaseSO.GetRandomByRarity`. */
  function GetRandomPetByRarity(db: PetDatabase, rarity: MonsterType, roll: nat): (r: Option<MonsterDefinition>)
    ensures r.None? <==> forall i :: 0 <= i < |db.allPets| ==> db.allPets[i].monType != rarity
    ensures r.Some? ==> r.value in db.allPets && r.value.monType == rarity
  {
    RandomByRarity(db.allPets, rarity, roll)
  }
}

=== FILE: coin.dfy ===
/**
 The coin asset: its kind, spawn rates and stored value. Asking for the value
 of a silver or gold coin fixes the stored value to 1 or 10; any other kind
 leaves it as it was. The answer is always the stored value.
 */
module Coin {
  import opened Shared

  datatype CoinAsset = CoinAsset(coinType: CoinType, onSpawnRate: real, offSpawnRate: real, coinValue: int)

  const SilverValue: int := 1
  const GoldValue: int := 10

  /** `CalculateValue`: the value returned and the asset with its stored
      value updated. */
  function CalculateValue(c: CoinAsset, kind: CoinType): (r: (int, CoinAsset))
    ensures r.0 == r.1.coinValue
    ensures kind == Silver ==> r.0 == SilverValue
    ensures kind == Gold ==> r.0 == GoldValue
    ensures kind.OtherCoin? ==> r.1 == c
    ensures r.1 == c.(coinValue := r.1.coinValue)
  {
    var v := if kind == Silver then SilverValue else if kind == Gold then GoldValue else c.coinValue;
    (v, c.(coinValue := v))
  }

  /** Asking twice gives the same answer and leaves the asset as the first
      call left it. */
  lemma CalculateValueStable(c: CoinAsset, kind: CoinType)
    ensures var (v1, c1) := CalculateValue(c, kind);
            CalculateValue(c1, kind) == (v1, c1)
  {
  }
}

=== FILE: common.dfy ===
/**
 Shared vocabulary of the desktop-pet simulation: the clamps Unity's `Mathf`
 provides, random draws passed in as parameters, 2-D vectors, and the
 enumerations every unit script refers to.
 */
module Shared {

  datatype Option<+T> = None | Some(value: T)

  /** `Mathf.Clamp(x, lo, hi)`: `lo` when below, `hi` when above, `x` otherwise. */
  function Clamp(x: real, lo: real, hi: real): (r: real)
    requires lo <= hi
    ensures lo <= r <= hi
    ensures lo <= x <= hi ==> r == x
    ensures x < lo ==> r == lo
    ensures x > hi ==> r == hi
  {
    if x < lo then lo else if x > hi then hi else x
  }

  /** Reference meaning of a saturating update: `r` is `x` when `x` lies in
      `[lo, hi]`, and the nearer bound otherwise. */
  ghost predicate Saturates(x: real, lo: real, hi: real, r: real) {
    && lo <= r <= hi
    && (lo <= x <= hi ==> r == x)
    && (x < lo ==> r == lo)
    && (x > hi ==> r == hi)
  }

  /** `Mathf.Clamp01`. */
  function Clamp01(x: real): (r: real)
    ensures 0.0 <= r <= 1.0
    ensures 0.0 <= x <= 1.0 ==> r == x
    ensures x < 0.0 ==> r == 0.0
    ensures x > 1.0 ==> r == 1.0
  {
    Clamp(x, 0.0, 1.0)
  }

  /** `Mathf.Clamp(i, lo, hi)` on integers, used for array indices. */
  function ClampInt(x: int, lo: int, hi: int): (r: int)
    requires lo <= hi
    ensures lo <= r <= hi
    ensures lo <= x <= hi ==> r == x
    ensures x < lo ==> r == lo
    ensures x > hi ==> r == hi
  {
    if x < lo then lo else if x > hi then hi else x
  }

  /** `a` occurs in `b` in the same order, possibly with gaps. */
  ghost predicate Subsequence<T>(a: seq<T>, b: seq<T>)
    decreases |b|
  {
    if |a| == 0 then true
    else if |b| == 0 then false
    else if a[0] == b[0] then Subsequence(a[1..], b[1..])
    else Subsequence(a, b[1..])
  }

  /** A subsequence of `b` stays one when `b` gets a new head. */
  lemma {:induction false} SubsequenceCons<T>(a: seq<T>, x: T, b: seq<T>)
    requires Subsequence(a, b)
    ensures Subsequence(a, [x] + b)
    decreases |b|, 1
  {
    if |a| > 0 {
      assert ([x] + b)[1..] == b;
      if a[0] == x {
        SubsequenceTail(a, b);
      }
    }
  }

  /** Dropping the head of a subsequence keeps it a subsequence. */
  lemma {:induction false} SubsequenceTail<T>(a: seq<T>, b: seq<T>)
    requires |a| > 0
    requires Subsequence(a, b)
    ensures Subsequence(a[1..], b)
    decreases |b|, 0
  {
    if a[0] != b[0] {
      SubsequenceTail(a, b[1..]);
    }
    SubsequenceCons(a[1..], b[0], b[1..]);
    assert [b[0]] + b[1..] == b;
  }

  /** `List.FindAll` / LINQ `Where`: the elements satisfying `p`, in order. */
  function Filter<T(==)>(s: seq<T>, p: T -> bool): (r: seq<T>)
    ensures forall i :: 0 <= i < |r| ==> p(r[i])
    ensures forall i :: 0 <= i < |r| ==> r[i] in s
    ensures forall i :: 0 <= i < |s| ==> (s[i] in r <==> p(s[i]))
    ensures Subsequence(r, s)
  {
    if |s| == 0 then []
    else
      var rest := Filter(s[1..], p);
      if p(s[0]) then
        assert ([s[0]] + rest)[1..] == rest;
        [s[0]] + rest
      else
        SubsequenceCons(rest, s[0], s[1..]);
        assert [s[0]] + s[1..] == s;
        rest
  }

  /** The filter keeps every element satisfying `p` as often as it occurs,
      and no other. */
  lemma {:induction false} FilterCounts<T>(s: seq<T>, p: T -> bool)
    ensures forall x :: multiset(Filter(s, p))[x] == (if p(x) then multiset(s)[x] else 0)
  {
    if |s| > 0 {
      FilterCounts(s[1..], p);
      assert s == [s[0]] + s[1..];
      var rest := Filter(s[1..], p);
      if p(s[0]) {
        assert Filter(s, p) == [s[0]] + rest;
      } else {
        assert Filter(s, p) == rest;
      }
    }
  }

  /** No element occurs twice. */
  predicate NoDuplicates<T(==)>(s: seq<T>) {
    forall i, j :: 0 <= i < j < |s| ==> s[i] != s[j]
  }

  /** A unit draw: the parameter that stands for the random position inside a
      float range. `Random.Range(a, b)` on floats is inclusive at both ends. */
  predicate IsUnitDraw(u: real) { 0.0 <= u <= 1.0 }

  /** `Random.Range(a, b)` on floats, with the randomness passed in as `u`. */
  function RangeDraw(a: real, b: real, u: real): (r: real)
    requires IsUnitDraw(u)
    ensures a <= b ==> a <= r <= b
    ensures b <= a ==> b <= r <= a
    ensures u == 0.0 ==> r == a
    ensures u == 1.0 ==> r == b
  {
    a + Scale(b - a, u)
  }

  /** `d` scaled by a unit draw lies between zero and `d`. */
  function Scale(d: real, u: real): (s: real)
    requires IsUnitDraw(u)
    ensures d >= 0.0 ==> 0.0 <= s <= d
    ensures d <= 0.0 ==> d <= s <= 0.0
    ensures u == 0.0 ==> s == 0.0
    ensures u == 1.0 ==> s == d
  {
    var p := d * u;
    assert d - p == d * (1.0 - u);
    if d >= 0.0 then
      NonNegativeProduct(d, u);
      NonNegativeProduct(d, 1.0 - u);
      p
    else
      NonNegativeProduct(-d, u);
      NonNegativeProduct(-d, 1.0 - u);
      assert (-d) * u == -p;
      assert (-d) * (1.0 - u) == p - d;
      p
  }

  /** `Dictionary.TryGetValue`: the value stored under the key, if any. */
  function TryGetValue<K, V>(m: map<K, V>, k: K): (r: Option<V>)
    ensures r.Some? <==> k in m
    ensures r.Some? ==> r.value == m[k]
  {
    if k in m then Some(m[k]) else None
  }

  /** A non-negative product of two non-negative reals. */
  lemma NonNegativeProduct(a: real, b: real)
    requires a >= 0.0 && b >= 0.0
    ensures a * b >= 0.0
  {
  }

  /** A product of two positive reals is positive. */
  lemma PositiveProduct(a: real, b: real)
    requires a > 0.0 && b > 0.0
    ensures a * b > 0.0
  {
  }

  /** The difference of two squares factors. */
  lemma DifferenceOfSquares(a: real, b: real)
    ensures a * a - b * b == (a - b) * (a + b)
  {
  }

  /** Beyond a non-negative bound, the square is beyond the bound's square. */
  lemma SquareBeyond(x: real, m: real)
    requires m >= 0.0 && x > m
    ensures x * x > m * m
  {
    DifferenceOfSquares(x, m);
    PositiveProduct(x - m, x + m);
  }

  /** For a non-negative step, the squared gap is within the squared step
      exactly when the gap is within the step on either side. */
  lemma SquareCompare(d: real, m: real)
    ensures m >= 0.0 ==> (d * d <= m * m <==> -m <= d <= m)
  {
    if m >= 0.0 {
      if d > m {
        SquareBeyond(d, m);
      } else if -d > m {
        SquareBeyond(-d, m);
        assert (-d) * (-d) == d * d;
      } else {
        DifferenceOfSquares(m, d);
        NonNegativeProduct(m - d, m + d);
      }
    }
  }

  /** `Random.Range(0, 2)` yields 0 or 1. */
  predicate IsCoinDraw(k: int) { k == 0 || k == 1 }

  /** The largest finite single-precision float, the initial "closest" distance of the food scans. */
  const FloatMax: real := 340282346638528859811704183484516925440.0

  datatype Vec2 = Vec2(x: real, y: real)

  /** `(b - a).sqrMagnitude`. */
  function SqrDist(a: Vec2, b: Vec2): (d: real)
    ensures d >= 0.0
  {
    (b.x - a.x) * (b.x - a.x) + (b.y - a.y) * (b.y - a.y)
  }

  /** `Vector2.Distance(a, b) < e` decided without a square root. */
  predicate DistanceBelow(a: Vec2, b: Vec2, e: real) {
    e > 0.0 && SqrDist(a, b) < e * e
  }

  /** The behaviour states of a monster. `Flying` only appears through the
      `_ =>` default arms of the state switches. */
  datatype MonsterState = Idle | Walking | Running | Flying | Jumping | Itching | Eating

  /** The two reactions a poke can force. */
  predicate IsPokeState(s: MonsterState) { s == Jumping || s == Itching }

  /** One row of the behaviour configuration's transition table. */
  datatype StateTransition = StateTransition(
    fromState: MonsterState,
    toState: MonsterState,
    probability: real,
    requiresFood: bool,
    hungerThreshold: real,
    happinessThreshold: real)

  /** The configuration asset both state machines read; `transitions` is `None`
      when the list is null. */
  datatype BehaviorConfig = BehaviorConfig(
    transitions: Option<seq<StateTransition>>,
    minIdleDuration: real, maxIdleDuration: real,
    minWalkDuration: real, maxWalkDuration: real,
    minRunDuration: real, maxRunDuration: real,
    jumpDuration: real,
    walkSpeed: real, runSpeed: real)

  /** Coin kinds. Only `Silver` and `Gold` are named by the scripts; any other
      enum value is carried as `OtherCoin`. */
  datatype CoinType = Silver | Gold | OtherCoin(code: int)

  /** Monster rarities named by the scripts. */
  datatype MonsterType = Common | Rare | Mythic | Boss
}

=== FILE: data.dfy ===
/**
 The plain records of the `Data` folder and the monster definition asset, as
 the unit scripts read them. They carry no behaviour of their own beyond
 their field defaults.
 */
module Data {
  import opened Shared

  /** Per-monster tuning copied onto a live monster (`MonsterData`). */
  datatype MonsterData = MonsterData(
    hungerDepletionRate: real,
    happinessDepletionRate: real,
    poopInterval: real,
    moveSpeed: real,
    foodDetectionRange: real,
    eatDistance: real,
    pokeHappinessIncrease: real,
    areaHappinessRate: real,
    pokeCooldownDuration: real,
    separationRadius: real,
    separationForce: real,
    enableSeparation: bool)

  /** The field initialisers of `MonsterData`. */
  const DefaultStats: MonsterData := MonsterData(
    hungerDepletionRate := 0.0,
    happinessDepletionRate := 0.0,
    poopInterval := 0.0,
    moveSpeed := 0.0,
    foodDetectionRange := 200.0,
    eatDistance := 5.0,
    pokeHappinessIncrease := 0.0,
    areaHappinessRate := 0.0,
    pokeCooldownDuration := 10.0,
    separationRadius := 100.0,
    separationForce := 2.0,
    enableSeparation := true)

  /** Opaque handle of one skeletal-animation asset (one per evolution stage). */
  type SkeletonAsset = nat

  /** The shared monster definition asset, with the fields the unit scripts
      read: `monID`/`monType` for catalogue lookups, `id` for fresh monster
      ids, base needs, the evolution flags the save paths write back, and the
      per-stage skeleton array (`None` when the array is null). */
  datatype MonsterDefinition = MonsterDefinition(
    monID: string,
    id: string,
    monType: MonsterType,
    moveSpd: real,
    hungerDepleteRate: real,
    poopRate: real,
    baseHunger: real,
    baseHappiness: real,
    pokeHappinessValue: real,
    areaHappinessRate: real,
    canEvolve: bool,
    isEvolved: bool,
    isFinalEvol: bool,
    evolutionLevel: int,
    monsterSpine: Option<seq<SkeletonAsset>>)

  /** The persisted per-monster record of the `Data` folder. */
  datatype MonsterSaveData = MonsterSaveData(
    monsterId: string,
    lastHunger: real,
    lastHappiness: real,
    isEvolved: bool,
    isFinalForm: bool,
    evolutionLevel: int,
    timeSinceCreation: real,
    totalHappinessAccumulated: real,
    totalHungerSatisfied: real,
    foodConsumed: int,
    interactionCount: int)

  datatype PlantState = Seed | Growing | Mature | Withered

  /** A plant record; times are hours on one clock. */
  datatype PlantSaveData = PlantSaveData(
    plantId: string,
    plantType: string,
    currentState: PlantState,
    growthProgress: real,
    lastWateredTime: real,
    plantedTime: real,
    waterLevel: real)
}

=== FILE: evolution.dfy ===
/**
 Evolution of the modular monster. While the definition allows evolution the
 handler accumulates time alive, rises in happiness and rises in hunger, and
 counts meals and interactions. The next requirement is the first table entry
 aimed at the level above the current one; when all seven thresholds and the
 optional custom condition hold, the monster evolves once per session: level
 up, evolved flag, final-form test, id rewrite and a reset of every counter.
 `Time.time` is the parameter `now`; `UIManager` messages and visuals are not
 modelled here.
 */
module Evolution {
  import opened Shared
  import opened Strings
  import opened Data
  import Monster

  /** One row of the requirement table. */
  datatype Requirement = Requirement(
    targetEvolutionLevel: int,
    minTimeAlive: real,
    minHappinessAccumulated: real,
    minCurrentHappiness: real,
    minHungerSatisfied: real,
    minCurrentHunger: real,
    minFoodConsumed: int,
    minInteractions: int,
    customCondition: Option<Monster.Monster -> bool>)

  /** The two built-in requirements, for levels 1 and 2. */
  const DefaultRequirements: seq<Requirement> := [
    Requirement(1, 300.0, 500.0, 80.0, 300.0, 70.0, 10, 20, None),
    Requirement(2, 900.0, 1500.0, 90.0, 1000.0, 80.0, 30, 50, None)
  ]

  /** The handler's counters and bookkeeping. */
  datatype Tracker = Tracker(
    timeSinceCreation: real,
    totalHappinessAccumulated: real,
    totalHungerSatisfied: real,
    foodConsumed: int,
    interactionCount: int,
    hasEvolvedThisSession: bool,
    lastHappinessCheck: real,
    lastHungerCheck: real,
    lastUpdateTime: real)

  /** The handler and its monster after a step. `aborted` marks a step cut
      short by a null skeleton array (see `TriggerEvolution`). */
  datatype Evo = Evo(tracker: Tracker, monster: Monster.Monster, aborted: bool)

  /** `CanEvolve`: the definition allows evolution and is not a final form.
      A missing definition makes the source throw before any change; the
      model reads it as "cannot evolve", which leaves the same state. */
  predicate CanEvolve(m: Monster.Monster) {
    m.definition.Some? && m.definition.value.canEvolve && !m.definition.value.isFinalEvol
  }

  /** `LoadEvolutionData`: the five counters from a save, and the current
      needs as the last samples. */
  function LoadEvolutionData(t: Tracker, m: Monster.Monster, time: real, happiness: real, hunger: real,
                             food: int, interactions: int): (r: Tracker)
    ensures r.lastHappinessCheck == m.happiness && r.lastHungerCheck == m.hunger
    ensures r.hasEvolvedThisSession == t.hasEvolvedThisSession && r.lastUpdateTime == t.lastUpdateTime
    ensures r.timeSinceCreation == time && r.totalHappinessAccumulated == happiness && r.totalHungerSatisfied == hunger
    ensures r.foodConsumed == food && r.interactionCount == interactions
  {
    t.(timeSinceCreation := time, totalHappinessAccumulated := happiness, totalHungerSatisfied := hunger,
       foodConsumed := food, interactionCount := interactions,
       lastHappinessCheck := m.happiness, lastHungerCheck := m.hunger)
  }

  /** `GetNextEvolutionRequirement`: the index of the first entry aimed at
      `level + 1`. */
  function NextRequirement(reqs: seq<Requirement>, level: int): (r: Option<nat>)
    ensures r.Some? ==> r.value < |reqs| && reqs[r.value].targetEvolutionLevel == level + 1
    ensures r.Some? ==> forall j :: 0 <= j < r.value ==> reqs[j].targetEvolutionLevel != level + 1
    ensures r.None? <==> forall j :: 0 <= j < |reqs| ==> reqs[j].targetEvolutionLevel != level + 1
  {
    if |reqs| == 0 then None
    else if reqs[0].targetEvolutionLevel == level + 1 then Some(0)
    else match NextRequirement(reqs[1..], level)
      case None => None
      case Some(i) => Some(i + 1)
  }

  /** The built-in table has a next requirement exactly at levels 0 and 1. */
  lemma DefaultNextRequirement(level: int)
    ensures NextRequirement(DefaultRequirements, level).Some? <==> level == 0 || level == 1
    ensures level == 0 ==> NextRequirement(DefaultRequirements, level) == Some(0)
    ensures level == 1 ==> NextRequirement(DefaultRequirements, level) == Some(1)
  {
  }

  /** `MeetsEvolutionRequirements`: all seven thresholds and the custom
      condition, which is true when absent. */
  predicate Meets(t: Tracker, m: Monster.Monster, req: Requirement) {
    && t.timeSinceCreation >= req.minTimeAlive
    && t.totalHappinessAccumulated >= req.minHappinessAccumulated
    && t.totalHungerSatisfied >= req.minHungerSatisfied
    && t.foodConsumed >= req.minFoodConsumed
    && t.interactionCount >= req.minInteractions
    && m.happiness >= req.minCurrentHappiness
    && m.hunger >= req.minCurrentHunger
    && (req.customCondition.None? || req.customCondition.value(m))
  }

  /** `UpdateMonsterID`: an id of at least three underscore-separated parts
      becomes `{part 0}_Lv{level}_{part 2}`; any other id is kept. */
  function UpdateMonsterID(id: string, newLevel: int): (r: string)
    ensures |Split(id, '_')| < 3 ==> r == id
    ensures |Split(id, '_')| >= 3 ==>
              var parts := Split(id, '_');
              Split(r, '_') == [parts[0], Monster.LevelTag(newLevel), parts[2]]
  {
    var parts := Split(id, '_');
    if |parts| >= 3 then
      Monster.IdParts(parts[0], newLevel, parts[2]);
      parts[0] + "_" + Monster.LevelTag(newLevel) + "_" + parts[2]
    else id
  }

  /** The rewrite agrees with the id a definition gives: a permanent id for
      one level becomes the permanent id for the new level with the same
      definition id and fresh characters. */
  lemma UpdateKeepsDefinitionForm(defId: string, level: int, guid: string, newLevel: int)
    requires Monster.IsGuidSlice(guid)
    requires '_' !in defId && '_' !in guid
    ensures UpdateMonsterID(Monster.DefinitionID(defId, level, guid), newLevel) == Monster.DefinitionID(defId, newLevel, guid)
  {
    Monster.DefinitionIDParts(defId, level, guid);
  }

  /** An id of three or more parts keeps the first and third and gets the
      new level tag in the middle: anything after the third part is lost. */
  lemma UpdateDropsExtraParts(parts: seq<string>, newLevel: int)
    requires |parts| >= 3
    requires SeparatorFree(parts, '_')
    ensures UpdateMonsterID(Join(parts, '_'), newLevel) == parts[0] + "_" + Monster.LevelTag(newLevel) + "_" + parts[2]
  {
    SplitJoin(parts, '_');
  }

  /** The counters after `OnEvolutionComplete`: all five zero. */
  function ResetCounters(t: Tracker): (r: Tracker)
    ensures r.timeSinceCreation == 0.0 && r.totalHappinessAccumulated == 0.0 && r.totalHungerSatisfied == 0.0
    ensures r.foodConsumed == 0 && r.interactionCount == 0
    ensures r.(timeSinceCreation := t.timeSinceCreation, totalHappinessAccumulated := t.totalHappinessAccumulated,
               totalHungerSatisfied := t.totalHungerSatisfied, foodConsumed := t.foodConsumed,
               interactionCount := t.interactionCount) == t
  {
    t.(timeSinceCreation := 0.0, totalHappinessAccumulated := 0.0, totalHungerSatisfied := 0.0,
       foodConsumed := 0, interactionCount := 0)
  }

  /** The final-form test, evaluated left to right: the skeleton array is
      read only when the level is still inside the table, and a null array
      there throws (`None`). */
  function FinalFormTest(newLevel: int, tableLength: nat, spine: Option<seq<SkeletonAsset>>): (r: Option<bool>)
    ensures newLevel >= tableLength ==> r == Some(true)
    ensures newLevel < tableLength && spine.None? ==> r.None?
    ensures newLevel < tableLength && spine.Some? ==> r == Some(|spine.value| <= newLevel + 1)
  {
    if newLevel >= tableLength then Some(true)
    else if spine.None? then None
    else Some(|spine.value| <= newLevel + 1)
  }

  /** `TriggerEvolution`. When the definition cannot evolve nothing happens.
      Otherwise the level goes up by one and the evolved flag is set; then
      the final-form test may set the final-form flag (never clear it), the
      id is rewritten, every counter is reset and the session is marked.
      With a null skeleton array the test throws after the level change,
      and the rest is skipped. */
  function TriggerEvolution(t: Tracker, m: Monster.Monster, reqs: seq<Requirement>): (r: Evo)
    ensures !CanEvolve(m) ==> r == Evo(t, m, false)
    ensures CanEvolve(m) ==> r.monster.evolutionLevel == m.evolutionLevel + 1 && r.monster.isEvolved
    ensures CanEvolve(m) ==> r.monster.definition == m.definition && r.monster.hunger == m.hunger
                             && r.monster.happiness == m.happiness
    ensures CanEvolve(m) && FinalFormTest(m.evolutionLevel + 1, |reqs|, m.definition.value.monsterSpine).None? ==>
              && r.aborted && r.tracker == t
              && r.monster == m.(evolutionLevel := m.evolutionLevel + 1, isEvolved := true)
    ensures CanEvolve(m) && FinalFormTest(m.evolutionLevel + 1, |reqs|, m.definition.value.monsterSpine).Some? ==>
              var fin := FinalFormTest(m.evolutionLevel + 1, |reqs|, m.definition.value.monsterSpine).value;
              && !r.aborted
              && r.monster.isFinalForm == (m.isFinalForm || fin)
              && r.monster.monsterID == UpdateMonsterID(m.monsterID, m.evolutionLevel + 1)
              && r.tracker == ResetCounters(t).(hasEvolvedThisSession := true)
              && r.monster == m.(evolutionLevel := m.evolutionLevel + 1, isEvolved := true,
                                 isFinalForm := r.monster.isFinalForm, monsterID := r.monster.monsterID)
  {
    if !CanEvolve(m) then Evo(t, m, false)
    else
      var newLevel := m.evolutionLevel + 1;
      var leveled := m.(evolutionLevel := newLevel, isEvolved := true);
      match FinalFormTest(newLevel, |reqs|, m.definition.value.monsterSpine)
      case None => Evo(t, leveled, true)
      case Some(fin) =>
        var finished := if fin then leveled.(isFinalForm := true) else leveled;
        var renamed := finished.(monsterID := UpdateMonsterID(m.monsterID, newLevel));
        Evo(ResetCounters(t).(hasEvolvedThisSession := true), renamed, false)
  }

  /** With the built-in table, evolving to level 2 or beyond is always
      final, and evolving to level 1 is final exactly when the definition
      has at most two skeleton stages. */
  lemma DefaultFinalForm(t: Tracker, m: Monster.Monster)
    requires CanEvolve(m)
    requires m.definition.value.monsterSpine.Some?
    ensures var r := TriggerEvolution(t, m, DefaultRequirements);
            && (m.evolutionLevel >= 1 ==> r.monster.isFinalForm)
            && (m.evolutionLevel == 0 && !m.isFinalForm ==>
                  (r.monster.isFinalForm <==> |m.definition.value.monsterSpine.value| <= 2))
  {
  }

  /** `CheckEvolutionConditions`: evolve when allowed, not yet evolved this
      session, a next requirement exists and it is met. */
  function CheckEvolutionConditions(t: Tracker, m: Monster.Monster, reqs: seq<Requirement>): (r: Evo)
    ensures !CanEvolve(m) || t.hasEvolvedThisSession || NextRequirement(reqs, m.evolutionLevel).None? ==>
              r == Evo(t, m, false)
    ensures CanEvolve(m) && !t.hasEvolvedThisSession && NextRequirement(reqs, m.evolutionLevel).Some? ==>
              var req := reqs[NextRequirement(reqs, m.evolutionLevel).value];
              && (Meets(t, m, req) ==> r == TriggerEvolution(t, m, reqs))
              && (!Meets(t, m, req) ==> r == Evo(t, m, false))
  {
    if !CanEvolve(m) || t.hasEvolvedThisSession then Evo(t, m, false)
    else match NextRequirement(reqs, m.evolutionLevel)
      case None => Evo(t, m, false)
      case Some(i) => if Meets(t, m, reqs[i]) then TriggerEvolution(t, m, reqs) else Evo(t, m, false)
  }

  /** An automatic check evolves a monster whose requirement is met: the
      level goes up by exactly one, and (unless the skeleton array is null)
      no further automatic check in the session evolves it again. */
  lemma CheckEvolvesOnce(t: Tracker, m: Monster.Monster, reqs: seq<Requirement>)
    requires CanEvolve(m) && !t.hasEvolvedThisSession
    requires NextRequirement(reqs, m.evolutionLevel).Some?
    requires Meets(t, m, reqs[NextRequirement(reqs, m.evolutionLevel).value])
    ensures var r := CheckEvolutionConditions(t, m, reqs);
            && r.monster.evolutionLevel == m.evolutionLevel + 1
            && (!r.aborted ==> CheckEvolutionConditions(r.tracker, r.monster, reqs) == Evo(r.tracker, r.monster, false))
  {
  }

  /** `UpdateEvolutionTracking(dt)` at time `now`. */
  function UpdateTracking(t: Tracker, m: Monster.Monster, reqs: seq<Requirement>, dt: real, now: real): (r: Evo)
    ensures !CanEvolve(m) ==> r == Evo(t, m, false)
    ensures CanEvolve(m) && !(now - t.lastUpdateTime >= 5.0 && !t.hasEvolvedThisSession) ==>
              && r.monster == m && !r.aborted
              && r.tracker.timeSinceCreation == t.timeSinceCreation + dt
              && r.tracker.totalHappinessAccumulated == t.totalHappinessAccumulated + Rise(t.lastHappinessCheck, m.happiness)
              && r.tracker.totalHungerSatisfied == t.totalHungerSatisfied + Rise(t.lastHungerCheck, m.hunger)
              && r.tracker.lastHappinessCheck == m.happiness && r.tracker.lastHungerCheck == m.hunger
              && r.tracker.foodConsumed == t.foodConsumed && r.tracker.interactionCount == t.interactionCount
              && r.tracker.lastUpdateTime == t.lastUpdateTime
              && r.tracker.hasEvolvedThisSession == t.hasEvolvedThisSession
    ensures CanEvolve(m) && now - t.lastUpdateTime >= 5.0 && !t.hasEvolvedThisSession ==>
              var sampled := Sample(t, m, dt);
              var checked := CheckEvolutionConditions(sampled, m, reqs);
              && r.monster == checked.monster && r.aborted == checked.aborted
              && (!checked.aborted ==> r.tracker == checked.tracker.(lastUpdateTime := now))
              && (checked.aborted ==> r.tracker == checked.tracker)
  {
    if !CanEvolve(m) then Evo(t, m, false)
    else
      var sampled := Sample(t, m, dt);
      if now - t.lastUpdateTime >= 5.0 && !t.hasEvolvedThisSession then
        var checked := CheckEvolutionConditions(sampled, m, reqs);
        if checked.aborted then checked
        else checked.(tracker := checked.tracker.(lastUpdateTime := now))
      else Evo(sampled, m, false)
  }

  /** How much a need rose since its last sample; a fall counts as nothing. */
  function Rise(last: real, current: real): (r: real)
    ensures r >= 0.0
    ensures current > last ==> last + r == current
    ensures current <= last ==> r == 0.0
  {
    if current > last then current - last else 0.0
  }

  /** The accumulation part of one tracking step. */
  function Sample(t: Tracker, m: Monster.Monster, dt: real): (r: Tracker)
    ensures r.timeSinceCreation == t.timeSinceCreation + dt
    ensures r.totalHappinessAccumulated == t.totalHappinessAccumulated + Rise(t.lastHappinessCheck, m.happiness)
    ensures r.totalHungerSatisfied == t.totalHungerSatisfied + Rise(t.lastHungerCheck, m.hunger)
    ensures r == t.(timeSinceCreation := r.timeSinceCreation, totalHappinessAccumulated := r.totalHappinessAccumulated,
                    totalHungerSatisfied := r.totalHungerSatisfied, lastHappinessCheck := m.happiness,
                    lastHungerCheck := m.hunger)
  {
    t.(timeSinceCreation := t.timeSinceCreation + dt,
       totalHappinessAccumulated := t.totalHappinessAccumulated + Rise(t.lastHappinessCheck, m.happiness),
       totalHungerSatisfied := t.totalHungerSatisfied + Rise(t.lastHungerCheck, m.hunger),
       lastHappinessCheck := m.happiness, lastHungerCheck := m.hunger)
  }

  /** A tracking step that does not evolve the monster, whether or not the
      throttled check ran, leaves the monster as it is and grows the
      accumulators by exactly the frame time and the rises since the last
      samples; the need totals never shrink. */
  lemma TrackingNeverShrinks(t: Tracker, m: Monster.Monster, reqs: seq<Requirement>, dt: real, now: real)
    requires CanEvolve(m)
    ensures var r := UpdateTracking(t, m, reqs, dt, now);
            r.monster.evolutionLevel == m.evolutionLevel ==>
              && r.monster == m && !r.aborted
              && r.tracker.timeSinceCreation == t.timeSinceCreation + dt
              && r.tracker.totalHappinessAccumulated == t.totalHappinessAccumulated + Rise(t.lastHappinessCheck, m.happiness)
              && r.tracker.totalHungerSatisfied == t.totalHungerSatisfied + Rise(t.lastHungerCheck, m.hunger)
              && r.tracker.totalHappinessAccumulated >= t.totalHappinessAccumulated
              && r.tracker.totalHungerSatisfied >= t.totalHungerSatisfied
              && r.tracker.foodConsumed == t.foodConsumed && r.tracker.interactionCount == t.interactionCount
  {
  }

  /** `OnFoodConsumed`: one more meal, then a check. */
  function OnFoodConsumed(t: Tracker, m: Monster.Monster, reqs: seq<Requirement>): (r: Evo)
    ensures var counted := t.(foodConsumed := t.foodConsumed + 1);
            r == CheckEvolutionConditions(counted, m, reqs)
    ensures r.monster.evolutionLevel == m.evolutionLevel ==> r.tracker.foodConsumed == t.foodConsumed + 1
  {
    CheckEvolutionConditions(t.(foodConsumed := t.foodConsumed + 1), m, reqs)
  }

  /** `OnInteraction`: one more interaction, then a check. */
  function OnInteraction(t: Tracker, m: Monster.Monster, reqs: seq<Requirement>): (r: Evo)
    ensures var counted := t.(interactionCount := t.interactionCount + 1);
            r == CheckEvolutionConditions(counted, m, reqs)
    ensures r.monster.evolutionLevel == m.evolutionLevel ==> r.tracker.interactionCount == t.interactionCount + 1
  {
    CheckEvolutionConditions(t.(interactionCount := t.interactionCount + 1), m, reqs)
  }

  /** After an evolution in this session, meals and interactions only count:
      the monster is left as it is. */
  lemma EvolvedSessionOnlyCounts(t: Tracker, m: Monster.Monster, reqs: seq<Requirement>)
    requires t.hasEvolvedThisSession
    ensures OnFoodConsumed(t, m, reqs) == Evo(t.(foodConsumed := t.foodConsumed + 1), m, false)
    ensures OnInteraction(t, m, reqs) == Evo(t.(interactionCount := t.interactionCount + 1), m, false)
  {
  }

  /** `ForceEvolution`: evolve if the definition allows it, whatever the
      counters and the session say. */
  function ForceEvolution(t: Tracker, m: Monster.Monster, reqs: seq<Requirement>): (r: Evo)
    ensures !CanEvolve(m) ==> r == Evo(t, m, false)
    ensures CanEvolve(m) ==> r.monster.evolutionLevel == m.evolutionLevel + 1
  {
    if CanEvolve(m) then TriggerEvolution(t, m, reqs) else Evo(t, m, false)
  }

  /** One progress term: the clamped ratio when the threshold is positive. */
  function Term(value: real, threshold: real): (r: real)
    ensures threshold > 0.0 ==> 0.0 <= r <= 1.0
    ensures threshold > 0.0 && value >= threshold ==> r == 1.0
    ensures threshold > 0.0 && value < threshold ==> r < 1.0
    ensures threshold <= 0.0 ==> r == 0.0
  {
    if threshold > 0.0 then
      assert (value / threshold) * threshold == value;
      if value >= threshold then
        assert value / threshold >= 1.0;
        Clamp01(value / threshold)
      else
        assert value / threshold < 1.0;
        Clamp01(value / threshold)
    else 0.0
  }

  function Counted(threshold: real): (n: nat)
    ensures n <= 1
    ensures n == 1 <==> threshold > 0.0
  {
    if threshold > 0.0 then 1 else 0
  }

  /** The number of positive progress thresholds of a requirement. */
  function PositiveThresholds(req: Requirement): nat {
    Counted(req.minTimeAlive) + Counted(req.minHappinessAccumulated)
    + Counted(req.minHungerSatisfied) + Counted(req.minFoodConsumed as real)
  }

  /** The four progress terms added up. */
  function TermSum(t: Tracker, req: Requirement): real {
    Term(t.timeSinceCreation, req.minTimeAlive)
    + Term(t.totalHappinessAccumulated, req.minHappinessAccumulated)
    + Term(t.totalHungerSatisfied, req.minHungerSatisfied)
    + Term(t.foodConsumed as real, req.minFoodConsumed as real)
  }

  /** Every positive progress threshold has been reached. */
  predicate ProgressReached(t: Tracker, req: Requirement) {
    && (req.minTimeAlive > 0.0 ==> t.timeSinceCreation >= req.minTimeAlive)
    && (req.minHappinessAccumulated > 0.0 ==> t.totalHappinessAccumulated >= req.minHappinessAccumulated)
    && (req.minHungerSatisfied > 0.0 ==> t.totalHungerSatisfied >= req.minHungerSatisfied)
    && (req.minFoodConsumed > 0 ==> t.foodConsumed >= req.minFoodConsumed)
  }

  /** `GetEvolutionProgress`: 1 without a next requirement; otherwise the
      mean of the clamped ratios over the positive time, happiness, hunger
      and food thresholds, and 0 when none is positive. */
  function GetEvolutionProgress(t: Tracker, reqs: seq<Requirement>, level: int): (p: real)
    ensures 0.0 <= p <= 1.0
    ensures NextRequirement(reqs, level).None? ==> p == 1.0
    ensures NextRequirement(reqs, level).Some? ==>
              var req := reqs[NextRequirement(reqs, level).value];
              && (PositiveThresholds(req) == 0 ==> p == 0.0)
              && (PositiveThresholds(req) > 0 ==> p * (PositiveThresholds(req) as real) == TermSum(t, req))
  {
    match NextRequirement(reqs, level)
    case None => 1.0
    case Some(i) =>
      var n := PositiveThresholds(reqs[i]);
      var total := TermSum(t, reqs[i]);
      if n > 0 then
        MeanAtMostOne(total, n);
        total / (n as real)
      else 0.0
  }

  /** A sum of at most `n` unit terms, averaged over `n`, lies in [0, 1]. */
  lemma MeanAtMostOne(total: real, n: nat)
    requires n > 0
    requires 0.0 <= total <= n as real
    ensures 0.0 <= total / (n as real) <= 1.0
    ensures (total / (n as real)) * (n as real) == total
  {
  }

  /** A mean whose scaled value is below the count is below one. */
  lemma MeanBelowOne(p: real, n: nat)
    requires n > 0 && p * (n as real) < n as real
    ensures p < 1.0
  {
  }

  /** With a next requirement that has a positive progress threshold, the
      progress is full exactly when every positive threshold is reached. */
  lemma FullProgressIffReached(t: Tracker, reqs: seq<Requirement>, level: int)
    requires NextRequirement(reqs, level).Some?
    requires PositiveThresholds(reqs[NextRequirement(reqs, level).value]) > 0
    ensures GetEvolutionProgress(t, reqs, level) == 1.0 <==>
              ProgressReached(t, reqs[NextRequirement(reqs, level).value])
  {
    var req := reqs[NextRequirement(reqs, level).value];
    var n := PositiveThresholds(req);
    var p := GetEvolutionProgress(t, reqs, level);
    assert p * (n as real) == TermSum(t, req);
    if ProgressReached(t, req) {
      assert TermSum(t, req) == n as real;
    } else {
      assert TermSum(t, req) < n as real;
      MeanBelowOne(p, n);
    }
  }

  /** A requirement that is met shows as full progress when it has any
      positive progress threshold. */
  lemma MetMeansFullProgress(t: Tracker, m: Monster.Monster, reqs: seq<Requirement>)
    requires NextRequirement(reqs, m.evolutionLevel).Some?
    requires var req := reqs[NextRequirement(reqs, m.evolutionLevel).value];
             Meets(t, m, req)
             && (req.minTimeAlive > 0.0 || req.minHappinessAccumulated > 0.0 || req.minHungerSatisfied > 0.0
                 || req.minFoodConsumed > 0)
    ensures GetEvolutionProgress(t, reqs, m.evolutionLevel) == 1.0
  {
    FullProgressIffReached(t, reqs, m.evolutionLevel);
  }
}

=== FILE: farming.dfy ===
/**
 The farming manager: plants kept in a dictionary by id, watered to full,
 drying out at 5% an hour and growing in proportion to their water. A plant
 goes from `Seed` to `Growing` once its growth passes 0.1, and ends either
 `Mature` (growth 1) or `Withered` (no water); both ends are final. Times are
 real numbers of hours on one clock; the current time is a parameter, and so
 is the id of a new plant.
 */
module Farming {
  import opened Shared
  import opened Data

  /** A stored plant is the persisted plant record itself. */
  type Plant = PlantSaveData

  type Plants = map<string, Plant>

  /** Water lost per hour, the same for every plant type. */
  const WaterDepletionRate: real := 0.05

  /** Growth speed factor, the same for every plant type. */
  const GrowthRate: real := 1.0

  /** Growth above which a seed counts as growing. */
  const SproutThreshold: real := 0.1

  predicate IsFinal(s: PlantState) { s == Mature || s == Withered }

  /** Every plant is stored under its own id. */
  ghost predicate WellKeyed(plants: Plants) {
    forall k :: k in plants ==> plants[k].plantId == k
  }

  /** `SavePlant`: insert, or replace the entry with the same id. */
  function SavePlant(plants: Plants, plant: Plant): (r: Plants)
    ensures plant.plantId in r && r[plant.plantId] == plant
    ensures r.Keys == plants.Keys + {plant.plantId}
    ensures forall k :: k in plants && k != plant.plantId ==> r[k] == plants[k]
    ensures WellKeyed(plants) ==> WellKeyed(r)
  {
    plants[plant.plantId := plant]
  }

  /** A saved plant is found under its id, and saving does not disturb the
      lookup of any other id. */
  lemma GetAfterSave(plants: Plants, plant: Plant, id: string)
    ensures TryGetValue(SavePlant(plants, plant), plant.plantId) == Some(plant)
    ensures id != plant.plantId ==> TryGetValue(SavePlant(plants, plant), id) == TryGetValue(plants, id)
  {
  }

  /** Saving the same plant twice is saving it once. */
  lemma SaveIdempotent(plants: Plants, plant: Plant)
    ensures SavePlant(SavePlant(plants, plant), plant) == SavePlant(plants, plant)
  {
  }

  /** `WaterPlant`: an unknown id changes nothing; a known plant is filled to
      full water, stamped with the current time and saved again under its
      own id, which is the key it was found under when the plants are
      well keyed. */
  function WaterPlant(plants: Plants, id: string, now: real): (r: Plants)
    ensures id !in plants ==> r == plants
    ensures id in plants ==> var w := plants[id].(waterLevel := 1.0, lastWateredTime := now);
                             w.plantId in r && r[w.plantId] == w
    ensures WellKeyed(plants) && id in plants ==>
              && r.Keys == plants.Keys
              && r[id] == plants[id].(waterLevel := 1.0, lastWateredTime := now)
              && (forall k :: k in plants && k != id ==> r[k] == plants[k])
    ensures WellKeyed(plants) ==> WellKeyed(r)
  {
    match TryGetValue(plants, id)
    case None => plants
    case Some(plant) => SavePlant(plants, plant.(lastWateredTime := now, waterLevel := 1.0))
  }

  /** `PlantNewSeed`, with the new plant's id as a parameter. */
  function PlantNewSeed(plants: Plants, id: string, plantType: string, now: real): (r: Plants)
    ensures r == plants[id := PlantSaveData(id, plantType, Seed, 0.0, now, now, 1.0)]
    ensures id !in plants ==> |r| == |plants| + 1
    ensures WellKeyed(plants) ==> WellKeyed(r)
  {
    SavePlant(plants, PlantSaveData(id, plantType, Seed, 0.0, now, now, 1.0))
  }

  /** One plant after an update, and whether its state changed. */
  datatype Updated = Updated(plant: Plant, changed: bool)

  /** Growth progress after `hours` at the given water level, before
      clamping. */
  function GrownBy(progress: real, hours: real, water: real): real {
    progress + hours * (GrowthRate * water) / 24.0
  }

  /** The body of the loop in `UpdateAllPlants` for one plant. */
  function UpdatePlant(p: Plant, now: real): (r: Updated)
    ensures IsFinal(p.currentState) ==> r == Updated(p, false)
    ensures r.changed <==> r.plant.currentState != p.currentState
    ensures r.plant == p.(currentState := r.plant.currentState, growthProgress := r.plant.growthProgress,
                          waterLevel := r.plant.waterLevel)
    ensures 0.0 <= p.waterLevel <= 1.0 && 0.0 <= p.growthProgress <= 1.0 ==>
              0.0 <= r.plant.waterLevel <= 1.0 && 0.0 <= r.plant.growthProgress <= 1.0
    ensures !IsFinal(p.currentState) ==>
              var hours := now - p.lastWateredTime;
              && Saturates(p.waterLevel - hours * WaterDepletionRate, 0.0, 1.0, r.plant.waterLevel)
              && Saturates(GrownBy(p.growthProgress, hours, r.plant.waterLevel), 0.0, 1.0,
                           r.plant.growthProgress)
              && (r.plant.currentState == Withered <==> r.plant.waterLevel <= 0.0)
              && (r.plant.currentState == Mature <==> r.plant.waterLevel > 0.0 && r.plant.growthProgress >= 1.0)
              && (r.plant.currentState == Growing <==>
                    r.plant.waterLevel > 0.0 && r.plant.growthProgress < 1.0
                    && (p.currentState == Growing || r.plant.growthProgress > SproutThreshold))
  {
    if IsFinal(p.currentState) then Updated(p, false)
    else
      var hours := now - p.lastWateredTime;
      var water := Clamp01(p.waterLevel - hours * WaterDepletionRate);
      var growth := Clamp01(GrownBy(p.growthProgress, hours, water));
      var grown := p.(waterLevel := water, growthProgress := growth);
      if water <= 0.0 then Updated(grown.(currentState := Withered), true)
      else if growth >= 1.0 then Updated(grown.(currentState := Mature), true)
      else if growth > SproutThreshold && p.currentState == Seed then Updated(grown.(currentState := Growing), true)
      else Updated(grown, false)
  }

  /** Growth never falls when time runs forward: the water factor is never
      negative. */
  lemma {:induction false} GrowthNeverFalls(p: Plant, now: real)
    requires 0.0 <= p.growthProgress <= 1.0
    requires now >= p.lastWateredTime
    ensures UpdatePlant(p, now).plant.growthProgress >= p.growthProgress
  {
    if !IsFinal(p.currentState) {
      var hours := now - p.lastWateredTime;
      var water := UpdatePlant(p, now).plant.waterLevel;
      NonNegativeProduct(hours, GrowthRate * water);
    }
  }

  /** States only move forward: a seed may sprout, mature or wither; a
      growing plant may mature or wither; the final states stay. */
  lemma StatesMoveForward(p: Plant, now: real)
    ensures var s := UpdatePlant(p, now).plant.currentState;
            && (IsFinal(p.currentState) ==> s == p.currentState)
            && (p.currentState == Growing ==> s != Seed)
  {
  }

  /** Each update takes the whole time since the last watering, not the time
      since the previous update: a plant watered at hour 0 and updated at
      hours 10 and 12 has withered, where one update at hour 12 leaves it
      40% water. */
  lemma UpdatesCountWateringTimeAgain()
    ensures var p := PlantSaveData("p", "t", Growing, 0.5, 0.0, 0.0, 1.0);
            && UpdatePlant(p, 12.0).plant.waterLevel == 0.4
            && UpdatePlant(UpdatePlant(p, 10.0).plant, 12.0).plant.currentState == Withered
  {
    var p := PlantSaveData("p", "t", Growing, 0.5, 0.0, 0.0, 1.0);
    var once := UpdatePlant(p, 10.0).plant;
    assert once.waterLevel == 0.5;
    assert once.currentState == Growing;
  }

  /** `UpdateAllPlants`: every plant updated at the same time, and whether
      any state changed (which triggers a save). */
  function UpdateAllPlants(plants: Plants, now: real): (r: (Plants, bool))
    ensures r.0.Keys == plants.Keys
    ensures forall k :: k in plants ==> r.0[k] == UpdatePlant(plants[k], now).plant
    ensures r.1 <==> exists k :: k in plants && r.0[k].currentState != plants[k].currentState
    ensures WellKeyed(plants) ==> WellKeyed(r.0)
  {
    var updated := map k | k in plants :: UpdatePlant(plants[k], now).plant;
    (updated, exists k :: k in plants && UpdatePlant(plants[k], now).changed)
  }

  /** An update leaves a plant already in its final state exactly as it was. */
  lemma FinalPlantsUntouched(plants: Plants, now: real, k: string)
    requires k in plants && IsFinal(plants[k].currentState)
    ensures UpdateAllPlants(plants, now).0[k] == plants[k]
  {
  }

  /** `_plants.ToDictionary(p => p.plantId)`: no result when two plants
      share an id (the dictionary throws). */
  function ToDictionary(list: seq<Plant>): (r: Option<Plants>)
    ensures r.Some? ==> forall k :: k in r.value ==> r.value[k].plantId == k
  {
    if |list| == 0 then Some(map[])
    else
      var last := list[|list| - 1];
      match ToDictionary(list[..|list| - 1])
      case None => None
      case Some(m) => if last.plantId in m then None else Some(m[last.plantId := last])
  }

  /** The dictionary maps every listed id to its plant. */
  lemma {:induction false} ToDictionaryHolds(list: seq<Plant>)
    requires ToDictionary(list).Some?
    ensures forall i :: 0 <= i < |list| ==>
              (list[i].plantId in ToDictionary(list).value && ToDictionary(list).value[list[i].plantId] == list[i])
  {
    if |list| > 0 {
      var init := list[..|list| - 1];
      ToDictionaryHolds(init);
      assert forall i :: 0 <= i < |init| ==> init[i] == list[i];
    }
  }

  /** The dictionary holds only listed ids. */
  lemma {:induction false} ToDictionaryOnlyListed(list: seq<Plant>, k: string)
    requires ToDictionary(list).Some? && k in ToDictionary(list).value
    ensures exists i :: 0 <= i < |list| && list[i].plantId == k
  {
    var init := list[..|list| - 1];
    if k != list[|list| - 1].plantId {
      ToDictionaryOnlyListed(init, k);
      var i :| 0 <= i < |init| && init[i].plantId == k;
      assert list[i] == init[i];
    }
  }

  /** The dictionary exists exactly when the ids are distinct. */
  lemma {:induction false} ToDictionaryIffDistinct(list: seq<Plant>)
    ensures ToDictionary(list).Some? <==> DistinctIds(list)
  {
    if |list| > 0 {
      var init := list[..|list| - 1];
      var last := list[|list| - 1];
      ToDictionaryIffDistinct(init);
      assert forall i :: 0 <= i < |init| ==> init[i] == list[i];
      if ToDictionary(init).Some? {
        if last.plantId in ToDictionary(init).value {
          ToDictionaryOnlyListed(init, last.plantId);
        } else {
          ToDictionaryHolds(init);
        }
      }
    }
  }

  predicate DistinctIds(list: seq<Plant>) {
    forall i, j :: 0 <= i < j < |list| ==> list[i].plantId != list[j].plantId
  }

  /** `SaveAllPlants`: the dictionary's values in its enumeration order,
      given as the sequence of its keys. */
  function SaveAllPlants(plants: Plants, order: seq<string>): (list: seq<Plant>)
    requires forall i :: 0 <= i < |order| ==> order[i] in plants
    ensures |list| == |order|
    ensures forall i :: 0 <= i < |order| ==> list[i] == plants[order[i]]
  {
    seq(|order|, i requires 0 <= i < |order| => plants[order[i]])
  }

  /** An enumeration order lists every key exactly once. */
  ghost predicate EnumeratesKeys(plants: Plants, order: seq<string>) {
    && (forall i :: 0 <= i < |order| ==> order[i] in plants)
    && (forall i, j :: 0 <= i < j < |order| ==> order[i] != order[j])
    && (forall k :: k in plants ==> k in order)
  }

  /** `LoadPlants`: no saved list keeps the current plants; a list with a
      repeated id throws and keeps them too; otherwise the dictionary is
      replaced by exactly the listed plants. */
  function LoadPlants(current: Plants, saved: Option<seq<Plant>>): (r: Plants)
    ensures saved.None? ==> r == current
    ensures saved.Some? && !DistinctIds(saved.value) ==> r == current
    ensures saved.Some? && DistinctIds(saved.value) ==>
              forall i :: 0 <= i < |saved.value| ==>
                (saved.value[i].plantId in r && r[saved.value[i].plantId] == saved.value[i])
    ensures saved.Some? && DistinctIds(saved.value) ==>
              forall k :: k in r ==> exists i :: 0 <= i < |saved.value| && saved.value[i].plantId == k
  {
    if saved.None? then current
    else
      ToDictionaryIffDistinct(saved.value);
      if ToDictionary(saved.value).None? then current
      else
        var loaded := ToDictionary(saved.value).value;
        ToDictionaryHolds(saved.value);
        assert forall k :: k in loaded ==> exists i :: 0 <= i < |saved.value| && saved.value[i].plantId == k by {
          forall k | k in loaded
            ensures exists i :: 0 <= i < |saved.value| && saved.value[i].plantId == k
          {
            ToDictionaryOnlyListed(saved.value, k);
          }
        }
        loaded
  }

  /** Saving every plant and loading the list back restores the dictionary,
      whatever the enumeration order. */
  lemma SaveThenLoad(plants: Plants, order: seq<string>, current: Plants)
    requires WellKeyed(plants)
    requires EnumeratesKeys(plants, order)
    ensures LoadPlants(current, Some(SaveAllPlants(plants, order))) == plants
  {
    var list := SaveAllPlants(plants, order);
    assert DistinctIds(list) by {
      forall i, j | 0 <= i < j < |list| ensures list[i].plantId != list[j].plantId {
        assert list[i].plantId == order[i] && list[j].plantId == order[j];
      }
    }
    var r := LoadPlants(current, Some(list));
    assert r.Keys == plants.Keys by {
      forall k | k in r ensures k in plants {
        var i :| 0 <= i < |list| && list[i].plantId == k;
        assert list[i].plantId == order[i];
      }
      forall k | k in plants ensures k in r {
        var i :| 0 <= i < |order| && order[i] == k;
        assert list[i].plantId == k;
      }
    }
    forall k | k in plants ensures r[k] == plants[k] {
      var i :| 0 <= i < |order| && order[i] == k;
      assert list[i].plantId == k;
    }
  }
}

=== FILE: food_handler.dfy ===
/**
 The modular monster's food handler: squared detection and eating ranges
 taken from the stats, a nearest-food scan that runs only once the monster is
 loaded, and the eat-or-approach decision. Eating forces the `Eating` state,
 feeds the food's nutrition, hands the food back to the pools, forgets it and
 picks a new wander target; otherwise the monster heads for the food.
 */
module FoodHandler {
  import opened Shared
  import opened Data
  import opened FoodScan
  import Monster
  import StateMachine

  datatype Handler = Handler(
    detectionRangeSqr: real,
    eatDistanceSqr: real,
    cachedDistanceSqr: real,
    nearest: Option<Food>,
    isNearFood: bool)

  /** A handler before `Initialize`: no food, the cached distance at its
      initial largest float, both ranges zero. */
  const NewHandler: Handler := Handler(0.0, 0.0, FloatMax, None, false)

  /** `Initialize`: squared ranges from the stats; nothing else changes. */
  function Initialize(h: Handler, data: MonsterData): (r: Handler)
    ensures r.detectionRangeSqr >= 0.0 && r.eatDistanceSqr >= 0.0
    ensures r == h.(detectionRangeSqr := r.detectionRangeSqr, eatDistanceSqr := r.eatDistanceSqr)
    ensures data.foodDetectionRange > 0.0 ==>
              forall a: Vec2, b: Vec2 :: SqrDist(a, b) < r.detectionRangeSqr <==> DistanceBelow(a, b, data.foodDetectionRange)
  {
    h.(detectionRangeSqr := data.foodDetectionRange * data.foodDetectionRange,
       eatDistanceSqr := data.eatDistance * data.eatDistance)
  }

  /** `FindNearestFood`. An unloaded monster changes nothing. Otherwise the
      nearest in-range food (earliest among ties) is remembered, the cached
      distance is its squared distance or the largest float, and the monster
      is near exactly when that distance is below the squared eat distance. */
  function FindNearestFood(h: Handler, loaded: bool, pos: Vec2, foods: seq<Option<Food>>): (r: Handler)
    ensures !loaded ==> r == h
    ensures loaded ==> r.detectionRangeSqr == h.detectionRangeSqr && r.eatDistanceSqr == h.eatDistanceSqr
    ensures loaded ==> (r.nearest.None? <==> forall j :: 0 <= j < |foods| ==> !Qualifies(pos, foods, h.detectionRangeSqr, j))
    ensures loaded && r.nearest.None? ==> r.cachedDistanceSqr == FloatMax
    ensures loaded && r.nearest.Some? ==>
              exists i: nat :: IsNearest(pos, foods, h.detectionRangeSqr, i) && foods[i] == r.nearest
                          && r.cachedDistanceSqr == DistTo(pos, foods, i)
    ensures loaded ==> (r.isNearFood <==> r.cachedDistanceSqr < h.eatDistanceSqr)
  {
    if !loaded then h
    else
      var scan := Scan(pos, foods, h.detectionRangeSqr);
      var nearest := if scan.index.Some? then foods[scan.index.value] else None;
      var cached := if nearest.Some? then scan.closest else FloatMax;
      h.(nearest := nearest, cachedDistanceSqr := cached, isNearFood := cached < h.eatDistanceSqr)
  }

  /** With nothing in range, a loaded scan leaves no food and the monster is
      not near, whenever the squared eat distance is a finite float. */
  lemma NoFoodNotNear(h: Handler, pos: Vec2, foods: seq<Option<Food>>)
    requires h.eatDistanceSqr <= FloatMax
    requires forall j :: 0 <= j < |foods| ==> !Qualifies(pos, foods, h.detectionRangeSqr, j)
    ensures FindNearestFood(h, true, pos, foods).nearest.None?
    ensures !FindNearestFood(h, true, pos, foods).isNearFood
  {
  }

  /** What one call of `HandleFoodLogic` leaves behind; `eaten` is the food
      handed back to the pools. */
  datatype FoodStep = FoodStep(
    handler: Handler,
    monster: Monster.Monster,
    machine: Option<StateMachine.Machine>,
    eaten: Option<Food>)

  /** `HandleFoodLogic`, with the two duration draws of the forced `Eating`
      state and the new wander target as parameters. */
  function HandleFoodLogic(h: Handler, m: Monster.Monster, machine: Option<StateMachine.Machine>,
                           config: Option<BehaviorConfig>, u1: real, u2: real, wander: Vec2): (r: FoodStep)
    requires IsUnitDraw(u1) && IsUnitDraw(u2)
    ensures h.nearest.None? ==> r == FoodStep(h, m, machine, None)
    ensures h.nearest.Some? && h.isNearFood ==>
              && r.eaten == h.nearest
              && r.handler == h.(nearest := None)
              && r.monster == Monster.Feed(m, h.nearest.value.nutritionValue).(target := wander)
              && (machine.None? ==> r.machine.None?)
              && (machine.Some? ==> r.machine.Some? && r.machine.value.current == Eating
                                    && r.machine.value.previous == machine.value.current)
    ensures h.nearest.Some? && !h.isNearFood ==>
              r == FoodStep(h, m.(target := h.nearest.value.position), machine, None)
  {
    match h.nearest
    case None => FoodStep(h, m, machine, None)
    case Some(food) =>
      if h.isNearFood then
        var forced := match machine
                      case None => None
                      case Some(sm) => Some(StateMachine.ForceState(sm, config, Eating, u1, u2));
        var fed := Monster.Feed(m, food.nutritionValue);
        FoodStep(h.(nearest := None), fed.(target := wander), forced, Some(food))
      else
        FoodStep(h, m.(target := food.position), machine, None)
  }

  /** Eating consumes the food at most once: after an eat, a second call
      without a new scan eats nothing and changes nothing. */
  lemma EatsOnce(h: Handler, m: Monster.Monster, machine: Option<StateMachine.Machine>,
                 config: Option<BehaviorConfig>, u1: real, u2: real, wander: Vec2)
    requires IsUnitDraw(u1) && IsUnitDraw(u2)
    requires h.nearest.Some? && h.isNearFood
    ensures var once := HandleFoodLogic(h, m, machine, config, u1, u2, wander);
            var twice := HandleFoodLogic(once.handler, once.monster, once.machine, config, u1, u2, wander);
            once.eaten == h.nearest && twice == FoodStep(once.handler, once.monster, once.machine, None)
  {
  }
}

=== FILE: food_scan.dfy ===
/**
 The nearest-food scan that three unit scripts repeat word for word: one pass
 over the active foods, skipping null entries, keeping the food whose squared
 distance is below both the squared detection range and the best distance so
 far. The best distance starts at the largest float, and the comparison is
 strict, so the earliest of equally near foods wins.
 */
module FoodScan {
  import opened Shared

  /** A food on the board: where it is and what eating it is worth. */
  datatype Food = Food(position: Vec2, nutritionValue: real)

  /** Squared distance from `pos` to the `j`-th food. */
  function DistTo(pos: Vec2, foods: seq<Option<Food>>, j: nat): real
    requires j < |foods| && foods[j].Some?
  {
    SqrDist(pos, foods[j].value.position)
  }

  /** The `j`-th entry is a food inside the detection range (and below the
      scan's initial best distance). */
  predicate Qualifies(pos: Vec2, foods: seq<Option<Food>>, rangeSqr: real, j: nat)
    requires j < |foods|
  {
    foods[j].Some? && DistTo(pos, foods, j) < rangeSqr && DistTo(pos, foods, j) < FloatMax
  }

  /** Outcome of a scan: the index of the chosen food and the best distance
      (the largest float when nothing was chosen). */
  datatype ScanResult = ScanResult(index: Option<nat>, closest: real)

  /** The scan from entry `k` on, with `best`/`closest` the state so far. */
  function ScanFrom(pos: Vec2, foods: seq<Option<Food>>, rangeSqr: real,
                    k: nat, best: Option<nat>, closest: real): (r: ScanResult)
    requires k <= |foods|
    requires best.None? ==> closest == FloatMax
    requires best.None? ==> forall j :: 0 <= j < k ==> !Qualifies(pos, foods, rangeSqr, j)
    requires best.Some? ==> best.value < k && Qualifies(pos, foods, rangeSqr, best.value)
    requires best.Some? ==> closest == DistTo(pos, foods, best.value)
    requires best.Some? ==> forall j :: 0 <= j < k && Qualifies(pos, foods, rangeSqr, j) ==> closest <= DistTo(pos, foods, j)
    requires best.Some? ==> forall j :: 0 <= j < best.value && Qualifies(pos, foods, rangeSqr, j) ==> closest < DistTo(pos, foods, j)
    ensures r.index.None? ==> r.closest == FloatMax
    ensures r.index.None? ==> forall j :: 0 <= j < |foods| ==> !Qualifies(pos, foods, rangeSqr, j)
    ensures r.index.Some? ==> r.index.value < |foods| && Qualifies(pos, foods, rangeSqr, r.index.value)
    ensures r.index.Some? ==> r.closest == DistTo(pos, foods, r.index.value)
    ensures r.index.Some? ==> forall j :: 0 <= j < |foods| && Qualifies(pos, foods, rangeSqr, j) ==> r.closest <= DistTo(pos, foods, j)
    ensures r.index.Some? ==> forall j :: 0 <= j < r.index.value && Qualifies(pos, foods, rangeSqr, j) ==> r.closest < DistTo(pos, foods, j)
    decreases |foods| - k
  {
    if k == |foods| then ScanResult(best, closest)
    else if foods[k].Some? && DistTo(pos, foods, k) < rangeSqr && DistTo(pos, foods, k) < closest then
      ScanFrom(pos, foods, rangeSqr, k + 1, Some(k), DistTo(pos, foods, k))
    else
      ScanFrom(pos, foods, rangeSqr, k + 1, best, closest)
  }

  /** Entry `i` is the food the scan must choose: it qualifies, no
      qualifying food is nearer, and every earlier qualifying food is
      strictly farther. */
  ghost predicate IsNearest(pos: Vec2, foods: seq<Option<Food>>, rangeSqr: real, i: nat) {
    && i < |foods|
    && Qualifies(pos, foods, rangeSqr, i)
    && (forall j :: 0 <= j < |foods| && Qualifies(pos, foods, rangeSqr, j) ==> DistTo(pos, foods, i) <= DistTo(pos, foods, j))
    && (forall j :: 0 <= j < i && Qualifies(pos, foods, rangeSqr, j) ==> DistTo(pos, foods, i) < DistTo(pos, foods, j))
  }

  /** The whole scan: nothing is chosen exactly when no food qualifies, and
      a chosen food is the nearest one, earliest first among ties. */
  function Scan(pos: Vec2, foods: seq<Option<Food>>, rangeSqr: real): (r: ScanResult)
    ensures r.index.None? <==> forall j :: 0 <= j < |foods| ==> !Qualifies(pos, foods, rangeSqr, j)
    ensures r.index.None? ==> r.closest == FloatMax
    ensures r.index.Some? ==> IsNearest(pos, foods, rangeSqr, r.index.value)
    ensures r.index.Some? ==> r.closest == DistTo(pos, foods, r.index.value)
  {
    ScanFrom(pos, foods, rangeSqr, 0, None, FloatMax)
  }

  /** At most one entry is the nearest, so the scan's choice is determined:
      any entry with the nearest-food properties is the one it returns. */
  lemma ScanChoiceUnique(pos: Vec2, foods: seq<Option<Food>>, rangeSqr: real, i: nat)
    requires IsNearest(pos, foods, rangeSqr, i)
    ensures Scan(pos, foods, rangeSqr).index == Some(i)
  {
    var r := Scan(pos, foods, rangeSqr);
    assert r.index.Some?;
    var k := r.index.value;
    assert DistTo(pos, foods, i) == DistTo(pos, foods, k);
  }
}

=== FILE: gacha.dfy ===
/**
 The gacha: pay the roll price, pick a rarity by weight among the allowed
 ones, then a random monster of that rarity from the monster database, and
 hand its id to the game manager. The game manager is the one the service
 locator yields (`None` when none is registered, where the roll fails before
 paying); the rarity draw `u` and the monster draw `roll` are parameters.
 */
module Gacha {
  import opened Shared
  import opened Data
  import Weighted
  import Catalog
  import GameManager

  /** One entry of the rarity table; `kind` is the rarity it weighs. */
  datatype RarityWeight = RarityWeight(kind: MonsterType, weight: real)

  datatype Config = Config(rarityWeights: seq<RarityWeight>, allowedRarities: seq<MonsterType>, gachaCost: int)

  /** The default roll price and allowed rarities. */
  const DefaultCost: int := 10
  const DefaultAllowed: seq<MonsterType> := [Rare, Mythic, Boss]

  /** The weight entries whose rarity is allowed, in table order. */
  function ValidWeights(g: Config): (r: seq<RarityWeight>)
    ensures forall i :: 0 <= i < |r| ==> r[i] in g.rarityWeights && r[i].kind in g.allowedRarities
    ensures forall i :: 0 <= i < |g.rarityWeights| && g.rarityWeights[i].kind in g.allowedRarities ==>
              g.rarityWeights[i] in r
    ensures Subsequence(r, g.rarityWeights)
    ensures forall w :: multiset(r)[w] == (if w.kind in g.allowedRarities then multiset(g.rarityWeights)[w] else 0)
  {
    var allowed := (w: RarityWeight) => w.kind in g.allowedRarities;
    FilterCounts(g.rarityWeights, allowed);
    Filter(g.rarityWeights, allowed)
  }

  function WeightsOf(ws: seq<RarityWeight>): (r: seq<real>)
    ensures |r| == |ws| && forall i :: 0 <= i < |ws| ==> r[i] == ws[i].weight
  {
    seq(|ws|, i requires 0 <= i < |ws| => ws[i].weight)
  }

  /** `GetRandomRarity`. With no valid weight the first allowed rarity is
      taken (`None`: the list is empty and the lookup throws); otherwise the
      first entry whose running total reaches the roll, or the first entry
      when none does. */
  function GetRandomRarity(g: Config, u: real): (r: Option<MonsterType>)
    requires IsUnitDraw(u)
    ensures r.None? <==> |g.allowedRarities| == 0
    ensures r.Some? ==> r.value in g.allowedRarities
    ensures |ValidWeights(g)| == 0 && |g.allowedRarities| > 0 ==> r == Some(g.allowedRarities[0])
    ensures |ValidWeights(g)| > 0 ==> exists i :: 0 <= i < |ValidWeights(g)| && r == Some(ValidWeights(g)[i].kind)
    ensures var valid := ValidWeights(g);
            var ws := WeightsOf(valid);
            var pick := Weighted.FirstReaching(ws, RangeDraw(0.0, Weighted.Total(ws), u));
            |valid| > 0 ==> r == Some(valid[if pick.Some? then pick.value else 0].kind)
  {
    var valid := ValidWeights(g);
    if |valid| == 0 then
      if |g.allowedRarities| > 0 then Some(g.allowedRarities[0]) else None
    else
      var ws := WeightsOf(valid);
      var roll := RangeDraw(0.0, Weighted.Total(ws), u);
      match Weighted.FirstReaching(ws, roll)
      case Some(i) => Some(valid[i].kind)
      case None => Some(valid[0].kind)
  }

  /** With non-negative weights the roll never falls back: the rarity is the
      one whose slice of the running total holds the roll. */
  lemma RarityIsWeightedPick(g: Config, u: real)
    requires IsUnitDraw(u)
    requires |ValidWeights(g)| > 0
    requires Weighted.NonNegative(WeightsOf(ValidWeights(g)))
    ensures var ws := WeightsOf(ValidWeights(g));
            var roll := RangeDraw(0.0, Weighted.Total(ws), u);
            exists i :: 0 <= i < |ws| && GetRandomRarity(g, u) == Some(ValidWeights(g)[i].kind)
                        && (roll > 0.0 ==> Weighted.PrefixSum(ws, i) < roll <= Weighted.PrefixSum(ws, i + 1))
  {
    var valid := ValidWeights(g);
    var ws := WeightsOf(valid);
    var roll := RangeDraw(0.0, Weighted.Total(ws), u);
    Weighted.UnitRollPicks(ws, u);
    var i := Weighted.FirstReaching(ws, roll).value;
    if roll > 0.0 {
      Weighted.PickIsBucket(ws, roll, i);
    }
    assert GetRandomRarity(g, u) == Some(valid[i].kind);
  }

  /** `SelectRandomMonster`: a random monster of the rarity among those whose
      rarity is allowed. */
  function SelectRandomMonster(g: Config, all: seq<MonsterDefinition>, rarity: MonsterType, roll: nat): (r: Option<MonsterDefinition>)
    ensures r.None? <==> rarity !in g.allowedRarities || forall i :: 0 <= i < |all| ==> all[i].monType != rarity
    ensures r.Some? ==> r.value in all && r.value.monType == rarity && rarity in g.allowedRarities
  {
    var allowed := Filter(all, (m: MonsterDefinition) => m.monType in g.allowedRarities);
    var r := Catalog.RandomByRarity(allowed, rarity, roll);
    assert rarity in g.allowedRarities ==> forall i :: 0 <= i < |all| && all[i].monType == rarity ==> all[i] in allowed;
    r
  }

  /** What a roll leaves: the game manager (if any) and the id handed to it
      for spawning. */
  datatype Outcome = Outcome(manager: Option<GameManager.Manager>, spawned: Option<string>)

  /** `RollGacha`. */
  function RollGacha(g: Config, db: Catalog.MonsterDatabase, manager: Option<GameManager.Manager>,
                     u: real, roll: nat): (r: Outcome)
    requires IsUnitDraw(u)
    ensures manager.None? ==> r == Outcome(None, None)
    ensures manager.Some? && manager.value.coinCollected < g.gachaCost ==> r == Outcome(manager, None)
    ensures manager.Some? && manager.value.coinCollected >= g.gachaCost ==>
              && r.manager.Some? && r.manager.value.coinCollected == manager.value.coinCollected - g.gachaCost
              && r.manager.value.savedPetIds == manager.value.savedPetIds
    ensures r.spawned.Some? ==>
              exists m :: m in db.allMonsters && m.monID == r.spawned.value && m.monType in g.allowedRarities
    ensures manager.Some? && manager.value.coinCollected >= g.gachaCost ==>
              r.spawned == match GetRandomRarity(g, u)
                           case None => None
                           case Some(rarity) =>
                             match SelectRandomMonster(g, db.allMonsters, rarity, roll)
                             case None => None
                             case Some(m) => Some(m.monID)
  {
    match manager
    case None => Outcome(None, None)
    case Some(gm) =>
      var (paid, after) := GameManager.SpentCoin(gm, g.gachaCost);
      if !paid then Outcome(manager, None)
      else match GetRandomRarity(g, u)
        case None => Outcome(Some(after), None)
        case Some(rarity) =>
          match SelectRandomMonster(g, db.allMonsters, rarity, roll)
          case None => Outcome(Some(after), None)
          case Some(m) => Outcome(Some(after), Some(m.monID))
  }

  /** The price is paid even when the chosen rarity has no monster. */
  lemma PaidWithoutMonster(g: Config, db: Catalog.MonsterDatabase, gm: GameManager.Manager, u: real, roll: nat)
    requires IsUnitDraw(u)
    requires gm.coinCollected >= g.gachaCost
    requires |g.allowedRarities| > 0
    requires forall i :: 0 <= i < |db.allMonsters| ==> db.allMonsters[i].monType != GetRandomRarity(g, u).value
    ensures var r := RollGacha(g, db, Some(gm), u, roll);
            r.spawned.None? && r.manager.value.coinCollected == gm.coinCollected - g.gachaCost
  {
  }

  /** A paid roll whose drawn rarity has a monster in the database always
      spawns one, of that rarity. */
  lemma PaidRollSpawns(g: Config, db: Catalog.MonsterDatabase, gm: GameManager.Manager, u: real, roll: nat)
    requires IsUnitDraw(u)
    requires gm.coinCollected >= g.gachaCost
    requires |g.allowedRarities| > 0
    requires exists i :: 0 <= i < |db.allMonsters| && db.allMonsters[i].monType == GetRandomRarity(g, u).value
    ensures var r := RollGacha(g, db, Some(gm), u, roll);
            && r.spawned.Some?
            && r.manager.value.coinCollected == gm.coinCollected - g.gachaCost
            && exists m :: m in db.allMonsters && m.monID == r.spawned.value && m.monType == GetRandomRarity(g, u).value
  {
    var rarity := GetRandomRarity(g, u).value;
    var m := SelectRandomMonster(g, db.allMonsters, rarity, roll).value;
    assert m in db.allMonsters && m.monType == rarity;
  }

  /** `AddAllowedRarity`: append the rarity unless it is already allowed. */
  function AddAllowedRarity(g: Config, rarity: MonsterType): (r: Config)
    ensures rarity in r.allowedRarities
    ensures forall t :: t in r.allowedRarities <==> t in g.allowedRarities || t == rarity
    ensures rarity in g.allowedRarities ==> r == g
    ensures NoDuplicates(g.allowedRarities) ==> NoDuplicates(r.allowedRarities)
    ensures r == g.(allowedRarities := r.allowedRarities)
  {
    if rarity in g.allowedRarities then g
    else g.(allowedRarities := g.allowedRarities + [rarity])
  }

  /** Adding a rarity twice is adding it once. */
  lemma AddAllowedIdempotent(g: Config, rarity: MonsterType)
    ensures AddAllowedRarity(AddAllowedRarity(g, rarity), rarity) == AddAllowedRarity(g, rarity)
  {
  }
}

=== FILE: game_manager.dfy ===
/**
 The game manager of the pet scene: object pools for food, poop and coins
 (queues of inactive objects, refilled by despawning and topped up by
 instantiating a prefab when empty), the coin purse with its save, buying a
 pet, the registry of active pets, eight-character pet ids, and random
 positions inside the game area. Instantiated objects get their handle from
 a parameter; random draws are parameters.
 */
module GameManager {
  import opened Shared
  import opened Strings
  import SaveSystem
  import Pet

  /** The prefabs the manager instantiates. */
  datatype Prefab = FoodPrefab | PoopPrefab | CoinPrefab | PetPrefab

  /** A game object: its handle, the prefab it was made from, its anchored
      position (`None` while it still has the prefab's own) and whether it
      is active. */
  datatype GameObject = GameObject(handle: nat, prefab: Prefab, position: Option<Vec2>, active: bool)

  /** The three pools, each a queue whose head is element 0. */
  datatype Pools = Pools(food: seq<GameObject>, poop: seq<GameObject>, coin: seq<GameObject>)

  /** Every pooled object is inactive and was made from `prefab`. */
  ghost predicate PoolOf(pool: seq<GameObject>, prefab: Prefab) {
    forall i :: 0 <= i < |pool| ==> pool[i].prefab == prefab && !pool[i].active
  }

  ghost predicate WellFormedPools(p: Pools) {
    PoolOf(p.food, FoodPrefab) && PoolOf(p.poop, PoopPrefab) && PoolOf(p.coin, CoinPrefab)
  }

  /** `InitializePools`: `size` inactive objects of each kind, instantiated
      in turn food, poop, coin, with handles counted up from `firstHandle`. */
  method InitializePools(size: int, firstHandle: nat) returns (p: Pools)
    ensures WellFormedPools(p)
    ensures |p.food| == |p.poop| == |p.coin| == (if size > 0 then size else 0)
    ensures forall i :: 0 <= i < |p.food| ==>
              && p.food[i].handle == firstHandle + 3 * i
              && p.poop[i].handle == firstHandle + 3 * i + 1
              && p.coin[i].handle == firstHandle + 3 * i + 2
    ensures forall i :: 0 <= i < |p.food| ==> p.food[i].position.None?
  {
    p := Pools([], [], []);
    var i := 0;
    var next := firstHandle;
    while i < size
      invariant 0 <= i <= (if size > 0 then size else 0)
      invariant next == firstHandle + 3 * i
      invariant WellFormedPools(p)
      invariant |p.food| == |p.poop| == |p.coin| == i
      invariant forall j :: 0 <= j < i ==>
                  && p.food[j].handle == firstHandle + 3 * j
                  && p.poop[j].handle == firstHandle + 3 * j + 1
                  && p.coin[j].handle == firstHandle + 3 * j + 2
      invariant forall j :: 0 <= j < i ==> p.food[j].position.None?
    {
      var f := GameObject(next, FoodPrefab, None, false);
      var q := GameObject(next + 1, PoopPrefab, None, false);
      var c := GameObject(next + 2, CoinPrefab, None, false);
      p := Pools(p.food + [f], p.poop + [q], p.coin + [c]);
      next := next + 3;
      i := i + 1;
    }
  }

  /** A spawned object and the pool left behind. */
  datatype Spawned = Spawned(obj: GameObject, pool: seq<GameObject>)

  /** The shared shape of the `Spawn...At` methods: dequeue the head of the
      pool, or instantiate `prefab` when the pool is empty; then place the
      object and activate it. */
  function SpawnFrom(pool: seq<GameObject>, prefab: Prefab, pos: Vec2, newHandle: nat): (r: Spawned)
    ensures r.obj.active && r.obj.position == Some(pos)
    ensures |pool| > 0 ==> r.obj.handle == pool[0].handle && r.obj.prefab == pool[0].prefab
    ensures |pool| > 0 ==> |r.pool| == |pool| - 1 && forall i :: 0 <= i < |r.pool| ==> r.pool[i] == pool[i + 1]
    ensures |pool| == 0 ==> r.pool == [] && r.obj.handle == newHandle && r.obj.prefab == prefab
  {
    var obj := if |pool| > 0 then pool[0] else GameObject(newHandle, prefab, None, false);
    var rest := if |pool| > 0 then pool[1..] else pool;
    Spawned(obj.(position := Some(pos), active := true), rest)
  }

  /** `DespawnFood`, `DespawnPoop`, `DespawnCoin`: deactivate and enqueue. */
  function Despawn(pool: seq<GameObject>, obj: GameObject): (r: seq<GameObject>)
    ensures |r| == |pool| + 1
    ensures r[..|pool|] == pool
    ensures r[|pool|] == obj.(active := false)
  {
    pool + [obj.(active := false)]
  }

  /** The pools keep one prefab each when an object of that prefab comes
      back, and spawning from a pool hands out one of its own objects. */
  lemma PoolsKeepTheirPrefab(pool: seq<GameObject>, prefab: Prefab, obj: GameObject, pos: Vec2, newHandle: nat)
    requires PoolOf(pool, prefab)
    ensures obj.prefab == prefab ==> PoolOf(Despawn(pool, obj), prefab)
    ensures PoolOf(SpawnFrom(pool, prefab, pos, newHandle).pool, prefab)
    ensures SpawnFrom(pool, prefab, pos, newHandle).obj.prefab == prefab
  {
  }

  /** The pools are first in, first out: an object despawned into an empty
      pool is the next one spawned, back at a new place. */
  lemma DespawnThenSpawn(obj: GameObject, prefab: Prefab, pos: Vec2, newHandle: nat)
    ensures var r := SpawnFrom(Despawn([], obj), prefab, pos, newHandle);
            r.obj == obj.(position := Some(pos), active := true) && r.pool == []
  {
  }

  function SpawnFoodAt(p: Pools, pos: Vec2, newHandle: nat): (r: (GameObject, Pools))
    ensures WellFormedPools(p) ==> WellFormedPools(r.1) && r.0.prefab == FoodPrefab
    ensures r.1 == p.(food := r.1.food) && r.0.active && r.0.position == Some(pos)
    ensures |p.food| > 0 ==> |r.1.food| == |p.food| - 1 && r.0.handle == p.food[0].handle
  {
    var s := SpawnFrom(p.food, FoodPrefab, pos, newHandle);
    (s.obj, p.(food := s.pool))
  }

  function SpawnPoopAt(p: Pools, pos: Vec2, newHandle: nat): (r: (GameObject, Pools))
    ensures WellFormedPools(p) ==> WellFormedPools(r.1) && r.0.prefab == PoopPrefab
    ensures r.1 == p.(poop := r.1.poop) && r.0.active && r.0.position == Some(pos)
    ensures |p.poop| > 0 ==> |r.1.poop| == |p.poop| - 1 && r.0.handle == p.poop[0].handle
  {
    var s := SpawnFrom(p.poop, PoopPrefab, pos, newHandle);
    (s.obj, p.(poop := s.pool))
  }

  /** `SpawnCoinAt` as written: an empty coin pool instantiates the food
      prefab. */
  function SpawnCoinAtAsWritten(p: Pools, pos: Vec2, newHandle: nat): (r: (GameObject, Pools))
    ensures r.1 == p.(coin := r.1.coin) && r.0.active && r.0.position == Some(pos)
    ensures |p.coin| > 0 ==> r.0.handle == p.coin[0].handle && r.0.prefab == p.coin[0].prefab
    ensures |p.coin| == 0 ==> r.0.prefab == FoodPrefab
  {
    var s := SpawnFrom(p.coin, FoodPrefab, pos, newHandle);
    (s.obj, p.(coin := s.pool))
  }

  /** With the coin pool used up, the as-written coin spawn hands out food. */
  lemma EmptyCoinPoolSpawnsFood(p: Pools, pos: Vec2, newHandle: nat)
    requires WellFormedPools(p) && |p.coin| == 0
    ensures SpawnCoinAtAsWritten(p, pos, newHandle).0.prefab != CoinPrefab
  {
  }

  /** `SpawnCoinAt` as evidently intended: an empty coin pool instantiates
      the coin prefab, so a coin spawn always yields a coin. */
  function SpawnCoinAt(p: Pools, pos: Vec2, newHandle: nat): (r: (GameObject, Pools))
    ensures WellFormedPools(p) ==> WellFormedPools(r.1) && r.0.prefab == CoinPrefab
    ensures r.1 == p.(coin := r.1.coin) && r.0.active && r.0.position == Some(pos)
    ensures |p.coin| > 0 ==> |r.1.coin| == |p.coin| - 1 && r.0.handle == p.coin[0].handle
  {
    var s := SpawnFrom(p.coin, CoinPrefab, pos, newHandle);
    (s.obj, p.(coin := s.pool))
  }

  /** A coin taken from the pool and despawned again leaves the pool as it
      was, rotated by one. */
  lemma CoinRoundTrip(p: Pools, pos: Vec2, newHandle: nat)
    requires WellFormedPools(p) && |p.coin| > 0
    ensures var (c, after) := SpawnCoinAt(p, pos, newHandle);
            var back := Despawn(after.coin, c);
            |back| == |p.coin| && PoolOf(back, CoinPrefab) && back[|back| - 1].handle == p.coin[0].handle
  {
  }

  /** The manager's persistent state: coins and poop collected, the saved
      pet ids, the registry of active pets (by handle) and the key-value
      store. */
  datatype Manager = Manager(
    coinCollected: int,
    poopCollected: int,
    savedPetIds: seq<string>,
    activePets: seq<nat>,
    store: Pet.Store)

  /** `petCost`. */
  const PetCost: int := 10

  /** Key under which the pet ids are stored when a pet is bought. */
  const SavedPetIdsKey: string := "SavedPetIDs"

  /** `SpentCoin`: refuse when the purse holds less than `amount`; otherwise
      pay and save the new balance. */
  function SpentCoin(m: Manager, amount: int): (r: (bool, Manager))
    ensures r.0 <==> m.coinCollected >= amount
    ensures !r.0 ==> r.1 == m
    ensures r.0 ==> r.1.coinCollected == m.coinCollected - amount
                    && SaveSystem.LoadCoin(r.1.store) == m.coinCollected - amount
                    && r.1 == m.(coinCollected := r.1.coinCollected, store := r.1.store)
                    && forall k :: k != SaveSystem.CoinKey ==>
                         ((k in r.1.store <==> k in m.store) && (k in m.store ==> r.1.store[k] == m.store[k]))
    ensures amount >= 0 && m.coinCollected >= 0 ==> r.1.coinCollected >= 0
  {
    if m.coinCollected < amount then (false, m)
    else
      var left := m.coinCollected - amount;
      (true, m.(coinCollected := left, store := SaveSystem.SaveCoin(m.store, left)))
  }

  /** Two purchases cost the sum of their prices, or fail on the way. */
  lemma SpendingAdds(m: Manager, a: int, b: int)
    requires a >= 0 && b >= 0
    ensures var (ok1, m1) := SpentCoin(m, a);
            var (ok2, m2) := SpentCoin(m1, b);
            ok1 && ok2 ==> m2.coinCollected == m.coinCollected - (a + b) && m.coinCollected >= a + b
  {
  }

  /** `SpawnNewPet`, with the generated id and the new object's handle as
      parameters: the id joins the saved list, which is written under its
      own key. Instantiating the pet prefab runs the controller's `Awake`
      when the prefab is active, and that registers the new pet. */
  function SpawnNewPet(m: Manager, newId: string, handle: nat, prefabActive: bool): (r: Manager)
    ensures r.savedPetIds == m.savedPetIds + [newId]
    ensures SavedPetIdsKey in r.store && r.store[SavedPetIdsKey] == SaveSystem.TextValue(Join(r.savedPetIds, ','))
    ensures prefabActive ==> handle in r.activePets && forall q :: q in r.activePets <==> q in m.activePets || q == handle
    ensures !prefabActive ==> r.activePets == m.activePets
    ensures r == m.(savedPetIds := r.savedPetIds, store := r.store, activePets := r.activePets)
  {
    var ids := m.savedPetIds + [newId];
    var pets := if prefabActive then RegisterPet(m.activePets, handle) else m.activePets;
    m.(savedPetIds := ids, store := m.store[SavedPetIdsKey := SaveSystem.TextValue(Join(ids, ','))], activePets := pets)
  }

  /** `BuyPet`: a new pet only when the purse covers its price. */
  function BuyPet(m: Manager, newId: string, handle: nat, prefabActive: bool): (r: Manager)
    ensures m.coinCollected < PetCost ==> r == m
    ensures m.coinCollected >= PetCost ==>
              && r.coinCollected == m.coinCollected - PetCost
              && r.savedPetIds == m.savedPetIds + [newId]
              && SaveSystem.LoadCoin(r.store) == m.coinCollected - PetCost
              && r.activePets == (if prefabActive then RegisterPet(m.activePets, handle) else m.activePets)
  {
    var (ok, paid) := SpentCoin(m, PetCost);
    if ok then SpawnNewPet(paid, newId, handle, prefabActive) else m
  }

  /** A pet bought is a pet paid for: the ids grow by one exactly when the
      purse shrinks by the price. */
  lemma BuyPetPays(m: Manager, newId: string, handle: nat, prefabActive: bool)
    ensures var r := BuyPet(m, newId, handle, prefabActive);
            (|r.savedPetIds| == |m.savedPetIds| + 1) <==> (r.coinCollected == m.coinCollected - PetCost)
  {
  }

  /** `RegisterPet`: add the pet unless it is already registered. */
  function RegisterPet(pets: seq<nat>, pet: nat): (r: seq<nat>)
    ensures pet in r
    ensures forall q :: q in r <==> q in pets || q == pet
    ensures pet in pets ==> r == pets
    ensures NoDuplicates(pets) ==> NoDuplicates(r)
    ensures |r| <= |pets| + 1
  {
    if pet in pets then pets else pets + [pet]
  }

  /** Registering twice is registering once. */
  lemma RegisterIdempotent(pets: seq<nat>, pet: nat)
    ensures RegisterPet(RegisterPet(pets, pet), pet) == RegisterPet(pets, pet)
  {
  }

  /** `n` consecutive character codes from `first`. */
  function CharRun(first: char, n: nat): (r: string)
    requires first as int + n <= 128
    ensures |r| == n
    ensures forall i :: 0 <= i < n ==> r[i] as int == first as int + i
  {
    seq(n, i requires 0 <= i < n => (first as int + i) as char)
  }

  /** The 62 characters of a pet id: upper-case letters, lower-case letters,
      digits. */
  const IdAlphabet: string := CharRun('A', 26) + CharRun('a', 26) + CharRun('0', 10)

  predicate IsAlphanumeric(c: char) {
    ('A' <= c <= 'Z') || ('a' <= c <= 'z') || ('0' <= c <= '9')
  }

  /** The alphabet holds exactly the ASCII letters and digits, in the order
      `A`-`Z`, `a`-`z`, `0`-`9`. */
  lemma AlphabetIsAlphanumeric()
    ensures |IdAlphabet| == 62
    ensures forall i :: 0 <= i < 26 ==> IdAlphabet[i] as int == 'A' as int + i
    ensures forall i :: 26 <= i < 52 ==> IdAlphabet[i] as int == 'a' as int + (i - 26)
    ensures forall i :: 52 <= i < 62 ==> IdAlphabet[i] as int == '0' as int + (i - 52)
    ensures forall i :: 0 <= i < |IdAlphabet| ==> IsAlphanumeric(IdAlphabet[i])
    ensures forall c :: IsAlphanumeric(c) ==> c in IdAlphabet
  {
    forall c | IsAlphanumeric(c) ensures c in IdAlphabet {
      if 'A' <= c <= 'Z' {
        assert IdAlphabet[c as int - 'A' as int] == c;
      } else if 'a' <= c <= 'z' {
        assert IdAlphabet[26 + c as int - 'a' as int] == c;
      } else {
        assert IdAlphabet[52 + c as int - '0' as int] == c;
      }
    }
  }

  /** `GenerateRandomID`: `draws[i]` is the `Random.Range(0, 62)` draw of
      character `i`. */
  method GenerateRandomID(length: nat, draws: seq<int>) returns (id: string)
    requires |draws| >= length
    requires forall i :: 0 <= i < length ==> 0 <= draws[i] < |IdAlphabet|
    ensures |id| == length
    ensures forall i :: 0 <= i < length ==> id[i] == IdAlphabet[draws[i]]
    ensures forall i :: 0 <= i < length ==> IsAlphanumeric(id[i])
  {
    id := [];
    var i := 0;
    while i < length
      invariant 0 <= i <= length
      invariant |id| == i
      invariant forall j :: 0 <= j < i ==> id[j] == IdAlphabet[draws[j]]
    {
      id := id + [IdAlphabet[draws[i]]];
      i := i + 1;
    }
    AlphabetIsAlphanumeric();
  }

  /** The game area's rectangle. */
  datatype Rect = Rect(min: Vec2, max: Vec2)

  /** `GetRandomPositionInGameArea`, one unit draw per axis. */
  function GetRandomPositionInGameArea(area: Rect, ux: real, uy: real): (p: Vec2)
    requires IsUnitDraw(ux) && IsUnitDraw(uy)
    ensures area.min.x <= area.max.x ==> area.min.x <= p.x <= area.max.x
    ensures area.min.y <= area.max.y ==> area.min.y <= p.y <= area.max.y
  {
    Vec2(RangeDraw(area.min.x, area.max.x, ux), RangeDraw(area.min.y, area.max.y, uy))
  }

  /** `IsPositionInGameArea`: the engine's `Rect.Contains`, closed at the
      minimum edges and open at the maximum ones. */
  predicate IsPositionInGameArea(area: Rect, p: Vec2) {
    area.min.x <= p.x < area.max.x && area.min.y <= p.y < area.max.y
  }

  /** A random position lies in the game area unless a draw lands on a
      maximum edge, which the area itself leaves out. */
  lemma RandomPositionInArea(area: Rect, ux: real, uy: real)
    requires IsUnitDraw(ux) && IsUnitDraw(uy)
    requires area.min.x < area.max.x && area.min.y < area.max.y
    ensures IsPositionInGameArea(area, GetRandomPositionInGameArea(area, ux, uy)) <==> ux < 1.0 && uy < 1.0
  {
    var p := GetRandomPositionInGameArea(area, ux, uy);
    AxisBelowMax(area.min.x, area.max.x, ux);
    AxisBelowMax(area.min.y, area.max.y, uy);
    assert p.x == RangeDraw(area.min.x, area.max.x, ux);
    assert p.y == RangeDraw(area.min.y, area.max.y, uy);
  }

  /** On one axis, a draw stays below the maximum exactly when it is below one. */
  lemma AxisBelowMax(lo: real, hi: real, u: real)
    requires IsUnitDraw(u) && lo < hi
    ensures RangeDraw(lo, hi, u) < hi <==> u < 1.0
  {
    if u < 1.0 {
      StrictScale(hi - lo, u);
      assert Scale(hi - lo, u) == (hi - lo) * u;
    }
  }

  /** A draw below one stays below a positive span. */
  lemma StrictScale(d: real, u: real)
    requires d > 0.0 && 0.0 <= u < 1.0
    ensures d * u < d
  {
    assert d - d * u == d * (1.0 - u);
    assert d * (1.0 - u) > 0.0;
  }
}

=== FILE: interaction.dfy ===
/**
 The modular monster's poke handling: a cooldown that counts down by the frame
 time while positive, and a poke that, outside the cooldown, restarts the
 cooldown from the stats, raises happiness, arms the coin drop and forces
 `Jumping` or `Itching` on the state machine when there is one. A click pokes
 only a hovered monster.
 */
module InteractionHandler {
  import opened Shared
  import Monster
  import StateMachine

  /** The handler's own state is the cooldown timer; the poke also acts on
      the monster and its state machine. */
  datatype Poked = Poked(cooldown: real, monster: Monster.Monster, machine: Option<StateMachine.Machine>)

  /** `UpdateTimers`: a positive cooldown drops by `dt`; any other value stays. */
  function UpdateTimers(cooldown: real, dt: real): (r: real)
    ensures cooldown > 0.0 ==> r == cooldown - dt
    ensures cooldown <= 0.0 ==> r == cooldown
  {
    if cooldown > 0.0 then cooldown - dt else cooldown
  }

  /** A cooldown running at non-negative frame times never rises, and once it
      is not positive it stays where it is. */
  lemma CooldownNeverRises(cooldown: real, dt: real)
    requires dt >= 0.0
    ensures UpdateTimers(cooldown, dt) <= cooldown
    ensures cooldown <= 0.0 ==> UpdateTimers(UpdateTimers(cooldown, dt), dt) == cooldown
  {
  }

  /** `HandlePoke`. `coin` is the `Random.Range(0, 2)` draw; `u1`, `u2` the
      duration draws of the forced state. */
  function HandlePoke(cooldown: real, m: Monster.Monster, machine: Option<StateMachine.Machine>,
                      config: Option<BehaviorConfig>, coin: int, u1: real, u2: real): (r: Poked)
    requires IsCoinDraw(coin) && IsUnitDraw(u1) && IsUnitDraw(u2)
    ensures cooldown > 0.0 ==> r == Poked(cooldown, m, machine)
    ensures cooldown <= 0.0 ==>
              && r.cooldown == m.stats.pokeCooldownDuration
              && Saturates(m.happiness + m.stats.pokeHappinessIncrease, 0.0, 100.0, r.monster.happiness)
              && r.monster == m.(happiness := r.monster.happiness, dropCoinAfterPoke := true)
              && (machine.None? ==> r.machine.None?)
              && (machine.Some? ==> r.machine.Some? && r.machine.value.previous == machine.value.current
                                    && r.machine.value.timer == 0.0
                                    && (r.machine.value.current == Jumping <==> coin == 0)
                                    && (r.machine.value.current == Itching <==> coin == 1))
  {
    if cooldown > 0.0 then Poked(cooldown, m, machine)
    else
      var happier := Monster.IncreaseHappiness(m, m.stats.pokeHappinessIncrease);
      var armed := happier.(dropCoinAfterPoke := true);
      var pokeState := if coin == 0 then Jumping else Itching;
      var forced := match machine
                    case None => None
                    case Some(sm) => Some(StateMachine.ForceState(sm, config, pokeState, u1, u2));
      Poked(m.stats.pokeCooldownDuration, armed, forced)
  }

  /** Two pokes in a row with a positive cooldown duration: the second one is
      ignored, so happiness rises and a state is forced once. */
  lemma SecondPokeIgnored(m: Monster.Monster, machine: Option<StateMachine.Machine>,
                          config: Option<BehaviorConfig>, coin: int, u1: real, u2: real)
    requires IsCoinDraw(coin) && IsUnitDraw(u1) && IsUnitDraw(u2)
    requires m.stats.pokeCooldownDuration > 0.0
    ensures var first := HandlePoke(0.0, m, machine, config, coin, u1, u2);
            HandlePoke(first.cooldown, first.monster, first.machine, config, coin, u1, u2) == first
  {
  }

  /** `OnPointerEnter`/`OnPointerExit` set the hover flag. */
  function OnPointer(m: Monster.Monster, entered: bool): (r: Monster.Monster)
    ensures r.hovered == entered
    ensures r == m.(hovered := entered)
  {
    Monster.SetHovered(m, entered).m
  }

  /** `OnPointerClick`: a poke when the monster is hovered, nothing otherwise. */
  function OnPointerClick(cooldown: real, m: Monster.Monster, machine: Option<StateMachine.Machine>,
                          config: Option<BehaviorConfig>, coin: int, u1: real, u2: real): (r: Poked)
    requires IsCoinDraw(coin) && IsUnitDraw(u1) && IsUnitDraw(u2)
    ensures !m.hovered ==> r == Poked(cooldown, m, machine)
    ensures m.hovered && cooldown <= 0.0 ==> r.monster.dropCoinAfterPoke && r.cooldown == m.stats.pokeCooldownDuration
    ensures m.hovered ==> r == HandlePoke(cooldown, m, machine, config, coin, u1, u2)
  {
    if m.hovered then HandlePoke(cooldown, m, machine, config, coin, u1, u2) else Poked(cooldown, m, machine)
  }
}

=== FILE: legacy_controller.dfy ===
/**
 The older, single-file monster controller. It keeps hunger only (no
 happiness), a five-second poke cooldown of its own, and a flag that makes the
 monster drop one silver coin when it leaves the poke state a poke put it in.
 It scans for food on a timer, eats food it is near (hunger only), heads for
 food it is not near, moves at a speed chosen by the state, and saves a
 smaller record whose evolution flags are restored onto the definition, not
 onto the controller. The engine's move-towards step, new targets and other
 random draws are parameters.
 */
module LegacyController {
  import opened Shared
  import opened Data
  import opened FoodScan
  import SaveSystem
  import LegacyStateMachine
  import MovementBounds

  /** The cooldown a poke starts. */
  const PokeCooldownDuration: real := 5.0

  /** The legacy save record, declared in the controller's own file. */
  datatype SaveData = SaveData(monsterId: string, lastHunger: real, isEvolved: bool, isFinalForm: bool, evolutionLevel: int)

  type Store = SaveSystem.Store<SaveData>

  datatype Controller = Controller(
    monsterID: string,
    hunger: real,
    hovered: bool,
    isEvolved: bool,
    isFinalForm: bool,
    evolutionLevel: int,
    definition: Option<MonsterDefinition>,
    hungerDepletionRate: real,
    poopInterval: real,
    moveSpeed: real,
    foodDetectionRange: real,
    eatDistance: real,
    position: Vec2,
    target: Vec2,
    foodRangeSqr: real,
    eatSqr: real,
    cachedDistanceSqr: real,
    nearest: Option<Food>,
    isNearFood: bool,
    isLoaded: bool,
    pokeCooldown: real,
    dropCoinAfterPoke: bool)

  /** `Awake`: an empty id becomes a fresh GUID string; any other id stays. */
  function Awake(c: Controller, guid: string): (r: Controller)
    ensures c.monsterID != "" ==> r == c
    ensures c.monsterID == "" ==> r == c.(monsterID := guid)
  {
    if c.monsterID == "" then c.(monsterID := guid) else c
  }

  /** `InitializeValues`: loaded when the game manager is active; the squared
      food ranges from the configured ones. */
  function InitializeValues(c: Controller, managerActive: bool): (r: Controller)
    ensures r.isLoaded == managerActive
    ensures r.foodRangeSqr == c.foodDetectionRange * c.foodDetectionRange && r.foodRangeSqr >= 0.0
    ensures r.eatSqr == c.eatDistance * c.eatDistance && r.eatSqr >= 0.0
    ensures r == c.(isLoaded := r.isLoaded, foodRangeSqr := r.foodRangeSqr, eatSqr := r.eatSqr)
  {
    c.(isLoaded := managerActive, foodRangeSqr := c.foodDetectionRange * c.foodDetectionRange,
       eatSqr := c.eatDistance * c.eatDistance)
  }

  /** The hunger setter: an equal value is ignored; `fired` tells whether the
      change event was raised. */
  function SetHunger(c: Controller, value: real): (r: (Controller, bool))
    ensures r.1 <==> value != c.hunger
    ensures r.0 == c.(hunger := value)
  {
    if c.hunger == value then (c, false) else (c.(hunger := value), true)
  }

  /** `Feed`: hunger moves by `amount`, saturating at 0 and 100. */
  function Feed(c: Controller, amount: real): (r: Controller)
    ensures Saturates(c.hunger + amount, 0.0, 100.0, r.hunger)
    ensures r == c.(hunger := r.hunger)
  {
    SetHunger(c, Clamp(c.hunger + amount, 0.0, 100.0)).0
  }

  /** One pass of the hunger routine. */
  function HungerTick(c: Controller): (r: Controller)
    ensures Saturates(c.hunger - c.hungerDepletionRate, 0.0, 100.0, r.hunger)
    ensures r == c.(hunger := r.hunger)
  {
    SetHunger(c, Clamp(c.hunger - c.hungerDepletionRate, 0.0, 100.0)).0
  }

  /** One hunger change the controller can go through: a meal worth
      `amount`, or a pass of the hunger routine. */
  datatype HungerEvent = Meal(amount: real) | Deplete

  /** The controller after the events, applied in order. */
  function Replay(c: Controller, events: seq<HungerEvent>): Controller
    decreases |events|
  {
    if |events| == 0 then c
    else
      var next := if events[0].Meal? then Feed(c, events[0].amount) else HungerTick(c);
      Replay(next, events[1..])
  }

  /** Every event is a pass of the hunger routine. */
  predicate OnlyDepletes(events: seq<HungerEvent>) {
    forall i :: 0 <= i < |events| ==> events[i] == Deplete
  }

  /** Meals and hunger passes change nothing but hunger. */
  lemma {:induction false} ReplayChangesOnlyHunger(c: Controller, events: seq<HungerEvent>)
    ensures Replay(c, events) == c.(hunger := Replay(c, events).hunger)
    decreases |events|
  {
    if |events| > 0 {
      var next := if events[0].Meal? then Feed(c, events[0].amount) else HungerTick(c);
      ReplayChangesOnlyHunger(next, events[1..]);
    }
  }

  /** Whatever the amounts and rates, any run of meals and hunger passes
      keeps hunger in [0, 100] once it is there and lands in it after the
      first event even from outside; with a non-negative rate, passes alone
      never raise it. */
  lemma {:induction false} HungerStaysInRange(c: Controller, events: seq<HungerEvent>)
    ensures 0.0 <= c.hunger <= 100.0 || |events| > 0 ==> 0.0 <= Replay(c, events).hunger <= 100.0
    ensures OnlyDepletes(events) && c.hungerDepletionRate >= 0.0 && 0.0 <= c.hunger <= 100.0 ==>
              Replay(c, events).hunger <= c.hunger
    decreases |events|
  {
    if |events| > 0 {
      var next := if events[0].Meal? then Feed(c, events[0].amount) else HungerTick(c);
      assert Replay(c, events) == Replay(next, events[1..]);
      HungerStaysInRange(next, events[1..]);
      if OnlyDepletes(events) {
        assert forall i :: 0 <= i < |events[1..]| ==> events[1..][i] == events[i + 1];
      }
    }
  }

  /** `OnPointerEnter` and `OnPointerExit`. */
  function SetHovered(c: Controller, entered: bool): (r: Controller)
    ensures r.hovered == entered && r == c.(hovered := entered)
  {
    if c.hovered == entered then c else c.(hovered := entered)
  }

  /** What a poke leaves: the controller and the state machine, if any. */
  datatype Poked = Poked(c: Controller, machine: Option<LegacyStateMachine.Machine>)

  /** The coin-drop rule run on every state change: with the flag set, a
      change from a poke state to any other state drops one silver coin and
      clears the flag. */
  function OnStateChanged(c: Controller, previous: MonsterState, newState: MonsterState): (r: (Controller, Option<CoinType>))
    ensures r.1.Some? <==> c.dropCoinAfterPoke && IsPokeState(previous) && !IsPokeState(newState)
    ensures r.1.Some? ==> r.1 == Some(Silver) && r.0 == c.(dropCoinAfterPoke := false)
    ensures r.1.None? ==> r.0 == c
  {
    if c.dropCoinAfterPoke && IsPokeState(previous) && !IsPokeState(newState) then
      (c.(dropCoinAfterPoke := false), Some(Silver))
    else (c, None)
  }

  /** `Poke`. Inside the cooldown nothing happens. Otherwise the cooldown
      restarts at five seconds, the coin flag is set and the state machine is
      forced into `Jumping` (coin 0) or `Itching` (coin 1); that change is a
      change into a poke state, so it drops nothing. */
  function Poke(c: Controller, machine: Option<LegacyStateMachine.Machine>, config: Option<BehaviorConfig>,
                coin: int, u: real): (r: Poked)
    requires IsCoinDraw(coin) && IsUnitDraw(u)
    ensures c.pokeCooldown > 0.0 ==> r == Poked(c, machine)
    ensures c.pokeCooldown <= 0.0 ==>
              && r.c == c.(pokeCooldown := PokeCooldownDuration, dropCoinAfterPoke := true)
              && (machine.None? ==> r.machine.None?)
              && (machine.Some? ==> r.machine.Some? && r.machine.value.previous == machine.value.current
                                    && (r.machine.value.current == Jumping <==> coin == 0)
                                    && (r.machine.value.current == Itching <==> coin == 1)
                                    && r.machine.value.pokeCooldown == LegacyStateMachine.PokeCooldownDuration)
  {
    if c.pokeCooldown > 0.0 then Poked(c, machine)
    else
      var armed := c.(pokeCooldown := PokeCooldownDuration, dropCoinAfterPoke := true);
      var pokeState := if coin == 0 then Jumping else Itching;
      match machine
      case None => Poked(armed, None)
      case Some(sm) =>
        var forced := LegacyStateMachine.ForceState(sm, config, pokeState, u);
        Poked(OnStateChanged(armed, forced.previous, forced.current).0, Some(forced))
  }

  /** `OnPointerClick`: a poke only when hovered. */
  function OnPointerClick(c: Controller, machine: Option<LegacyStateMachine.Machine>, config: Option<BehaviorConfig>,
                          coin: int, u: real): (r: Poked)
    requires IsCoinDraw(coin) && IsUnitDraw(u)
    ensures !c.hovered ==> r == Poked(c, machine)
    ensures c.hovered ==> r == Poke(c, machine, config, coin, u)
  {
    if c.hovered then Poke(c, machine, config, coin, u) else Poked(c, machine)
  }

  /** A poke yields exactly one silver coin: the first change out of the
      forced poke state drops it, and no later change drops another until
      the next poke. */
  lemma CoinOncePerPoke(c: Controller, sm: LegacyStateMachine.Machine, config: Option<BehaviorConfig>, coin: int, u: real,
                        next: MonsterState, u2: real, p2: MonsterState, s2: MonsterState)
    requires IsCoinDraw(coin) && IsUnitDraw(u) && IsUnitDraw(u2)
    requires c.pokeCooldown <= 0.0
    requires !IsPokeState(next)
    ensures var poked := Poke(c, Some(sm), config, coin, u);
            var left := LegacyStateMachine.ChangeState(poked.machine.value, config, next, u2);
            var first := OnStateChanged(poked.c, left.previous, left.current);
            var second := OnStateChanged(first.0, p2, s2);
            first.1 == Some(Silver) && second.1.None?
  {
  }

  /** `GetCurrentMoveSpeed`. Without a state machine the configured speed;
      walking and running read the behaviour configuration (`None` when it
      is missing, where the source throws); every other state stands still. */
  function GetCurrentMoveSpeed(c: Controller, state: Option<MonsterState>, config: Option<BehaviorConfig>): (r: Option<real>)
    ensures state.None? ==> r == Some(c.moveSpeed)
    ensures state == Some(Walking) ==> (r.Some? <==> config.Some?) && (r.Some? ==> r.value == config.value.walkSpeed)
    ensures state == Some(Running) ==> (r.Some? <==> config.Some?) && (r.Some? ==> r.value == config.value.runSpeed)
    ensures state.Some? && state.value != Walking && state.value != Running ==> r == Some(0.0)
  {
    match state
    case None => Some(c.moveSpeed)
    case Some(Walking) => if config.Some? then Some(config.value.walkSpeed) else None
    case Some(Running) => if config.Some? then Some(config.value.runSpeed) else None
    case Some(_) => Some(0.0)
  }

  /** `FindNearestFood`: nothing before loading; then the nearest in-range
      food (earliest among ties), its squared distance or the largest float,
      and whether it is within eating distance. */
  function FindNearestFood(c: Controller, foods: seq<Option<Food>>): (r: Controller)
    ensures !c.isLoaded ==> r == c
    ensures c.isLoaded ==> (r.nearest.None? <==> forall j :: 0 <= j < |foods| ==> !Qualifies(c.position, foods, c.foodRangeSqr, j))
    ensures c.isLoaded && r.nearest.None? ==> r.cachedDistanceSqr == FloatMax
    ensures c.isLoaded && r.nearest.Some? ==>
              exists i: nat :: IsNearest(c.position, foods, c.foodRangeSqr, i) && foods[i] == r.nearest
                          && r.cachedDistanceSqr == DistTo(c.position, foods, i)
    ensures c.isLoaded ==> (r.isNearFood <==> r.cachedDistanceSqr < c.eatSqr)
    ensures r == c.(nearest := r.nearest, cachedDistanceSqr := r.cachedDistanceSqr, isNearFood := r.isNearFood)
  {
    if !c.isLoaded then c
    else
      var scan := Scan(c.position, foods, c.foodRangeSqr);
      var nearest := if scan.index.Some? then foods[scan.index.value] else None;
      var cached := if nearest.Some? then scan.closest else FloatMax;
      c.(nearest := nearest, cachedDistanceSqr := cached, isNearFood := cached < c.eatSqr)
  }

  /** `SetRandomTarget`: a point drawn inside the play area shrunk by half
      the monster's size. */
  function SetRandomTarget(c: Controller, area: Vec2, width: real, height: real, ux: real, uy: real): (r: Controller)
    requires IsUnitDraw(ux) && IsUnitDraw(uy)
    ensures r == c.(target := r.target)
    ensures width <= area.x && height <= area.y ==>
              && -(area.x - width) / 2.0 <= r.target.x <= (area.x - width) / 2.0
              && -(area.y - height) / 2.0 <= r.target.y <= (area.y - height) / 2.0
  {
    if width <= area.x && height <= area.y then
      MovementBounds.TargetInsideArea(area, width, height, ux, uy);
      c.(target := MovementBounds.GetRandomTarget(area, width, height, ux, uy))
    else
      c.(target := MovementBounds.GetRandomTarget(area, width, height, ux, uy))
  }

  /** What one food step leaves: the controller and the food eaten, if any. */
  datatype Step = Step(c: Controller, eaten: Option<Food>)

  /** `HandleFoodLogic`: eat the food when near (hunger only), forget it and
      take the new target `wander`; otherwise head for it. */
  function HandleFoodLogic(c: Controller, wander: Vec2): (r: Step)
    ensures c.nearest.None? ==> r == Step(c, None)
    ensures c.nearest.Some? && c.isNearFood ==>
              r == Step(Feed(c, c.nearest.value.nutritionValue).(nearest := None, target := wander), c.nearest)
    ensures c.nearest.Some? && !c.isNearFood ==> r == Step(c.(target := c.nearest.value.position), None)
  {
    match c.nearest
    case None => Step(c, None)
    case Some(food) =>
      if c.isNearFood then Step(Feed(c, food.nutritionValue).(nearest := None, target := wander), Some(food))
      else Step(c.(target := food.position), None)
  }

  /** The engine's move-towards step: from, to, largest distance. */
  type Stepper = (Vec2, Vec2, real) -> Vec2

  /** `HandleMovement`. The monster moves towards its target at the state's
      speed; walking or running monsters then run the food logic; and when
      the position before the move is within 10 of the (possibly new)
      target, a new target is taken. Without a state machine the frame stops
      with an exception right after the move; a missing configuration while
      walking or running stops it before the move (`None`). */
  function HandleMovement(c: Controller, state: Option<MonsterState>, config: Option<BehaviorConfig>, dt: real,
                          towards: Stepper, eatWander: Vec2, nearWander: Vec2): (r: Option<Step>)
    ensures GetCurrentMoveSpeed(c, state, config).None? <==> r.None?
    ensures r.Some? ==> r.value.c.position == towards(c.position, c.target, GetCurrentMoveSpeed(c, state, config).value * dt)
    ensures state.None? ==> r == Some(Step(c.(position := towards(c.position, c.target, c.moveSpeed * dt)), None))
    ensures state.Some? && state.value != Walking && state.value != Running ==>
              var moved := c.(position := towards(c.position, c.target, 0.0));
              r == Some(Step(if DistanceBelow(c.position, c.target, 10.0) then moved.(target := nearWander) else moved, None))
    ensures r.Some? && r.value.eaten.Some? ==> c.nearest.Some? && c.isNearFood && r.value.c.nearest.None?
    ensures r.Some? && state.Some? && (state.value == Walking || state.value == Running) ==>
              r.value == WalkFrame(c.(position := r.value.c.position), c.position, eatWander, nearWander)
  {
    var speed := GetCurrentMoveSpeed(c, state, config);
    if speed.None? then None
    else
      var reach := speed.value * dt;
      assert reach == GetCurrentMoveSpeed(c, state, config).value * dt;
      assert state.None? ==> reach == c.moveSpeed * dt;
      var moved := c.(position := towards(c.position, c.target, reach));
      if state.None? then Some(Step(moved, None))
      else
        if state.value == Walking || state.value == Running then Some(WalkFrame(moved, c.position, eatWander, nearWander))
        else Some(Step(if DistanceBelow(c.position, moved.target, 10.0) then moved.(target := nearWander) else moved, None))
  }

  /** The rest of a walking or running frame once the monster has moved: the
      food logic, then a new target `nearWander` when the position `from`
      before the move is within 10 of the target the food logic left. A near
      known food is always eaten, and only then is anything eaten. */
  function WalkFrame(moved: Controller, from: Vec2, eatWander: Vec2, nearWander: Vec2): (r: Step)
    ensures r.eaten.Some? <==> moved.nearest.Some? && moved.isNearFood
    ensures r.eaten.Some? ==>
              && r.eaten == moved.nearest && r.c.nearest.None?
              && Saturates(moved.hunger + moved.nearest.value.nutritionValue, 0.0, 100.0, r.c.hunger)
    ensures r.eaten.None? ==> r.c.hunger == moved.hunger && r.c.nearest == moved.nearest
    ensures r.c.position == moved.position
    ensures moved.nearest.Some? && !moved.isNearFood ==>
              r.c.target == (if DistanceBelow(from, moved.nearest.value.position, 10.0) then nearWander
                             else moved.nearest.value.position)
    ensures moved.nearest.None? ==>
              r.c.target == (if DistanceBelow(from, moved.target, 10.0) then nearWander else moved.target)
    ensures r.eaten.Some? ==> r.c.target == (if DistanceBelow(from, eatWander, 10.0) then nearWander else eatWander)
    ensures r.c == moved.(hunger := r.c.hunger, nearest := r.c.nearest, target := r.c.target)
  {
    var fed := HandleFoodLogic(moved, eatWander);
    Step(if DistanceBelow(from, fed.c.target, 10.0) then fed.c.(target := nearWander) else fed.c, fed.eaten)
  }

  /** A walking or running monster with a configuration eats a known food
      exactly when it is near, and its hunger then rises by the food's
      nutrition, clamped. */
  lemma WalkingEatsNearFood(c: Controller, state: Option<MonsterState>, config: Option<BehaviorConfig>, dt: real,
                            towards: Stepper, eatWander: Vec2, nearWander: Vec2)
    requires state == Some(Walking) || state == Some(Running)
    requires config.Some?
    ensures var r := HandleMovement(c, state, config, dt, towards, eatWander, nearWander);
            && r.Some?
            && (r.value.eaten.Some? <==> c.nearest.Some? && c.isNearFood)
            && (c.nearest.Some? && c.isNearFood ==>
                  && r.value.eaten == c.nearest
                  && Saturates(c.hunger + c.nearest.value.nutritionValue, 0.0, 100.0, r.value.c.hunger))
  {
  }

  /** `Update`: nothing before loading; then the cooldown ticks and the
      monster moves. */
  function Update(c: Controller, state: Option<MonsterState>, config: Option<BehaviorConfig>, dt: real,
                  towards: Stepper, eatWander: Vec2, nearWander: Vec2): (r: Option<Step>)
    ensures !c.isLoaded ==> r == Some(Step(c, None))
    ensures c.isLoaded ==>
              var ticked := c.(pokeCooldown := if c.pokeCooldown > 0.0 then c.pokeCooldown - dt else c.pokeCooldown);
              r == HandleMovement(ticked, state, config, dt, towards, eatWander, nearWander)
  {
    if !c.isLoaded then Some(Step(c, None))
    else
      var ticked := c.(pokeCooldown := if c.pokeCooldown > 0.0 then c.pokeCooldown - dt else c.pokeCooldown);
      HandleMovement(ticked, state, config, dt, towards, eatWander, nearWander)
  }

  /** A poke is ignored until the frames after it have used up the cooldown:
      a second poke within five seconds of frame time changes nothing. */
  lemma PokeIgnoredWithinCooldown(c: Controller, machine: Option<LegacyStateMachine.Machine>, config: Option<BehaviorConfig>,
                                  coin: int, u: real, dt: real)
    requires IsCoinDraw(coin) && IsUnitDraw(u)
    requires c.pokeCooldown <= 0.0
    requires 0.0 <= dt < PokeCooldownDuration
    ensures var first := Poke(c, machine, config, coin, u);
            var ticked := first.c.(pokeCooldown := first.c.pokeCooldown - dt);
            Poke(ticked, first.machine, config, coin, u) == Poked(ticked, first.machine)
  {
  }

  /** `SaveMonData`: the legacy record under the controller's id. */
  function SaveMonData(store: Store, c: Controller): (r: Store)
    ensures SaveSystem.LoadMon(r, c.monsterID) ==
              (true, Some(SaveData(c.monsterID, c.hunger, c.isEvolved, c.isFinalForm, c.evolutionLevel)))
    ensures forall k :: k in store && k != SaveSystem.MonKey(c.monsterID) ==> k in r && r[k] == store[k]
  {
    var data := SaveData(c.monsterID, c.hunger, c.isEvolved, c.isFinalForm, c.evolutionLevel);
    SaveSystem.LoadAfterSave(store, c.monsterID, data);
    SaveSystem.SaveMon(store, c.monsterID, data)
  }

  /** `InitializeAsNewMonster`: hunger 100 and the definition's flags cleared. */
  function InitializeAsNewMonster(c: Controller): (r: Controller)
    ensures r.hunger == 100.0
    ensures c.definition.None? ==> r.definition.None?
    ensures c.definition.Some? ==>
              r.definition == Some(c.definition.value.(isEvolved := false, isFinalEvol := false, evolutionLevel := 0))
    ensures r == c.(hunger := 100.0, definition := r.definition)
  {
    var full := SetHunger(c, 100.0).0;
    match c.definition
    case None => full
    case Some(d) => full.(definition := Some(d.(isEvolved := false, isFinalEvol := false, evolutionLevel := 0)))
  }

  /** `LoadFromSaveData`: hunger and id onto the controller; the flags and
      level onto the definition, which must be present. */
  function LoadFromSaveData(c: Controller, s: SaveData): (r: Controller)
    requires c.definition.Some?
    ensures r.hunger == s.lastHunger && r.monsterID == s.monsterId
    ensures r.definition == Some(c.definition.value.(isEvolved := s.isEvolved, isFinalEvol := s.isFinalForm,
                                                      evolutionLevel := s.evolutionLevel))
    ensures r == c.(hunger := r.hunger, monsterID := r.monsterID, definition := r.definition)
  {
    var d := c.definition.value;
    SetHunger(c, s.lastHunger).0.(monsterID := s.monsterId,
      definition := Some(d.(isEvolved := s.isEvolved, isFinalEvol := s.isFinalForm, evolutionLevel := s.evolutionLevel)))
  }

  /** `ApplyMonsterDataStats`: speed, hunger rate and poop interval from the definition. */
  function ApplyMonsterDataStats(c: Controller): (r: Controller)
    ensures c.definition.None? ==> r == c
    ensures c.definition.Some? ==>
              r == c.(moveSpeed := c.definition.value.moveSpd, hungerDepletionRate := c.definition.value.hungerDepleteRate,
                      poopInterval := c.definition.value.poopRate)
  {
    match c.definition
    case None => c
    case Some(d) => c.(moveSpeed := d.moveSpd, hungerDepletionRate := d.hungerDepleteRate, poopInterval := d.poopRate)
  }

  /** `LoadMonData`. A key holding no readable record makes the source throw
      before any change; the model then leaves the controller as it was. */
  function LoadMonData(store: Store, c: Controller): (r: Controller)
    ensures c.definition.None? ==> r == InitializeAsNewMonster(c)
    ensures c.definition.Some? && SaveSystem.MonKey(c.monsterID) !in store ==>
              r == ApplyMonsterDataStats(InitializeAsNewMonster(c))
    ensures c.definition.Some? && SaveSystem.LoadMon(store, c.monsterID).1.Some? ==>
              r == ApplyMonsterDataStats(LoadFromSaveData(c, SaveSystem.LoadMon(store, c.monsterID).1.value))
    ensures c.definition.Some? && SaveSystem.LoadMon(store, c.monsterID) == (true, None) ==> r == c
  {
    if c.definition.None? then InitializeAsNewMonster(c)
    else
      match SaveSystem.LoadMon(store, c.monsterID)
      case (true, Some(s)) => ApplyMonsterDataStats(LoadFromSaveData(c, s))
      case (true, None) => c
      case (false, _) => ApplyMonsterDataStats(InitializeAsNewMonster(c))
  }

  /** Saving and loading restores hunger and id, and puts the controller's
      evolution flags onto the definition; the controller's own flags are
      not written by the load, so they keep whatever they held. */
  lemma SaveThenLoad(store: Store, c: Controller)
    requires c.definition.Some?
    ensures var r := LoadMonData(SaveMonData(store, c), c);
            && r.hunger == c.hunger && r.monsterID == c.monsterID
            && r.isEvolved == c.isEvolved && r.isFinalForm == c.isFinalForm && r.evolutionLevel == c.evolutionLevel
            && r.definition.Some? && r.definition.value.isEvolved == c.isEvolved
            && r.definition.value.isFinalEvol == c.isFinalForm && r.definition.value.evolutionLevel == c.evolutionLevel
            && r.moveSpeed == c.definition.value.moveSpd
  {
  }

  /** A loaded record whose flags differ from the controller's leaves the
      two disagreeing: the load writes the definition, never the controller. */
  lemma LoadLeavesControllerFlags(store: Store, c: Controller, s: SaveData)
    requires c.definition.Some?
    requires SaveSystem.LoadMon(store, c.monsterID) == (true, Some(s))
    ensures var r := LoadMonData(store, c);
            r.isEvolved == c.isEvolved && r.definition.value.isEvolved == s.isEvolved
  {
  }
}

=== FILE: legacy_state_machine.dfy ===
/**
 The behaviour state machine of the older, single-file monster controller.
 It differs from the modular one: it keeps a five-second poke cooldown of its
 own, during which no transition may enter `Jumping` or `Itching`; it ignores
 happiness thresholds; `Eating` ends through the table like any other state;
 and when no row qualifies nothing changes, so the expired timer keeps
 growing and a pick is tried again next frame. Random draws are parameters.
 */
module LegacyStateMachine {
  import opened Shared
  import opened Weighted
  import StateMachine

  /** The cooldown a forced poke state starts. */
  const PokeCooldownDuration: real := 5.0

  datatype Machine = Machine(current: MonsterState, previous: MonsterState, timer: real, duration: real,
                             pokeCooldown: real)

  /** What the machine reads from its controller: whether a nearest food is
      known, and the current hunger. */
  datatype Needs = Needs(hasFood: bool, hunger: real)

  /** A table row is a candidate: it leaves the current state, it does not
      enter a poke state while the cooldown runs, its food requirement is
      met and hunger reaches its threshold. */
  predicate Admits(t: StateTransition, current: MonsterState, cooldown: real, needs: Needs) {
    && t.fromState == current
    && !(cooldown > 0.0 && IsPokeState(t.toState))
    && (t.requiresFood ==> needs.hasFood)
    && needs.hunger >= t.hungerThreshold
  }

  /** `GetValidTransitions`: the candidate rows in table order. */
  function ValidTransitions(config: Option<BehaviorConfig>, m: Machine, needs: Needs): (r: seq<StateTransition>)
    ensures config.None? || config.value.transitions.None? ==> r == []
    ensures forall i :: 0 <= i < |r| ==> Admits(r[i], m.current, m.pokeCooldown, needs)
    ensures m.pokeCooldown > 0.0 ==> forall i :: 0 <= i < |r| ==> !IsPokeState(r[i].toState)
    ensures config.Some? && config.value.transitions.Some? ==>
              var table := config.value.transitions.value;
              && Subsequence(r, table)
              && (forall i :: 0 <= i < |table| ==> (table[i] in r <==> Admits(table[i], m.current, m.pokeCooldown, needs)))
              && (forall t :: multiset(r)[t] == (if Admits(t, m.current, m.pokeCooldown, needs) then multiset(table)[t] else 0))
  {
    if config.None? || config.value.transitions.None? then []
    else
      var admitted := (t: StateTransition) => Admits(t, m.current, m.pokeCooldown, needs);
      FilterCounts(config.value.transitions.value, admitted);
      Filter(config.value.transitions.value, admitted)
  }

  /** `GetStateDuration`, `u` being the duration draw. */
  function StateDuration(config: Option<BehaviorConfig>, s: MonsterState, u: real): (d: real)
    requires IsUnitDraw(u)
    ensures d > 0.0
    ensures config.None? ==> 1.0 <= d <= 5.0
    ensures s == Jumping && config.None? ==> d == 1.0
    ensures s == Jumping && config.Some? ==> d == StateMachine.Positive(config.value.jumpDuration, 1.0)
    ensures s == Flying ==> d == 2.0
    ensures config.None? && s == Idle ==> 2.0 <= d <= 4.0
    ensures config.None? && (s == Walking || s == Running) ==> 3.0 <= d <= 5.0
    ensures s == Itching || s == Eating ==> 2.0 <= d <= 4.0
  {
    match config
    case None =>
      (match s
       case Idle => RangeDraw(2.0, 4.0, u)
       case Walking => RangeDraw(3.0, 5.0, u)
       case Running => RangeDraw(3.0, 5.0, u)
       case Jumping => 1.0
       case Itching => RangeDraw(2.0, 4.0, u)
       case Eating => RangeDraw(2.0, 4.0, u)
       case Flying => 2.0)
    case Some(c) =>
      (match s
       case Idle => RangeDraw(StateMachine.Positive(c.minIdleDuration, 2.0), StateMachine.Positive(c.maxIdleDuration, 4.0), u)
       case Walking => RangeDraw(StateMachine.Positive(c.minWalkDuration, 3.0), StateMachine.Positive(c.maxWalkDuration, 5.0), u)
       case Running => RangeDraw(StateMachine.Positive(c.minRunDuration, 3.0), StateMachine.Positive(c.maxRunDuration, 5.0), u)
       case Jumping => StateMachine.Positive(c.jumpDuration, 1.0)
       case Itching => RangeDraw(2.0, 4.0, u)
       case Eating => RangeDraw(2.0, 4.0, u)
       case Flying => 2.0)
  }

  /** The two machines agree on how long idle, walking, running, jumping
      and flying spells last; they differ only for itching and eating. */
  lemma DurationsAgreeOutsideItchAndEat(config: Option<BehaviorConfig>, s: MonsterState, u: real)
    requires IsUnitDraw(u)
    requires s != Itching && s != Eating
    ensures StateDuration(config, s, u) == StateMachine.StateDuration(config, s, u)
  {
  }

  /** `ChangeState`: remember the old state, enter the new one, restart the
      timer and draw the duration; the cooldown is untouched. */
  function ChangeState(m: Machine, config: Option<BehaviorConfig>, s: MonsterState, u: real): (r: Machine)
    requires IsUnitDraw(u)
    ensures r.previous == m.current && r.current == s && r.timer == 0.0
    ensures r.duration > 0.0 && r.duration == StateDuration(config, s, u) && r.pokeCooldown == m.pokeCooldown
  {
    Machine(s, m.current, 0.0, StateDuration(config, s, u), m.pokeCooldown)
  }

  /** `ForceState`: a forced poke state restarts the cooldown at five seconds. */
  function ForceState(m: Machine, config: Option<BehaviorConfig>, s: MonsterState, u: real): (r: Machine)
    requires IsUnitDraw(u)
    ensures r.previous == m.current && r.current == s && r.timer == 0.0
    ensures IsPokeState(s) ==> r.pokeCooldown == PokeCooldownDuration
    ensures !IsPokeState(s) ==> r.pokeCooldown == m.pokeCooldown
  {
    var armed := if IsPokeState(s) then m.(pokeCooldown := PokeCooldownDuration) else m;
    ChangeState(armed, config, s, u)
  }

  /** `SelectNextState`: no candidate, or a roll that no cumulative weight
      reaches, leaves the machine as it is; otherwise the first row whose
      cumulative probability reaches the roll is entered. */
  function SelectNextState(m: Machine, config: Option<BehaviorConfig>, needs: Needs, roll: real, u: real): (r: Machine)
    requires IsUnitDraw(roll) && IsUnitDraw(u)
    ensures ValidTransitions(config, m, needs) == [] ==> r == m
    ensures r == m || (r.previous == m.current && r.timer == 0.0 && r.pokeCooldown == m.pokeCooldown
                       && exists i :: 0 <= i < |ValidTransitions(config, m, needs)|
                                      && r.current == ValidTransitions(config, m, needs)[i].toState)
    ensures var valid := ValidTransitions(config, m, needs);
            var w := StateMachine.Probabilities(valid);
            var pick := FirstReaching(w, RangeDraw(0.0, Total(w), roll));
            && (pick.None? ==> r == m)
            && (pick.Some? ==> r.current == valid[pick.value].toState && r.previous == m.current && r.timer == 0.0)
  {
    var valid := ValidTransitions(config, m, needs);
    if |valid| == 0 then m
    else
      var w := StateMachine.Probabilities(valid);
      match FirstReaching(w, RangeDraw(0.0, Total(w), roll))
      case Some(i) => ChangeState(m, config, valid[i].toState, u)
      case None => m
  }

  /** The clocks of one frame: the timer grows and a positive cooldown shrinks. */
  function Tick(m: Machine, dt: real): (r: Machine)
    ensures r.current == m.current && r.previous == m.previous && r.duration == m.duration
    ensures r.timer == m.timer + dt
    ensures m.pokeCooldown > 0.0 ==> r.pokeCooldown == m.pokeCooldown - dt
    ensures m.pokeCooldown <= 0.0 ==> r.pokeCooldown == m.pokeCooldown
  {
    m.(timer := m.timer + dt, pokeCooldown := if m.pokeCooldown > 0.0 then m.pokeCooldown - dt else m.pokeCooldown)
  }

  /** One frame of `Update`: the clocks tick, and an expired timer asks for
      a next state. */
  function Update(m: Machine, config: Option<BehaviorConfig>, needs: Needs, dt: real, roll: real, u: real): (r: Machine)
    requires IsUnitDraw(roll) && IsUnitDraw(u)
    ensures m.timer + dt < m.duration ==> r == Tick(m, dt)
    ensures m.timer + dt >= m.duration ==> r == SelectNextState(Tick(m, dt), config, needs, roll, u)
  {
    var ticked := Tick(m, dt);
    if ticked.timer >= ticked.duration then SelectNextState(ticked, config, needs, roll, u) else ticked
  }

  /** While the cooldown outlasts the frame, a frame never enters a poke
      state: a monster is in one afterwards only if it already was, and
      then nothing but the clocks moved. */
  lemma NoPokeDuringCooldown(m: Machine, config: Option<BehaviorConfig>, needs: Needs, dt: real, roll: real, u: real)
    requires IsUnitDraw(roll) && IsUnitDraw(u)
    requires 0.0 <= dt < m.pokeCooldown
    ensures var r := Update(m, config, needs, dt, roll, u);
            IsPokeState(r.current) ==> r.current == m.current && r.timer == m.timer + dt
  {
    var ticked := Tick(m, dt);
    var r := Update(m, config, needs, dt, roll, u);
    if m.timer + dt >= m.duration && r != ticked {
      var valid := ValidTransitions(config, ticked, needs);
      assert ticked.pokeCooldown > 0.0;
      var i :| 0 <= i < |valid| && r.current == valid[i].toState;
      assert !IsPokeState(r.current);
    }
  }

  /** With no candidate row after the clocks tick, the timer keeps growing
      and the state stays: an expired pick is retried every frame. */
  lemma StuckWithoutCandidates(m: Machine, config: Option<BehaviorConfig>, needs: Needs, dt: real, roll: real, u: real)
    requires IsUnitDraw(roll) && IsUnitDraw(u)
    requires ValidTransitions(config, Tick(m, dt), needs) == []
    ensures var r := Update(m, config, needs, dt, roll, u);
            r.current == m.current && r.previous == m.previous && r.timer == m.timer + dt
  {
  }

  /** With non-negative probabilities and at least one candidate, an expired
      timer always moves to the target of a candidate row. */
  lemma SelectPicksCandidate(m: Machine, config: Option<BehaviorConfig>, needs: Needs, roll: real, u: real)
    requires IsUnitDraw(roll) && IsUnitDraw(u)
    requires StateMachine.NonNegativeRows(ValidTransitions(config, m, needs))
    requires ValidTransitions(config, m, needs) != []
    ensures var valid := ValidTransitions(config, m, needs);
            var w := StateMachine.Probabilities(valid);
            var r := SelectNextState(m, config, needs, roll, u);
            exists i :: 0 <= i < |valid| && FirstReaching(w, RangeDraw(0.0, Total(w), roll)) == Some(i)
                        && r.current == valid[i].toState && Admits(valid[i], m.current, m.pokeCooldown, needs)
                        && r.previous == m.current && r.timer == 0.0
  {
    var valid := ValidTransitions(config, m, needs);
    var w := StateMachine.Probabilities(valid);
    assert NonNegative(w);
    UnitRollPicks(w, roll);
  }
}

=== FILE: monster.dfy ===
/**
 The needs and identity rules of the modular monster controller: hunger and
 happiness live in [0, 100], setters fire their change event only on a real
 change, feeding raises both needs, a hunger tick lowers hunger, and the
 happiness tick reads the height of the play area. Ids are `temp_` plus eight
 characters until a definition arrives, then `{definition id}_Lv{level}_{eight
 characters}`. The eight characters of a fresh GUID are a parameter.
 */
module Monster {
  import opened Shared
  import opened Strings
  import opened Data

  /** The controller's state that the rules read and write. */
  datatype Monster = Monster(
    monsterID: string,
    hunger: real,
    happiness: real,
    hovered: bool,
    isEvolved: bool,
    isFinalForm: bool,
    evolutionLevel: int,
    dropCoinAfterPoke: bool,
    isLoaded: bool,
    position: Vec2,
    target: Vec2,
    stats: MonsterData,
    definition: Option<MonsterDefinition>)

  /** Both needs lie in [0, 100]. */
  predicate NeedsInRange(m: Monster) {
    0.0 <= m.hunger <= 100.0 && 0.0 <= m.happiness <= 100.0
  }

  /** A setter's outcome: the updated monster and whether the change event fired. */
  datatype Set = Set(m: Monster, fired: bool)

  /** `SetHunger`: an equal value is ignored; a different one is stored and announced. */
  function SetHunger(m: Monster, value: real): (r: Set)
    ensures r.fired <==> value != m.hunger
    ensures r.m == m.(hunger := value)
  {
    if m.hunger == value then Set(m, false) else Set(m.(hunger := value), true)
  }

  /** `SetHappiness`: an equal value is ignored; a different one is stored and announced. */
  function SetHappiness(m: Monster, value: real): (r: Set)
    ensures r.fired <==> value != m.happiness
    ensures r.m == m.(happiness := value)
  {
    if m.happiness == value then Set(m, false) else Set(m.(happiness := value), true)
  }

  /** `SetHovered`: the hover event fires only on a change. */
  function SetHovered(m: Monster, value: bool): (r: Set)
    ensures r.fired <==> value != m.hovered
    ensures r.m == m.(hovered := value)
  {
    if m.hovered == value then Set(m, false) else Set(m.(hovered := value), true)
  }

  /** `IncreaseHappiness`: happiness moves by `amount`, saturating at 0 and 100. */
  function IncreaseHappiness(m: Monster, amount: real): (r: Monster)
    ensures Saturates(m.happiness + amount, 0.0, 100.0, r.happiness)
    ensures r == m.(happiness := r.happiness)
  {
    SetHappiness(m, Clamp(m.happiness + amount, 0.0, 100.0)).m
  }

  /** `Feed`: hunger and happiness both move by `amount`, each saturating. */
  function Feed(m: Monster, amount: real): (r: Monster)
    ensures Saturates(m.hunger + amount, 0.0, 100.0, r.hunger)
    ensures Saturates(m.happiness + amount, 0.0, 100.0, r.happiness)
    ensures r == m.(hunger := r.hunger, happiness := r.happiness)
  {
    var fed := SetHunger(m, Clamp(m.hunger + amount, 0.0, 100.0)).m;
    IncreaseHappiness(fed, amount)
  }

  /** Feeding a non-negative amount never lowers either need of a monster
      whose needs are in range, and the result is in range. */
  lemma FeedRaises(m: Monster, amount: real)
    requires NeedsInRange(m)
    requires amount >= 0.0
    ensures var r := Feed(m, amount);
            NeedsInRange(r) && r.hunger >= m.hunger && r.happiness >= m.happiness
  {
  }

  /** One body of the hunger coroutine: hunger drops by the depletion rate,
      never below 0. */
  function HungerTick(m: Monster): (r: Monster)
    ensures Saturates(m.hunger - m.stats.hungerDepletionRate, 0.0, 100.0, r.hunger)
    ensures r == m.(hunger := r.hunger)
  {
    SetHunger(m, Clamp(m.hunger - m.stats.hungerDepletionRate, 0.0, 100.0)).m
  }

  /** `n` ticks of the hunger coroutine. */
  function HungerTicks(m: Monster, n: nat): Monster
    decreases n
  {
    if n == 0 then m else HungerTicks(HungerTick(m), n - 1)
  }

  /** Hunger after `n` saturating drains by `rate`. */
  function Drain(h: real, rate: real, n: nat): real
    decreases n
  {
    if n == 0 then h else Drain(Clamp(h - rate, 0.0, 100.0), rate, n - 1)
  }

  /** Ticking only drains hunger: the stats stay and hunger follows `Drain`. */
  lemma {:induction false} HungerTicksDrain(m: Monster, n: nat)
    ensures HungerTicks(m, n) == m.(hunger := Drain(m.hunger, m.stats.hungerDepletionRate, n))
    decreases n
  {
    if n > 0 {
      HungerTicksDrain(HungerTick(m), n - 1);
    }
  }

  /** `n` times `rate` taken from `h`, ignoring the floor. */
  function Spent(h: real, rate: real, n: nat): real
    decreases n
  {
    if n == 0 then h else Spent(h, rate, n - 1) - rate
  }

  /** Repeated subtraction is subtraction of the product. */
  lemma {:induction false} SpentIsProduct(h: real, rate: real, n: nat)
    ensures Spent(h, rate, n) == h - (n as real) * rate
    decreases n
  {
    if n > 0 {
      SpentIsProduct(h, rate, n - 1);
      var k := (n - 1) as real;
      assert (n as real) * rate == k * rate + rate;
    }
  }

  /** With a non-negative rate, draining takes `rate` each time until the
      floor at 0 is reached, and then stays at 0. */
  lemma {:induction false} DrainIsFlooredSpent(h: real, rate: real, n: nat)
    requires 0.0 <= h <= 100.0
    requires rate >= 0.0
    ensures Spent(h, rate, n) >= 0.0 ==> Drain(h, rate, n) == Spent(h, rate, n)
    ensures Spent(h, rate, n) < 0.0 ==> Drain(h, rate, n) == 0.0
    decreases n
  {
    if n > 0 {
      var next := Clamp(h - rate, 0.0, 100.0);
      DrainIsFlooredSpent(next, rate, n - 1);
      SpentShift(h, rate, n);
      if h - rate < 0.0 {
        SpentFromZero(rate, n - 1);
        SpentOffset(h - rate, rate, n - 1);
      }
    }
  }

  /** Taking the first `rate` up front gives the same total. */
  lemma {:induction false} SpentShift(h: real, rate: real, n: nat)
    requires n > 0
    ensures Spent(h, rate, n) == Spent(h - rate, rate, n - 1)
    decreases n
  {
    if n > 1 {
      SpentShift(h, rate, n - 1);
    }
  }

  /** The starting value only shifts the total. */
  lemma {:induction false} SpentOffset(x: real, rate: real, n: nat)
    ensures Spent(x, rate, n) == x + Spent(0.0, rate, n)
    decreases n
  {
    if n > 0 {
      SpentOffset(x, rate, n - 1);
    }
  }

  /** From 0 with a non-negative rate, the unfloored total is never positive. */
  lemma {:induction false} SpentFromZero(rate: real, n: nat)
    requires rate >= 0.0
    ensures Spent(0.0, rate, n) <= 0.0
    decreases n
  {
    if n > 0 {
      SpentFromZero(rate, n - 1);
    }
  }

  /** Starvation is linear and floors at 0: with a non-negative rate, `n`
      drains leave `max(0, h - n * rate)`. */
  lemma DrainFloor(h: real, rate: real, n: nat)
    requires 0.0 <= h <= 100.0
    requires rate >= 0.0
    ensures h - (n as real) * rate >= 0.0 ==> Drain(h, rate, n) == h - (n as real) * rate
    ensures h - (n as real) * rate < 0.0 ==> Drain(h, rate, n) == 0.0
  {
    DrainIsFlooredSpent(h, rate, n);
    SpentIsProduct(h, rate, n);
  }

  /** The hunger coroutine starves linearly: after `n` ticks at a
      non-negative rate hunger is `max(0, hunger - n * rate)`. */
  lemma HungerTicksFloor(m: Monster, n: nat)
    requires 0.0 <= m.hunger <= 100.0
    requires m.stats.hungerDepletionRate >= 0.0
    ensures var rate := m.stats.hungerDepletionRate;
            var r := HungerTicks(m, n);
            r.stats == m.stats
            && (m.hunger - (n as real) * rate >= 0.0 ==> r.hunger == m.hunger - (n as real) * rate)
            && (m.hunger - (n as real) * rate < 0.0 ==> r.hunger == 0.0)
  {
    HungerTicksDrain(m, n);
    DrainFloor(m.hunger, m.stats.hungerDepletionRate, n);
  }

  /** One body of the happiness coroutine. Without a play area nothing
      changes; otherwise happiness gains `areaHappinessRate` when the area is
      at least half the screen's height and loses it when smaller. */
  function AreaHappiness(m: Monster, areaHeight: Option<real>, screenHeight: real): (r: Monster)
    requires screenHeight > 0.0
    ensures areaHeight.None? ==> r == m
    ensures areaHeight.Some? && areaHeight.value / screenHeight >= 0.5 ==>
              Saturates(m.happiness + m.stats.areaHappinessRate, 0.0, 100.0, r.happiness)
    ensures areaHeight.Some? && areaHeight.value / screenHeight < 0.5 ==>
              Saturates(m.happiness - m.stats.areaHappinessRate, 0.0, 100.0, r.happiness)
    ensures r == m.(happiness := r.happiness)
  {
    match areaHeight
    case None => m
    case Some(h) =>
      var ratio := h / screenHeight;
      if ratio >= 0.5 then SetHappiness(m, Clamp(m.happiness + m.stats.areaHappinessRate, 0.0, 100.0)).m
      else SetHappiness(m, Clamp(m.happiness - m.stats.areaHappinessRate, 0.0, 100.0)).m
  }

  /** The area test is a comparison of heights: the ratio reaches one half
      exactly when twice the area's height reaches the screen's. */
  lemma AreaRatioIsHalfHeight(areaHeight: real, screenHeight: real)
    requires screenHeight > 0.0
    ensures areaHeight / screenHeight >= 0.5 <==> 2.0 * areaHeight >= screenHeight
  {
    assert areaHeight == (areaHeight / screenHeight) * screenHeight;
  }

  const TempPrefix: string := "temp_"

  /** The eight characters taken from a fresh GUID. */
  predicate IsGuidSlice(g: string) { |g| == 8 }

  /** `InitializeID`: an empty id becomes `temp_` plus eight fresh characters;
      any other id is kept. */
  function InitializeID(id: string, guid: string): (r: string)
    requires IsGuidSlice(guid)
    ensures id != "" ==> r == id
    ensures id == "" ==> StartsWith(r, TempPrefix) && |r| == 13 && r[5..] == guid
  {
    if id == "" then TempPrefix + guid else id
  }

  /** The level part of an id: `Lv` and the level in decimal. */
  function LevelTag(level: int): (t: string)
    ensures '_' !in t
    ensures |t| >= 3 && t[..2] == "Lv"
  {
    var digits := IntToString(level);
    var t := "Lv" + digits;
    assert forall i :: 2 <= i < |t| ==> t[i] == digits[i - 2];
    t
  }

  /** The permanent id given when a definition arrives. */
  function DefinitionID(defId: string, level: int, guid: string): (r: string)
    requires IsGuidSlice(guid)
  {
    defId + "_" + LevelTag(level) + "_" + guid
  }

  /** An id of the form `a_Lv{level}_c` splits at underscores into its three
      parts when `a` and `c` hold no underscore. */
  lemma IdParts(a: string, level: int, c: string)
    requires '_' !in a && '_' !in c
    ensures Split(a + "_" + LevelTag(level) + "_" + c, '_') == [a, LevelTag(level), c]
  {
    JoinThree(a, LevelTag(level), c, '_');
    SplitJoin([a, LevelTag(level), c], '_');
  }

  /** The permanent id splits at underscores into the definition id, the
      level tag and the fresh characters, when neither of those holds an
      underscore. */
  lemma DefinitionIDParts(defId: string, level: int, guid: string)
    requires IsGuidSlice(guid)
    requires '_' !in defId && '_' !in guid
    ensures Split(DefinitionID(defId, level, guid), '_') == [defId, LevelTag(level), guid]
  {
    IdParts(defId, level, guid);
  }

  /** The identity part of `SetMonsterData`: a null definition changes
      nothing; otherwise the definition is stored, and a temporary or empty
      id is replaced by the permanent form while any other id is kept. */
  function AssignDefinition(m: Monster, def: Option<MonsterDefinition>, guid: string): (r: Monster)
    requires IsGuidSlice(guid)
    ensures def.None? ==> r == m
    ensures def.Some? ==> r.definition == def
    ensures def.Some? && (StartsWith(m.monsterID, TempPrefix) || m.monsterID == "") ==>
              r.monsterID == DefinitionID(def.value.id, m.evolutionLevel, guid)
    ensures def.Some? && !(StartsWith(m.monsterID, TempPrefix) || m.monsterID == "") ==>
              r.monsterID == m.monsterID
    ensures r == m.(definition := r.definition, monsterID := r.monsterID)
  {
    match def
    case None => m
    case Some(d) =>
      var id := if StartsWith(m.monsterID, TempPrefix) || m.monsterID == "" then
                  DefinitionID(d.id, m.evolutionLevel, guid)
                else m.monsterID;
      m.(definition := def, monsterID := id)
  }

  /** The permanent form never reads as temporary when the definition id
      neither starts with `temp_` nor is `temp`. */
  lemma DefinitionIDNotTemp(defId: string, level: int, guid: string)
    requires IsGuidSlice(guid)
    requires defId != "temp" && !StartsWith(defId, TempPrefix)
    ensures !StartsWith(DefinitionID(defId, level, guid), TempPrefix)
  {
    var id := DefinitionID(defId, level, guid);
    var n := |defId|;
    assert id[..n] == defId && id[n] == '_';
    if n >= 5 {
      assert id[..5] == defId[..5];
    } else if n == 4 {
      assert id[..4] == defId && TempPrefix[..4] == "temp";
    } else {
      assert TempPrefix[n] != '_';
    }
  }

  /** A fresh monster's id is replaced by the permanent form exactly once:
      a later definition keeps the id the first one gave. */
  lemma PermanentIdIsStable(m: Monster, d1: MonsterDefinition, d2: MonsterDefinition, g0: string, g1: string, g2: string)
    requires IsGuidSlice(g0) && IsGuidSlice(g1) && IsGuidSlice(g2)
    requires d1.id != "temp" && !StartsWith(d1.id, TempPrefix)
    ensures var init := m.(monsterID := InitializeID("", g0));
            var once := AssignDefinition(init, Some(d1), g1);
            var twice := AssignDefinition(once, Some(d2), g2);
            once.monsterID == DefinitionID(d1.id, m.evolutionLevel, g1) && twice.monsterID == once.monsterID
  {
    DefinitionIDNotTemp(d1.id, m.evolutionLevel, g1);
  }

  /** A definition whose id is `temp` yields a permanent id that still reads
      as temporary, so the next definition replaces it again. */
  lemma TempDefinitionIdReplacedAgain(m: Monster, d1: MonsterDefinition, d2: MonsterDefinition, g1: string, g2: string)
    requires IsGuidSlice(g1) && IsGuidSlice(g2)
    requires m.monsterID == "" && d1.id == "temp"
    ensures var once := AssignDefinition(m, Some(d1), g1);
            var twice := AssignDefinition(once, Some(d2), g2);
            twice.monsterID == DefinitionID(d2.id, m.evolutionLevel, g2)
  {
    var id := DefinitionID(d1.id, m.evolutionLevel, g1);
    assert id[..5] == "temp_";
  }
}

=== FILE: monster_update.dfy ===
/**
 One frame of the modular monster controller. An unloaded monster does
 nothing. A loaded one counts its poke cooldown down and then moves: not at
 all while eating; in `Walking` or `Running` it looks for food when it has
 none and goes after the food it has; then the movement helper moves it, and
 a moving monster that is not chasing food and has come within 10 units of
 its target gets a new wander target. The movement helper is not part of
 this model and is passed in as a function; new targets are parameters.
 */
module MonsterUpdate {
  import opened Shared
  import opened FoodScan
  import Monster
  import StateMachine
  import FoodHandler
  import InteractionHandler

  /** Position and target, before or after the movement helper. */
  datatype Motion = Motion(position: Vec2, target: Vec2)

  /** The movement helper: it may read the current state. */
  type Mover = (Motion, Option<MonsterState>) -> Motion

  /** The draws one frame may use: the forced `Eating` durations and the
      two possible new wander targets. */
  datatype FrameDraws = FrameDraws(u1: real, u2: real, eatWander: Vec2, idleWander: Vec2)

  predicate ValidFrameDraws(d: FrameDraws) { IsUnitDraw(d.u1) && IsUnitDraw(d.u2) }

  datatype Frame = Frame(
    monster: Monster.Monster,
    handler: FoodHandler.Handler,
    machine: Option<StateMachine.Machine>,
    eaten: Option<Food>)

  function StateOf(machine: Option<StateMachine.Machine>): Option<MonsterState> {
    if machine.Some? then Some(machine.value.current) else None
  }

  /** The monster is in a state that walks or runs. */
  predicate IsMoving(machine: Option<StateMachine.Machine>) {
    machine.Some? && (machine.value.current == Walking || machine.value.current == Running)
  }

  /** The food part of `HandleMovement`: a moving monster without food scans,
      and a moving monster with food eats or approaches it. */
  function FoodPhase(m: Monster.Monster, h: FoodHandler.Handler, machine: Option<StateMachine.Machine>,
                     config: Option<BehaviorConfig>, foods: seq<Option<Food>>, d: FrameDraws): (r: FoodHandler.FoodStep)
    requires ValidFrameDraws(d)
    ensures !IsMoving(machine) ==> r == FoodHandler.FoodStep(h, m, machine, None)
    ensures IsMoving(machine) && h.nearest.None? && !m.isLoaded ==> r == FoodHandler.FoodStep(h, m, machine, None)
    ensures r.eaten.Some? ==> IsMoving(machine) && r.handler.nearest.None?
    ensures IsMoving(machine) && h.nearest.Some? && !h.isNearFood ==> r.monster.target == h.nearest.value.position
  {
    if !IsMoving(machine) then FoodHandler.FoodStep(h, m, machine, None)
    else
      var scanned := if h.nearest.None? then FoodHandler.FindNearestFood(h, m.isLoaded, m.position, foods) else h;
      if scanned.nearest.Some? then FoodHandler.HandleFoodLogic(scanned, m, machine, config, d.u1, d.u2, d.eatWander)
      else FoodHandler.FoodStep(scanned, m, machine, None)
  }

  /** `HandleMovement`; `isEating` is the food handler's eating flag. */
  function HandleMovement(m: Monster.Monster, h: FoodHandler.Handler, machine: Option<StateMachine.Machine>,
                          config: Option<BehaviorConfig>, isEating: bool, foods: seq<Option<Food>>,
                          move: Mover, d: FrameDraws): (r: Frame)
    requires ValidFrameDraws(d)
    ensures StateOf(machine) == Some(Eating) || isEating ==> r == Frame(m, h, machine, None)
    ensures !(StateOf(machine) == Some(Eating) || isEating) ==>
              var fp := FoodPhase(m, h, machine, config, foods, d);
              var mv := move(Motion(fp.monster.position, fp.monster.target), StateOf(fp.machine));
              var retarget := IsMoving(machine) && fp.handler.nearest.None? && DistanceBelow(mv.position, mv.target, 10.0);
              && r.handler == fp.handler && r.machine == fp.machine && r.eaten == fp.eaten
              && r.monster.position == mv.position
              && (retarget ==> r.monster.target == d.idleWander)
              && (!retarget ==> r.monster.target == mv.target)
  {
    if StateOf(machine) == Some(Eating) || isEating then Frame(m, h, machine, None)
    else
      var fp := FoodPhase(m, h, machine, config, foods, d);
      var mv := move(Motion(fp.monster.position, fp.monster.target), StateOf(fp.machine));
      var moved := fp.monster.(position := mv.position, target := mv.target);
      var pursuing := fp.handler.nearest.Some?;
      var retarget := DistanceBelow(mv.position, mv.target, 10.0) && !pursuing && IsMoving(machine);
      Frame(if retarget then moved.(target := d.idleWander) else moved, fp.handler, fp.machine, fp.eaten)
  }

  /** A monster that is neither walking nor running only moves: it does not
      look for food, eat, change state or pick a new target. */
  lemma StillMonsterOnlyMoves(m: Monster.Monster, h: FoodHandler.Handler, machine: Option<StateMachine.Machine>,
                              config: Option<BehaviorConfig>, isEating: bool, foods: seq<Option<Food>>,
                              move: Mover, d: FrameDraws)
    requires ValidFrameDraws(d)
    requires !IsMoving(machine)
    ensures var r := HandleMovement(m, h, machine, config, isEating, foods, move, d);
            r.handler == h && r.machine == machine && r.eaten.None?
            && r.monster == m.(position := r.monster.position, target := r.monster.target)
  {
  }

  /** A monster chasing food it is not yet near keeps the food as its goal:
      the movement helper sees the food's position as the target. */
  lemma ChasesKnownFood(m: Monster.Monster, h: FoodHandler.Handler, machine: Option<StateMachine.Machine>,
                        config: Option<BehaviorConfig>, foods: seq<Option<Food>>, move: Mover, d: FrameDraws)
    requires ValidFrameDraws(d)
    requires IsMoving(machine)
    requires h.nearest.Some? && !h.isNearFood
    ensures var r := HandleMovement(m, h, machine, config, false, foods, move, d);
            var mv := move(Motion(m.position, h.nearest.value.position), StateOf(machine));
            r.handler == h && r.machine == machine && r.eaten.None?
            && r.monster.position == mv.position && r.monster.target == mv.target
  {
  }

  /** The controller's `Update`: nothing before the monster is loaded; then
      the cooldown ticks and the monster moves. */
  function Update(cooldown: real, m: Monster.Monster, h: FoodHandler.Handler, machine: Option<StateMachine.Machine>,
                  config: Option<BehaviorConfig>, isEating: bool, foods: seq<Option<Food>>,
                  move: Mover, dt: real, d: FrameDraws): (r: (real, Frame))
    requires ValidFrameDraws(d)
    ensures !m.isLoaded ==> r == (cooldown, Frame(m, h, machine, None))
    ensures m.isLoaded ==> r.0 == InteractionHandler.UpdateTimers(cooldown, dt)
    ensures m.isLoaded ==> r.1 == HandleMovement(m, h, machine, config, isEating, foods, move, d)
  {
    if !m.isLoaded then (cooldown, Frame(m, h, machine, None))
    else (InteractionHandler.UpdateTimers(cooldown, dt), HandleMovement(m, h, machine, config, isEating, foods, move, d))
  }
}

=== FILE: movement_bounds.dfy ===
/**
 Where a modular monster may wander: the play area, centred on the origin,
 shrunk on every side by half the monster's own size, and a random target
 drawn uniformly between the two corners.
 */
module MovementBounds {
  import opened Shared

  datatype Bounds = Bounds(min: Vec2, max: Vec2)

  /** `CalculateMovementBounds` for a play area of size `area` and a monster
      rectangle `width` by `height`. */
  function CalculateMovementBounds(area: Vec2, width: real, height: real): (b: Bounds)
    ensures b.min.x == -area.x / 2.0 + width / 2.0 && b.min.y == -area.y / 2.0 + height / 2.0
    ensures b.max.x == area.x / 2.0 - width / 2.0 && b.max.y == area.y / 2.0 - height / 2.0
  {
    var halfWidth := width / 2.0;
    var halfHeight := height / 2.0;
    Bounds(Vec2(-area.x / 2.0 + halfWidth, -area.y / 2.0 + halfHeight),
           Vec2(area.x / 2.0 - halfWidth, area.y / 2.0 - halfHeight))
  }

  /** The bounds are symmetric about the origin, and they are non-empty on an
      axis exactly when the monster's half-size fits in the area's half-size. */
  lemma BoundsSymmetric(area: Vec2, width: real, height: real)
    ensures var b := CalculateMovementBounds(area, width, height);
            && b.min.x == -b.max.x && b.min.y == -b.max.y
            && (b.min.x <= b.max.x <==> width / 2.0 <= area.x / 2.0)
            && (b.min.y <= b.max.y <==> height / 2.0 <= area.y / 2.0)
  {
  }

  /** `GetRandomTarget`, with one unit draw per axis. */
  function GetRandomTarget(area: Vec2, width: real, height: real, ux: real, uy: real): (t: Vec2)
    requires IsUnitDraw(ux) && IsUnitDraw(uy)
    ensures var b := CalculateMovementBounds(area, width, height);
            && (b.min.x <= b.max.x ==> b.min.x <= t.x <= b.max.x)
            && (b.min.y <= b.max.y ==> b.min.y <= t.y <= b.max.y)
            && (b.max.x <= b.min.x ==> b.max.x <= t.x <= b.min.x)
            && (b.max.y <= b.min.y ==> b.max.y <= t.y <= b.min.y)
  {
    var b := CalculateMovementBounds(area, width, height);
    Vec2(RangeDraw(b.min.x, b.max.x, ux), RangeDraw(b.min.y, b.max.y, uy))
  }

  /** A monster that fits in the area gets a target whose distance from the
      centre is at most the area's half-size less its own, on each axis. */
  lemma TargetInsideArea(area: Vec2, width: real, height: real, ux: real, uy: real)
    requires IsUnitDraw(ux) && IsUnitDraw(uy)
    requires width <= area.x && height <= area.y
    ensures var t := GetRandomTarget(area, width, height, ux, uy);
            && -(area.x - width) / 2.0 <= t.x <= (area.x - width) / 2.0
            && -(area.y - height) / 2.0 <= t.y <= (area.y - height) / 2.0
  {
  }

  /** `SetRandomTarget`: the drawn target, or the origin when the monster has
      no bounds helper yet. */
  function SetRandomTarget(area: Option<Vec2>, width: real, height: real, ux: real, uy: real): (t: Vec2)
    requires IsUnitDraw(ux) && IsUnitDraw(uy)
    ensures area.None? ==> t == Vec2(0.0, 0.0)
    ensures area.Some? ==> t == GetRandomTarget(area.value, width, height, ux, uy)
  {
    match area
    case None => Vec2(0.0, 0.0)
    case Some(a) => GetRandomTarget(a, width, height, ux, uy)
  }
}

=== FILE: pet.dfy ===
/**
 The simple pet: hunger only, walking left and right along the bottom edge
 of the play area. It scans for food on a timer (with no loaded guard), eats
 food it reaches, poops only while its hunger is above its eating threshold,
 and picks new targets on the bottom line. The engine's move-towards step is
 modelled for the horizontal case the pet uses, where it needs no square
 root; random draws are parameters.
 */
module Pet {
  import opened Shared
  import opened FoodScan
  import SaveSystem

  datatype Pet = Pet(
    petID: string,
    hunger: real,
    hovered: bool,
    hungerDepletionRate: real,
    poopInterval: real,
    hungerThresholdToEat: real,
    moveSpeed: real,
    eatDistance: real,
    foodRangeSqr: real,
    eatSqr: real,
    position: Vec2,
    target: Vec2,
    nearest: Option<Food>,
    bottomY: real)

  /** The pet's own save record. */
  datatype PetData = PetData(hunger: real, position: Vec2, petName: string)

  type Store = SaveSystem.Store<PetData>

  /** `Feed`: hunger moves by `amount`, saturating at 0 and 100. */
  function Feed(p: Pet, amount: real): (r: Pet)
    ensures Saturates(p.hunger + amount, 0.0, 100.0, r.hunger)
    ensures r == p.(hunger := r.hunger)
  {
    p.(hunger := Clamp(p.hunger + amount, 0.0, 100.0))
  }

  /** One pass of the hunger routine. */
  function HungerTick(p: Pet): (r: Pet)
    ensures Saturates(p.hunger - p.hungerDepletionRate, 0.0, 100.0, r.hunger)
    ensures r == p.(hunger := r.hunger)
  {
    p.(hunger := Clamp(p.hunger - p.hungerDepletionRate, 0.0, 100.0))
  }

  /** One pass of the poop routine: where a poop is spawned, if one is. */
  function PoopStep(p: Pet): (r: Option<Vec2>)
    ensures r.Some? <==> p.hunger > p.hungerThresholdToEat
    ensures r.Some? ==> r.value == p.position
  {
    if p.hunger > p.hungerThresholdToEat then Some(p.position) else None
  }

  /** A pet whose hunger has dropped to its threshold stops pooping until
      it is fed above it again. */
  lemma HungryPetDoesNotPoop(p: Pet)
    requires p.hunger <= p.hungerThresholdToEat
    requires p.hungerDepletionRate >= 0.0
    requires p.hungerThresholdToEat >= 0.0
    ensures PoopStep(HungerTick(p)).None?
  {
  }

  /** `FindNearestFood`: the nearest in-range food, earliest among ties. */
  function FindNearestFood(p: Pet, foods: seq<Option<Food>>): (r: Pet)
    ensures r.nearest.None? <==> forall j :: 0 <= j < |foods| ==> !Qualifies(p.position, foods, p.foodRangeSqr, j)
    ensures r.nearest.Some? ==> exists i: nat :: IsNearest(p.position, foods, p.foodRangeSqr, i) && foods[i] == r.nearest
    ensures r == p.(nearest := r.nearest)
  {
    var scan := Scan(p.position, foods, p.foodRangeSqr);
    p.(nearest := if scan.index.Some? then foods[scan.index.value] else None)
  }

  /** `SetRandomTarget`: a point on the bottom line, `x` drawn across the area. */
  function SetRandomTarget(p: Pet, xMin: real, xMax: real, u: real): (r: Pet)
    requires IsUnitDraw(u)
    ensures r.target.y == p.bottomY
    ensures xMin <= xMax ==> xMin <= r.target.x <= xMax
    ensures r == p.(target := r.target)
  {
    p.(target := Vec2(RangeDraw(xMin, xMax, u), p.bottomY))
  }

  /** `Vector2.MoveTowards` between two points of one horizontal line, on
      the `x` axis: the target when it is within `maxDelta`, otherwise a
      step of `maxDelta` towards it. */
  function MoveTowardsOnLine(x: real, tx: real, maxDelta: real): (r: real)
    ensures maxDelta >= 0.0 && x <= tx ==> x <= r <= tx && r - x <= maxDelta
    ensures maxDelta >= 0.0 && tx <= x ==> tx <= r <= x && x - r <= maxDelta
    ensures maxDelta >= 0.0 && (tx - x <= maxDelta && x - tx <= maxDelta) ==> r == tx
    ensures maxDelta >= 0.0 && (tx - x > maxDelta || x - tx > maxDelta) ==> r == x + (if tx > x then maxDelta else -maxDelta)
  {
    var d := tx - x;
    SquareCompare(d, maxDelta);
    if d == 0.0 || (maxDelta >= 0.0 && d * d <= maxDelta * maxDelta) then tx
    else
      x + (if d > 0.0 then maxDelta else -maxDelta)
  }

  /** What one frame leaves: the pet, a food destroyed on arrival and a food
      handed back to the pools. */
  datatype Frame = Frame(pet: Pet, destroyed: Option<Food>, despawned: Option<Food>)

  /** The move along the bottom line at the pet's speed. */
  function Step(p: Pet, dt: real): (r: Pet)
    ensures r.position.y == p.bottomY
    ensures r.position.x == MoveTowardsOnLine(p.position.x, p.target.x, p.moveSpeed * dt)
    ensures r == p.(position := r.position)
  {
    p.(position := Vec2(MoveTowardsOnLine(p.position.x, p.target.x, p.moveSpeed * dt), p.bottomY))
  }

  /** The pet is within 10 of the target's `x`. */
  predicate Arrived(position: Vec2, target: Vec2) {
    -10.0 < position.x - target.x < 10.0
  }

  /** The arrival check: within 10 of the target's `x`, a food within eating
      distance of the new position is eaten and destroyed, and a new target
      is drawn. */
  function Arrive(moved: Pet, target: Vec2, food: Option<Food>, xMin: real, xMax: real, u: real): (r: Frame)
    requires IsUnitDraw(u)
    ensures r.despawned.None? && r.pet.position == moved.position && r.pet.nearest == moved.nearest
    ensures r.destroyed.Some? ==> r.destroyed == food && r.pet.hunger == Feed(moved, food.value.nutritionValue).hunger
    ensures r.destroyed.None? ==> r.pet.hunger == moved.hunger
    ensures r.destroyed.Some? <==>
              && Arrived(moved.position, target)
              && food.Some? && DistanceBelow(moved.position, food.value.position, moved.eatDistance)
    ensures Arrived(moved.position, target) ==>
              && r.pet.target.y == moved.bottomY
              && r.pet.target.x == RangeDraw(xMin, xMax, u)
              && (xMin <= xMax ==> xMin <= r.pet.target.x <= xMax)
    ensures !Arrived(moved.position, target) ==> r == Frame(moved, None, None)
  {
    if Arrived(moved.position, target) then
      if food.Some? && DistanceBelow(moved.position, food.value.position, moved.eatDistance) then
        Frame(SetRandomTarget(Feed(moved, food.value.nutritionValue), xMin, xMax, u), food, None)
      else Frame(SetRandomTarget(moved, xMin, xMax, u), None, None)
    else Frame(moved, None, None)
  }

  /** `HandleMovement` as written, with `u1` and `u2` the draws of the two
      possible new targets. The pet moves along the bottom line and runs the
      arrival check; then a known food within eating distance of the old
      position is eaten and handed back. Destroying a game object takes
      effect only at the end of the frame, so the food destroyed on arrival
      is still known to the second check; from the next frame on the
      reference reads as null, so the pet no longer knows the food. */
  function HandleMovementAsWritten(p: Pet, dt: real, xMin: real, xMax: real, u1: real, u2: real): (r: Frame)
    requires IsUnitDraw(u1) && IsUnitDraw(u2)
    ensures r.pet.position == Step(p, dt).position
    ensures r.destroyed.Some? ==> r.destroyed == p.nearest
    ensures r.despawned.Some? ==> r.despawned == p.nearest && r.pet.nearest.None?
    ensures r.destroyed.None? && r.despawned.None? ==> r.pet.nearest == p.nearest
    ensures r.destroyed.Some? ==> r.pet.nearest.None?
    ensures var moved := Step(p, dt);
            r.destroyed.Some? <==>
              && Arrived(moved.position, p.target)
              && p.nearest.Some? && DistanceBelow(moved.position, p.nearest.value.position, p.eatDistance)
    ensures r.despawned.Some? <==> p.nearest.Some? && SqrDist(p.nearest.value.position, p.position) < p.eatSqr
    ensures r.destroyed.None? && r.despawned.None? ==> r.pet.hunger == p.hunger
    ensures r.destroyed.Some? != r.despawned.Some? ==> r.pet.hunger == Feed(p, p.nearest.value.nutritionValue).hunger
    ensures r.destroyed.Some? && r.despawned.Some? ==>
              var n := p.nearest.value.nutritionValue;
              r.pet.hunger == Feed(Feed(p, n), n).hunger
    ensures r.despawned.Some? ==> r.pet.target == Vec2(RangeDraw(xMin, xMax, u2), p.bottomY)
    ensures r == Frame(p.(position := r.pet.position, hunger := r.pet.hunger, nearest := r.pet.nearest,
                          target := r.pet.target), r.destroyed, r.despawned)
  {
    var first := Arrive(Step(p, dt), p.target, p.nearest, xMin, xMax, u1);
    if p.nearest.Some? && SqrDist(p.nearest.value.position, p.position) < p.eatSqr then
      var fed := Feed(first.pet, p.nearest.value.nutritionValue).(nearest := None);
      Frame(SetRandomTarget(fed, xMin, xMax, u2), first.destroyed, p.nearest)
    else if first.destroyed.Some? then Frame(first.pet.(nearest := None), first.destroyed, None)
    else first
  }

  /** A pet standing on a food at its target eats that food twice in one
      frame: hunger 50 and a food worth 10 end at 70. */
  lemma DoubleFeedWitness()
    ensures var food := Food(Vec2(0.0, 0.0), 10.0);
            var p := Pet("p", 50.0, false, 0.1, 10.0, 30.0, 100.0, 30.0, 40000.0, 900.0,
                         Vec2(0.0, 0.0), Vec2(0.0, 0.0), Some(food), 0.0);
            var r := HandleMovementAsWritten(p, 0.0, -100.0, 100.0, 0.5, 0.5);
            r.destroyed == Some(food) && r.despawned == Some(food) && r.pet.hunger == 70.0
  {
    var food := Food(Vec2(0.0, 0.0), 10.0);
    var p := Pet("p", 50.0, false, 0.1, 10.0, 30.0, 100.0, 30.0, 40000.0, 900.0,
                 Vec2(0.0, 0.0), Vec2(0.0, 0.0), Some(food), 0.0);
    assert Step(p, 0.0).position == Vec2(0.0, 0.0);
    assert DistanceBelow(Vec2(0.0, 0.0), food.position, 30.0);
  }

  /** `HandleMovement` as evidently intended: a food eaten on arrival is
      gone, so the second check does not see it again. */
  function HandleMovement(p: Pet, dt: real, xMin: real, xMax: real, u1: real, u2: real): (r: Frame)
    requires IsUnitDraw(u1) && IsUnitDraw(u2)
    ensures r.pet.position.y == p.bottomY
    ensures r.pet.position.x == MoveTowardsOnLine(p.position.x, p.target.x, p.moveSpeed * dt)
    ensures r.destroyed.None? || r.despawned.None?
    ensures r.destroyed.Some? ==> r.destroyed == p.nearest && r.pet.nearest.None?
    ensures r.despawned.Some? ==> r.despawned == p.nearest && r.pet.nearest.None?
    ensures r.destroyed.None? && r.despawned.None? ==> r.pet.nearest == p.nearest && r.pet.hunger == p.hunger
    ensures r.destroyed.Some? || r.despawned.Some? ==> r.pet.hunger == Feed(p, p.nearest.value.nutritionValue).hunger
    ensures var moved := Step(p, dt);
            r.destroyed.Some? <==>
              && Arrived(moved.position, p.target)
              && p.nearest.Some? && DistanceBelow(moved.position, p.nearest.value.position, p.eatDistance)
    ensures r.despawned.Some? <==>
              && r.destroyed.None?
              && p.nearest.Some? && SqrDist(p.nearest.value.position, p.position) < p.eatSqr
    ensures var moved := Step(p, dt);
            && (r.despawned.Some? ==> r.pet.target == Vec2(RangeDraw(xMin, xMax, u2), p.bottomY))
            && (r.despawned.None? && Arrived(moved.position, p.target) ==>
                  r.pet.target == Vec2(RangeDraw(xMin, xMax, u1), p.bottomY))
            && (r.despawned.None? && !Arrived(moved.position, p.target) ==> r.pet.target == p.target)
    ensures r.pet == p.(position := r.pet.position, hunger := r.pet.hunger, nearest := r.pet.nearest,
                        target := r.pet.target)
  {
    var first := Arrive(Step(p, dt), p.target, p.nearest, xMin, xMax, u1);
    if first.destroyed.Some? then Frame(first.pet.(nearest := None), first.destroyed, None)
    else if p.nearest.Some? && SqrDist(p.nearest.value.position, p.position) < p.eatSqr then
      var fed := Feed(first.pet, p.nearest.value.nutritionValue).(nearest := None);
      Frame(SetRandomTarget(fed, xMin, xMax, u2), None, p.nearest)
    else first
  }

  /** `LoadPetData`. A stored record restores hunger, position and id; with
      none, the bottom line is set from the area and a target drawn on it. A
      key holding no readable record makes the source throw before any
      change, and the model then leaves the pet as it was. */
  function LoadPetData(store: Store, p: Pet, areaYMin: real, height: real, xMin: real, xMax: real, u: real): (r: Pet)
    requires IsUnitDraw(u)
    ensures SaveSystem.LoadMon(store, p.petID).1.Some? ==>
              var d := SaveSystem.LoadMon(store, p.petID).1.value;
              r == p.(hunger := d.hunger, position := d.position, petID := d.petName)
    ensures SaveSystem.MonKey(p.petID) !in store ==>
              r.bottomY == areaYMin + height / 2.0 && r.target.y == r.bottomY
              && (xMin <= xMax ==> xMin <= r.target.x <= xMax)
              && r == p.(bottomY := r.bottomY, target := r.target)
    ensures SaveSystem.LoadMon(store, p.petID) == (true, None) ==> r == p
  {
    match SaveSystem.LoadMon(store, p.petID)
    case (true, Some(d)) => p.(hunger := d.hunger, position := d.position, petID := d.petName)
    case (true, None) => p
    case (false, _) => SetRandomTarget(p.(bottomY := areaYMin + height / 2.0), xMin, xMax, u)
  }
}

=== FILE: save_handler.dfy ===
/**
 The modular monster's save handler. Saving writes the monster's id, needs
 and evolution flags as one record under its id; the evolution counters of
 the record stay at their zero defaults. Loading without a definition starts
 a new monster at hunger 50 and happiness 0. With a definition a stored
 record restores the needs, id and flags (copying the flags onto the
 definition and refreshing the visuals), a missing one starts a new monster
 at the definition's base needs with the definition's flags cleared, and in
 both cases the definition's tuning is copied onto the stats.
 */
module SaveHandler {
  import opened Shared
  import opened Data
  import SaveSystem
  import Monster
  import VisualHandler

  type Store = SaveSystem.Store<MonsterSaveData>

  /** The monster together with its skeleton graphic, which a load refreshes. */
  datatype View = View(monster: Monster.Monster, graphic: Option<VisualHandler.Graphic>)

  /** The record `SaveData` builds. */
  function Snapshot(m: Monster.Monster): (s: MonsterSaveData)
    ensures s.monsterId == m.monsterID && s.lastHunger == m.hunger && s.lastHappiness == m.happiness
    ensures s.isEvolved == m.isEvolved && s.isFinalForm == m.isFinalForm && s.evolutionLevel == m.evolutionLevel
    ensures s.timeSinceCreation == 0.0 && s.totalHappinessAccumulated == 0.0 && s.totalHungerSatisfied == 0.0
    ensures s.foodConsumed == 0 && s.interactionCount == 0
  {
    MonsterSaveData(m.monsterID, m.hunger, m.happiness, m.isEvolved, m.isFinalForm, m.evolutionLevel,
                    0.0, 0.0, 0.0, 0, 0)
  }

  /** `SaveData`: the snapshot under the monster's own id; every other key keeps its value. */
  function SaveData(store: Store, m: Monster.Monster): (r: Store)
    ensures SaveSystem.LoadMon(r, m.monsterID) == (true, Some(Snapshot(m)))
    ensures forall k :: k in store && k != SaveSystem.MonKey(m.monsterID) ==> k in r && r[k] == store[k]
  {
    SaveSystem.LoadAfterSave(store, m.monsterID, Snapshot(m));
    SaveSystem.SaveMon(store, m.monsterID, Snapshot(m))
  }

  /** `InitNewMonster`: base needs (50 and 0 without a definition) and, with
      a definition, its evolution flags cleared. The monster's own flags are
      left alone. */
  function InitNewMonster(m: Monster.Monster): (r: Monster.Monster)
    ensures m.definition.None? ==> r == m.(hunger := 50.0, happiness := 0.0)
    ensures m.definition.Some? ==>
              && r.hunger == m.definition.value.baseHunger && r.happiness == m.definition.value.baseHappiness
              && r.definition == Some(m.definition.value.(isEvolved := false, isFinalEvol := false, evolutionLevel := 0))
    ensures r == m.(hunger := r.hunger, happiness := r.happiness, definition := r.definition)
  {
    var hunger := if m.definition.Some? then m.definition.value.baseHunger else 50.0;
    var happiness := if m.definition.Some? then m.definition.value.baseHappiness else 0.0;
    var fed := Monster.SetHappiness(Monster.SetHunger(m, hunger).m, happiness).m;
    match m.definition
    case None => fed
    case Some(d) => fed.(definition := Some(d.(isEvolved := false, isFinalEvol := false, evolutionLevel := 0)))
  }

  /** `LoadFromSaveData`: needs, id and flags from the record; with a
      definition, the flags are copied onto it and the visuals refreshed. */
  function LoadFromSaveData(v: View, s: MonsterSaveData): (r: View)
    ensures r.monster.hunger == s.lastHunger && r.monster.happiness == s.lastHappiness
    ensures r.monster.monsterID == s.monsterId
    ensures r.monster.isEvolved == s.isEvolved && r.monster.isFinalForm == s.isFinalForm
    ensures r.monster.evolutionLevel == s.evolutionLevel
    ensures v.monster.definition.None? ==> r.monster.definition.None? && r.graphic == v.graphic
    ensures v.monster.definition.Some? ==>
              && r.monster.definition == Some(v.monster.definition.value.(isEvolved := s.isEvolved,
                   isFinalEvol := s.isFinalForm, evolutionLevel := s.evolutionLevel))
              && r.graphic == VisualHandler.ApplyMonsterVisuals(r.monster, v.graphic)
    ensures r.monster == v.monster.(hunger := r.monster.hunger, happiness := r.monster.happiness,
              monsterID := r.monster.monsterID, isEvolved := r.monster.isEvolved, isFinalForm := r.monster.isFinalForm,
              evolutionLevel := r.monster.evolutionLevel, definition := r.monster.definition)
  {
    var m := Monster.SetHappiness(Monster.SetHunger(v.monster, s.lastHunger).m, s.lastHappiness).m;
    var m := m.(monsterID := s.monsterId, isEvolved := s.isEvolved, isFinalForm := s.isFinalForm,
                evolutionLevel := s.evolutionLevel);
    match m.definition
    case None => View(m, v.graphic)
    case Some(d) =>
      var m := m.(definition := Some(d.(isEvolved := s.isEvolved, isFinalEvol := s.isFinalForm,
                                        evolutionLevel := s.evolutionLevel)));
      View(m, VisualHandler.ApplyMonsterVisuals(m, v.graphic))
  }

  /** `ApplyMonsterDataStats`: the definition's speed, hunger rate, poop
      rate, poke value and area rate replace the stats'; nothing else changes. */
  function ApplyMonsterDataStats(m: Monster.Monster): (r: Monster.Monster)
    ensures m.definition.None? ==> r == m
    ensures m.definition.Some? ==>
              var d := m.definition.value;
              r == m.(stats := m.stats.(moveSpeed := d.moveSpd, hungerDepletionRate := d.hungerDepleteRate,
                         poopInterval := d.poopRate, pokeHappinessIncrease := d.pokeHappinessValue,
                         areaHappinessRate := d.areaHappinessRate))
  {
    match m.definition
    case None => m
    case Some(d) =>
      m.(stats := m.stats.(moveSpeed := d.moveSpd, hungerDepletionRate := d.hungerDepleteRate,
                           poopInterval := d.poopRate, pokeHappinessIncrease := d.pokeHappinessValue,
                           areaHappinessRate := d.areaHappinessRate))
  }

  /** `LoadData`. A key that exists but holds no readable record makes the
      source throw before any change; the model then leaves everything as it was. */
  function LoadData(store: Store, v: View): (r: View)
    ensures v.monster.definition.None? ==> r == View(InitNewMonster(v.monster), v.graphic)
    ensures v.monster.definition.Some? && SaveSystem.MonKey(v.monster.monsterID) !in store ==>
              r == View(ApplyMonsterDataStats(InitNewMonster(v.monster)), v.graphic)
    ensures v.monster.definition.Some? && SaveSystem.LoadMon(store, v.monster.monsterID).1.Some? ==>
              var loaded := LoadFromSaveData(v, SaveSystem.LoadMon(store, v.monster.monsterID).1.value);
              r == View(ApplyMonsterDataStats(loaded.monster), loaded.graphic)
    ensures SaveSystem.LoadMon(store, v.monster.monsterID) == (true, None) ==>
              v.monster.definition.Some? ==> r == v
  {
    if v.monster.definition.None? then View(InitNewMonster(v.monster), v.graphic)
    else
      match SaveSystem.LoadMon(store, v.monster.monsterID)
      case (true, Some(s)) =>
        var loaded := LoadFromSaveData(v, s);
        View(ApplyMonsterDataStats(loaded.monster), loaded.graphic)
      case (true, None) => v
      case (false, _) => View(ApplyMonsterDataStats(InitNewMonster(v.monster)), v.graphic)
  }

  /** Saving and then loading the same monster gives back its needs, id and
      evolution flags, and the definition carries the flags afterwards. */
  lemma SaveThenLoad(store: Store, v: View)
    requires v.monster.definition.Some?
    ensures var r := LoadData(SaveData(store, v.monster), v).monster;
            var m := v.monster;
            && r.hunger == m.hunger && r.happiness == m.happiness && r.monsterID == m.monsterID
            && r.isEvolved == m.isEvolved && r.isFinalForm == m.isFinalForm && r.evolutionLevel == m.evolutionLevel
            && r.definition.Some? && r.definition.value.isEvolved == m.isEvolved
            && r.definition.value.isFinalEvol == m.isFinalForm && r.definition.value.evolutionLevel == m.evolutionLevel
  {
    assert SaveSystem.LoadMon(SaveData(store, v.monster), v.monster.monsterID) == (true, Some(Snapshot(v.monster)));
  }

  /** `SetMonsterData`: a null definition changes nothing; otherwise the
      definition and id are given, the visuals applied and the save loaded. */
  function SetMonsterData(store: Store, v: View, def: Option<MonsterDefinition>, guid: string): (r: View)
    requires Monster.IsGuidSlice(guid)
    ensures def.None? ==> r == v
    ensures def.Some? ==>
              var given := Monster.AssignDefinition(v.monster, def, guid);
              r == LoadData(store, View(given, VisualHandler.ApplyMonsterVisuals(given, v.graphic)))
  {
    if def.None? then v
    else
      var given := Monster.AssignDefinition(v.monster, def, guid);
      LoadData(store, View(given, VisualHandler.ApplyMonsterVisuals(given, v.graphic)))
  }

  /** A monster given a definition for the first time, with nothing saved
      under its new id, starts at the definition's base needs with the
      definition's tuning on its stats. */
  lemma NewMonsterStartsAtBase(store: Store, v: View, def: MonsterDefinition, guid: string)
    requires Monster.IsGuidSlice(guid)
    requires v.monster.monsterID == ""
    requires SaveSystem.MonKey(Monster.DefinitionID(def.id, v.monster.evolutionLevel, guid)) !in store
    ensures var r := SetMonsterData(store, v, Some(def), guid).monster;
            && r.hunger == def.baseHunger && r.happiness == def.baseHappiness
            && r.monsterID == Monster.DefinitionID(def.id, v.monster.evolutionLevel, guid)
            && r.stats.moveSpeed == def.moveSpd && r.stats.hungerDepletionRate == def.hungerDepleteRate
            && r.definition == Some(def.(isEvolved := false, isFinalEvol := false, evolutionLevel := 0))
  {
  }
}

=== FILE: save_system.dfy ===
/**
 The persistence helper over the engine's key-value store. The store is a map
 from key to entry; JSON serialisation is the identity, so a saved record is
 kept as the record itself. The record type is a parameter because the two
 monster controllers persist two different record classes.
 */
module SaveSystem {
  import opened Shared
  import opened Strings

  /** What one key holds: an int, a string, or a serialised record. */
  datatype Entry<R> = IntValue(i: int) | TextValue(s: string) | Record(r: R)

  type Store<R> = map<string, Entry<R>>

  const CoinKey: string := "Coin"
  const PoopKey: string := "Poop"
  const MonsterKey: string := "MonsterIDs"

  /** Key of the record of monster `id`. */
  function MonKey(id: string): (k: string)
    ensures StartsWith(k, "Pet")
    ensures |k| == |id| + 3 && k[3..] == id
  {
    "Pet" + id
  }

  /** Distinct monsters never share a record key. */
  lemma MonKeyInjective(a: string, b: string)
    requires MonKey(a) == MonKey(b)
    ensures a == b
  {
    assert a == MonKey(a)[3..];
  }

  /** No monster record key collides with a global key. */
  lemma MonKeyNotGlobal(id: string)
    ensures MonKey(id) != CoinKey && MonKey(id) != PoopKey && MonKey(id) != MonsterKey
  {
    assert MonKey(id)[0] == 'P' && MonKey(id)[1] == 'e';
  }

  /** `PlayerPrefs.GetInt(key, default)`: the stored int, else the default. */
  function GetInt<R>(store: Store<R>, key: string, default: int): (r: int)
    ensures key in store && store[key].IntValue? ==> r == store[key].i
    ensures !(key in store && store[key].IntValue?) ==> r == default
  {
    if key in store && store[key].IntValue? then store[key].i else default
  }

  /** `PlayerPrefs.GetString(key, default)`: the stored string, else the default. */
  function GetString<R>(store: Store<R>, key: string, default: string): (r: string)
    ensures key in store && store[key].TextValue? ==> r == store[key].s
    ensures !(key in store && store[key].TextValue?) ==> r == default
  {
    if key in store && store[key].TextValue? then store[key].s else default
  }

  function SaveCoin<R>(store: Store<R>, money: int): (r: Store<R>)
    ensures GetInt(r, CoinKey, 100) == money
    ensures forall k :: k in store && k != CoinKey ==> k in r && r[k] == store[k]
    ensures r.Keys == store.Keys + {CoinKey}
  {
    store[CoinKey := IntValue(money)]
  }

  /** The coin count, 100 when nothing was saved. */
  function LoadCoin<R>(store: Store<R>): (r: int)
    ensures CoinKey !in store ==> r == 100
    ensures CoinKey in store && store[CoinKey].IntValue? ==> r == store[CoinKey].i
  {
    GetInt(store, CoinKey, 100)
  }

  function SavePoop<R>(store: Store<R>, poop: int): (r: Store<R>)
    ensures GetInt(r, PoopKey, 0) == poop
    ensures forall k :: k in store && k != PoopKey ==> k in r && r[k] == store[k]
    ensures r.Keys == store.Keys + {PoopKey}
  {
    store[PoopKey := IntValue(poop)]
  }

  /** The poop count, 0 when nothing was saved. */
  function LoadPoop<R>(store: Store<R>): (r: int)
    ensures PoopKey !in store ==> r == 0
    ensures PoopKey in store && store[PoopKey].IntValue? ==> r == store[PoopKey].i
  {
    GetInt(store, PoopKey, 0)
  }

  /** `SaveMon(data)` writes the record under `"Pet" + data.monsterId`; the
      caller passes that id. */
  function SaveMon<R>(store: Store<R>, monsterId: string, data: R): (r: Store<R>)
    ensures MonKey(monsterId) in r && r[MonKey(monsterId)] == Record(data)
    ensures r.Keys == store.Keys + {MonKey(monsterId)}
    ensures forall k :: k in store && k != MonKey(monsterId) ==> r[k] == store[k]
  {
    store[MonKey(monsterId) := Record(data)]
  }

  /** `LoadMon(id, out data)`: whether the key exists, and the record it holds.
      A key holding something other than a record reads as found with no
      record, since parsing foreign text is not modelled. */
  function LoadMon<R>(store: Store<R>, monsterId: string): (r: (bool, Option<R>))
    ensures r.0 <==> MonKey(monsterId) in store
    ensures r.1.Some? <==> MonKey(monsterId) in store && store[MonKey(monsterId)].Record?
    ensures r.1.Some? ==> store[MonKey(monsterId)] == Record(r.1.value)
  {
    var key := MonKey(monsterId);
    if key in store then
      (true, if store[key].Record? then Some(store[key].r) else None)
    else
      (false, None)
  }

  /** Loading right after saving returns the saved record. */
  lemma LoadAfterSave<R>(store: Store<R>, monsterId: string, data: R)
    ensures LoadMon(SaveMon(store, monsterId, data), monsterId) == (true, Some(data))
  {
  }

  /** Saving one monster leaves every other monster's record as it was. */
  lemma SaveKeepsOthers<R>(store: Store<R>, a: string, b: string, data: R)
    requires a != b
    ensures LoadMon(SaveMon(store, a, data), b) == LoadMon(store, b)
  {
    if MonKey(a) == MonKey(b) {
      MonKeyInjective(a, b);
    }
  }

  /** `SaveMonIDs`: the comma-joined id list under `"MonsterIDs"`. */
  function SaveMonIDs<R>(store: Store<R>, ids: seq<string>): (r: Store<R>)
    ensures MonsterKey in r && r[MonsterKey] == TextValue(Join(ids, ','))
    ensures forall k :: k in store && k != MonsterKey ==> k in r && r[k] == store[k]
    ensures r.Keys == store.Keys + {MonsterKey}
  {
    store[MonsterKey := TextValue(Join(ids, ','))]
  }

  /** `LoadSavedMonIDs`: the stored list split at commas; empty when the
      string is missing or empty. */
  function LoadSavedMonIDs<R>(store: Store<R>): (ids: seq<string>)
    ensures forall i :: 0 <= i < |ids| ==> ',' !in ids[i]
    ensures GetString(store, MonsterKey, "") == "" <==> ids == []
    ensures ids != [] ==> Join(ids, ',') == GetString(store, MonsterKey, "")
  {
    var csv := GetString(store, MonsterKey, "");
    if csv == "" then [] else Split(csv, ',')
  }

  /** The id list survives a save and load exactly when no id holds a comma
      and the list is not the single empty id. */
  lemma IdsRoundTrip<R>(store: Store<R>, ids: seq<string>)
    requires ids == [] || (SeparatorFree(ids, ',') && ids != [""])
    ensures LoadSavedMonIDs(SaveMonIDs(store, ids)) == ids
  {
    if ids != [] {
      if |ids| == 1 {
        assert Join(ids, ',') == ids[0];
      } else {
        assert Join(ids, ',') == ids[0] + [','] + Join(ids[1..], ',');
        assert Join(ids, ',')[|ids[0]|] == ',';
      }
      SplitJoin(ids, ',');
    }
  }

  /** The single empty id is lost: it is saved as the empty string. */
  lemma SingleEmptyIdLost<R>(store: Store<R>)
    ensures LoadSavedMonIDs(SaveMonIDs(store, [""])) == []
  {
  }

  /** An id holding a comma comes back as two ids. */
  lemma CommaIdSplits<R>(store: Store<R>)
    ensures LoadSavedMonIDs(SaveMonIDs(store, ["a,b"])) == ["a", "b"]
  {
    assert Join(["a", "b"], ',') == "a,b";
    SplitJoin(["a", "b"], ',');
  }

  /** Deletes `"Pet" + k` for every non-empty `k`, as the clearing loop does. */
  function DeleteMonRecords<R>(store: Store<R>, ids: seq<string>): (r: Store<R>)
    ensures r.Keys <= store.Keys
    ensures forall i :: 0 <= i < |ids| && ids[i] != "" ==> MonKey(ids[i]) !in r
    ensures forall k :: k in r ==> r[k] == store[k]
    ensures forall k :: k in store && (forall i :: 0 <= i < |ids| ==> ids[i] == "" || k != MonKey(ids[i])) ==> k in r
  {
    if |ids| == 0 then store
    else
      var rest := DeleteMonRecords(store, ids[1..]);
      if ids[0] != "" then rest - {MonKey(ids[0])} else rest
  }

  /** `ClearSaveData` as written: the id list is deleted before it is read
      back, so the read sees the empty default and no monster record is
      removed. */
  function ClearSaveDataAsWritten<R>(store: Store<R>): (r: Store<R>)
  {
    var cleared := store - {CoinKey, PoopKey, MonsterKey};
    DeleteMonRecords(cleared, Split(GetString(cleared, MonsterKey, ""), ','))
  }

  /** As written, clearing removes only the three global keys. */
  lemma ClearAsWrittenKeepsRecords<R>(store: Store<R>)
    ensures ClearSaveDataAsWritten(store) == store - {CoinKey, PoopKey, MonsterKey}
  {
    var cleared := store - {CoinKey, PoopKey, MonsterKey};
    assert GetString(cleared, MonsterKey, "") == "";
    assert Split("", ',') == [""];
  }

  /** A concrete store whose monster record survives the as-written clear. */
  lemma ClearAsWrittenWitness()
    ensures var store: Store<int> := map[MonsterKey := TextValue("abc"), MonKey("abc") := Record(7)];
            MonKey("abc") in ClearSaveDataAsWritten(store)
  {
    var store: Store<int> := map[MonsterKey := TextValue("abc"), MonKey("abc") := Record(7)];
    ClearAsWrittenKeepsRecords(store);
    MonKeyNotGlobal("abc");
  }

  /** `ClearSaveData` with the id list read before it is deleted. */
  function ClearSaveData<R>(store: Store<R>): (r: Store<R>)
    ensures CoinKey !in r && PoopKey !in r && MonsterKey !in r
    ensures forall id :: id in LoadSavedMonIDs(store) && id != "" ==> MonKey(id) !in r
    ensures r.Keys <= store.Keys
    ensures forall k :: k in r ==> r[k] == store[k]
  {
    var ids := Split(GetString(store, MonsterKey, ""), ',');
    DeleteMonRecords(store, ids) - {CoinKey, PoopKey, MonsterKey}
  }

  /** The corrected clear keeps every key that is neither global nor the
      record of a listed monster. */
  lemma ClearKeepsUnlisted<R>(store: Store<R>, k: string)
    requires k in store
    requires k != CoinKey && k != PoopKey && k != MonsterKey
    requires forall id :: id in LoadSavedMonIDs(store) ==> k != MonKey(id)
    ensures k in ClearSaveData(store) && ClearSaveData(store)[k] == store[k]
  {
    var ids := Split(GetString(store, MonsterKey, ""), ',');
    forall i | 0 <= i < |ids|
      ensures ids[i] == "" || k != MonKey(ids[i])
    {
      if ids[i] != "" {
        assert GetString(store, MonsterKey, "") != "";
        assert ids[i] in LoadSavedMonIDs(store);
      }
    }
  }
}

=== FILE: service_locator.dfy ===
/**
 The service locator: one service per type, the first registration winning.
 Types are named by a key, and a lookup that finds nothing yields the type's
 default value, here `None`.
 */
module ServiceLocator {
  import opened Shared

  type Services<S> = map<string, S>

  /** `Register<T>`: ignored when the type already has a service. */
  function Register<S>(services: Services<S>, key: string, service: S): (r: Services<S>)
    ensures key in r
    ensures key in services ==> r == services
    ensures key !in services ==> r[key] == service && r.Keys == services.Keys + {key}
    ensures forall k :: k in services ==> k in r && r[k] == services[k]
  {
    if key in services then services else services[key := service]
  }

  /** `Unregister<T>`: removes the type's service, if any. */
  function Unregister<S>(services: Services<S>, key: string): (r: Services<S>)
    ensures key !in r
    ensures r.Keys == services.Keys - {key}
    ensures forall k :: k in r ==> r[k] == services[k]
    ensures key !in services ==> r == services
  {
    services - {key}
  }

  /** `Has<T>`. */
  function Has<S>(services: Services<S>, key: string): (r: bool)
    ensures r <==> TryGetValue(services, key).Some?
  {
    key in services
  }

  /** The first registration wins: a second one, of anything, changes
      nothing, and the first service is what `Get` returns. */
  lemma FirstRegistrationWins<S>(services: Services<S>, key: string, first: S, second: S)
    requires !Has(services, key)
    ensures var once := Register(services, key, first);
            && Has(once, key) && TryGetValue(once, key) == Some(first)
            && Register(once, key, second) == once
  {
  }

  /** Unregistering forgets exactly that type; registering afterwards takes
      the new service. */
  lemma UnregisterThenRegister<S>(services: Services<S>, key: string, other: string, service: S)
    requires other != key
    ensures !Has(Unregister(services, key), key)
    ensures TryGetValue(Unregister(services, key), other) == TryGetValue(services, other)
    ensures TryGetValue(Register(Unregister(services, key), key, service), key) == Some(service)
  {
  }
}

=== FILE: state_machine.dfy ===
/**
 The behaviour state machine of the modular monster. Every frame the state
 timer grows; an `Eating` monster whose food is gone drops to `Idle` at once;
 when the timer reaches the state's duration a next state is chosen: `Eating`
 ends in `Idle` or `Walking` by a coin draw, otherwise the transition table is
 filtered and a cumulative-weight pick is made, with `Idle` as the fallback
 when no row qualifies. Random draws are parameters.
 */
module StateMachine {
  import opened Shared
  import opened Weighted

  datatype Machine = Machine(current: MonsterState, previous: MonsterState, timer: real, duration: real)

  /** What the machine reads from its monster: whether a nearest food is
      known, and the current needs. */
  datatype Needs = Needs(hasFood: bool, hunger: real, happiness: real)

  /** The random draws one frame may consume: the `Random.Range(0, 2)` coin,
      the unit draw of the weighted roll, and the unit draw of the new
      state's duration. */
  datatype Draws = Draws(coin: int, roll: real, duration: real)

  predicate ValidDraws(d: Draws) {
    IsCoinDraw(d.coin) && IsUnitDraw(d.roll) && IsUnitDraw(d.duration)
  }

  /** A table row is a candidate: it leaves the current state, its food
      requirement is met, and both needs reach its thresholds. */
  predicate Admits(t: StateTransition, current: MonsterState, needs: Needs) {
    && t.fromState == current
    && (t.requiresFood ==> needs.hasFood)
    && needs.hunger >= t.hungerThreshold
    && needs.happiness >= t.happinessThreshold
  }

  /** The candidate rows, in table order; none without a configuration or
      without a table. */
  function ValidTransitions(config: Option<BehaviorConfig>, current: MonsterState, needs: Needs): (r: seq<StateTransition>)
    ensures config.None? || config.value.transitions.None? ==> r == []
    ensures forall i :: 0 <= i < |r| ==> Admits(r[i], current, needs)
    ensures config.Some? && config.value.transitions.Some? ==>
              var table := config.value.transitions.value;
              && Subsequence(r, table)
              && (forall i :: 0 <= i < |table| ==> (table[i] in r <==> Admits(table[i], current, needs)))
              && (forall t :: multiset(r)[t] == (if Admits(t, current, needs) then multiset(table)[t] else 0))
  {
    if config.None? || config.value.transitions.None? then []
    else
      var admitted := (t: StateTransition) => Admits(t, current, needs);
      FilterCounts(config.value.transitions.value, admitted);
      Filter(config.value.transitions.value, admitted)
  }

  /** The `probability` column of a list of rows. */
  function Probabilities(rows: seq<StateTransition>): (w: seq<real>)
    ensures |w| == |rows|
    ensures forall i :: 0 <= i < |rows| ==> w[i] == rows[i].probability
  {
    if |rows| == 0 then [] else [rows[0].probability] + Probabilities(rows[1..])
  }

  /** A configured duration bound: the configured value when positive, the
      built-in default otherwise. */
  function Positive(configured: real, default: real): (r: real)
    requires default > 0.0
    ensures r > 0.0
    ensures configured > 0.0 ==> r == configured
    ensures configured <= 0.0 ==> r == default
  {
    if configured > 0.0 then configured else default
  }

  /** How long a newly entered state lasts, `u` being the duration draw. */
  function StateDuration(config: Option<BehaviorConfig>, s: MonsterState, u: real): (d: real)
    requires IsUnitDraw(u)
    ensures d > 0.0
    ensures s == Jumping && config.None? ==> d == 1.0
    ensures s == Jumping && config.Some? && config.value.jumpDuration > 0.0 ==> d == config.value.jumpDuration
    ensures s == Jumping && config.Some? && config.value.jumpDuration <= 0.0 ==> d == 1.0
    ensures s == Flying ==> d == 2.0
    ensures config.None? && s == Idle ==> 2.0 <= d <= 4.0
    ensures config.None? && (s == Walking || s == Running) ==> 3.0 <= d <= 5.0
    ensures config.None? && (s == Itching || s == Eating) ==> 1.0 <= d <= 2.0
    ensures config.Some? && s == Itching ==> 2.0 <= d <= 4.0
    ensures config.Some? && s == Eating ==> 1.5 <= d <= 3.0
  {
    match config
    case None =>
      (match s
       case Idle => RangeDraw(2.0, 4.0, u)
       case Walking => RangeDraw(3.0, 5.0, u)
       case Running => RangeDraw(3.0, 5.0, u)
       case Jumping => 1.0
       case Itching => RangeDraw(1.0, 2.0, u)
       case Eating => RangeDraw(1.0, 2.0, u)
       case Flying => 2.0)
    case Some(c) =>
      (match s
       case Idle => RangeDraw(Positive(c.minIdleDuration, 2.0), Positive(c.maxIdleDuration, 4.0), u)
       case Walking => RangeDraw(Positive(c.minWalkDuration, 3.0), Positive(c.maxWalkDuration, 5.0), u)
       case Running => RangeDraw(Positive(c.minRunDuration, 3.0), Positive(c.maxRunDuration, 5.0), u)
       case Jumping => Positive(c.jumpDuration, 1.0)
       case Itching => RangeDraw(2.0, 4.0, u)
       case Eating => RangeDraw(1.5, 3.0, u)
       case Flying => 2.0)
  }

  /** With a configuration, an idle, walking or running spell lasts between
      its two configured bounds (each replaced by its default when not
      positive), in whichever order they were configured. */
  lemma ConfiguredDurationBetween(c: BehaviorConfig, s: MonsterState, u: real)
    requires IsUnitDraw(u)
    requires s == Idle || s == Walking || s == Running
    ensures var lo := if s == Idle then Positive(c.minIdleDuration, 2.0)
                      else if s == Walking then Positive(c.minWalkDuration, 3.0)
                      else Positive(c.minRunDuration, 3.0);
            var hi := if s == Idle then Positive(c.maxIdleDuration, 4.0)
                      else if s == Walking then Positive(c.maxWalkDuration, 5.0)
                      else Positive(c.maxRunDuration, 5.0);
            var d := StateDuration(Some(c), s, u);
            (lo <= hi ==> lo <= d <= hi) && (hi <= lo ==> hi <= d <= lo)
  {
  }

  /** `ChangeState`: remember the old state, enter the new one, restart the
      timer and draw the new state's duration. */
  function ChangeState(m: Machine, config: Option<BehaviorConfig>, s: MonsterState, u: real): (r: Machine)
    requires IsUnitDraw(u)
    ensures r.previous == m.current && r.current == s
    ensures r.timer == 0.0
    ensures r.duration > 0.0 && r.duration == StateDuration(config, s, u)
  {
    Machine(s, m.current, 0.0, StateDuration(config, s, u))
  }

  /** `ForceState`: a state change whose duration is drawn a second time;
      only the second draw survives. */
  function ForceState(m: Machine, config: Option<BehaviorConfig>, s: MonsterState, u1: real, u2: real): (r: Machine)
    requires IsUnitDraw(u1) && IsUnitDraw(u2)
    ensures r.previous == m.current && r.current == s && r.timer == 0.0
    ensures r.duration == StateDuration(config, s, u2)
  {
    var changed := ChangeState(m, config, s, u1);
    changed.(duration := StateDuration(config, s, u2))
  }

  /** Forcing a state is a plain change whose duration comes from the second
      draw: the first draw is overwritten. */
  lemma ForceIsChangeWithSecondDraw(m: Machine, config: Option<BehaviorConfig>, s: MonsterState, u1: real, u2: real)
    requires IsUnitDraw(u1) && IsUnitDraw(u2)
    ensures ForceState(m, config, s, u1, u2) == ChangeState(m, config, s, u2)
  {
  }

  /** `TriggerEating`: enter `Eating` only when a nearest food is known. */
  function TriggerEating(m: Machine, config: Option<BehaviorConfig>, hasFood: bool, u1: real, u2: real): (r: Machine)
    requires IsUnitDraw(u1) && IsUnitDraw(u2)
    ensures hasFood ==> r.current == Eating && r.previous == m.current && r.timer == 0.0
    ensures !hasFood ==> r == m
  {
    if hasFood then ForceState(m, config, Eating, u1, u2) else m
  }

  /** `SelectNextState` once the timer has run out. */
  function SelectNextState(m: Machine, config: Option<BehaviorConfig>, needs: Needs, d: Draws): (r: Machine)
    requires ValidDraws(d)
    ensures m.current == Eating ==> (r.current == Idle || r.current == Walking) && r.previous == Eating
    ensures m.current == Eating ==> (r.current == Idle <==> d.coin == 0)
    ensures m.current != Eating && ValidTransitions(config, m.current, needs) == [] ==> r.current == Idle && r.previous == m.current
    ensures r == m || (r.previous == m.current && r.timer == 0.0)
    ensures m.current != Eating ==>
              var valid := ValidTransitions(config, m.current, needs);
              var w := Probabilities(valid);
              var pick := FirstReaching(w, RangeDraw(0.0, Total(w), d.roll));
              valid != [] ==>
                && (pick.None? ==> r == m)
                && (pick.Some? ==> r.current == valid[pick.value].toState && r.previous == m.current && r.timer == 0.0)
  {
    if m.current == Eating then
      ChangeState(m, config, if d.coin == 0 then Idle else Walking, d.duration)
    else
      var valid := ValidTransitions(config, m.current, needs);
      if |valid| == 0 then ChangeState(m, config, Idle, d.duration)
      else
        var w := Probabilities(valid);
        match FirstReaching(w, RangeDraw(0.0, Total(w), d.roll))
        case Some(i) => ChangeState(m, config, valid[i].toState, d.duration)
        case None => m
  }

  /** The probabilities of a candidate list are all non-negative. */
  ghost predicate NonNegativeRows(rows: seq<StateTransition>) {
    forall i :: 0 <= i < |rows| ==> rows[i].probability >= 0.0
  }

  /** Outside `Eating`, with non-negative probabilities and at least one
      candidate, the pick never falls through: the new state is the target
      of a candidate row, and that row is the first whose cumulative
      probability reaches the roll. */
  lemma SelectPicksCandidate(m: Machine, config: Option<BehaviorConfig>, needs: Needs, d: Draws)
    requires ValidDraws(d)
    requires m.current != Eating
    requires NonNegativeRows(ValidTransitions(config, m.current, needs))
    requires ValidTransitions(config, m.current, needs) != []
    ensures var valid := ValidTransitions(config, m.current, needs);
            var w := Probabilities(valid);
            var r := SelectNextState(m, config, needs, d);
            exists i :: 0 <= i < |valid| && FirstReaching(w, RangeDraw(0.0, Total(w), d.roll)) == Some(i)
                        && r.current == valid[i].toState && Admits(valid[i], m.current, needs)
                        && r.previous == m.current && r.timer == 0.0
  {
    var valid := ValidTransitions(config, m.current, needs);
    var w := Probabilities(valid);
    assert NonNegative(w);
    UnitRollPicks(w, d.roll);
  }

  /** One frame of `Update`, `dt` being the frame time. */
  function Update(m: Machine, config: Option<BehaviorConfig>, needs: Needs, dt: real, d: Draws): (r: Machine)
    requires ValidDraws(d)
    ensures m.current == Eating && !needs.hasFood ==> r.current == Idle && r.previous == Eating && r.timer == 0.0
    ensures !(m.current == Eating && !needs.hasFood) && m.timer + dt < m.duration ==>
              r == m.(timer := m.timer + dt)
    ensures m.current == Eating && needs.hasFood && m.timer + dt >= m.duration ==>
              r.current in {Idle, Walking} && r.previous == Eating && r.timer == 0.0
              && (r.current == Idle <==> d.coin == 0)
    ensures m.current != Eating && m.timer + dt >= m.duration ==>
              r == SelectNextState(m.(timer := m.timer + dt), config, needs, d)
    ensures m.current != Eating && m.timer + dt >= m.duration && ValidTransitions(config, m.current, needs) == [] ==>
              r.current == Idle && r.previous == m.current && r.timer == 0.0
  {
    var ticked := m.(timer := m.timer + dt);
    if m.current == Eating && !needs.hasFood then ChangeState(ticked, config, Idle, d.duration)
    else if ticked.timer >= ticked.duration then SelectNextState(ticked, config, needs, d)
    else ticked
  }

  /** A timer that has not reached the duration only advances: no state,
      previous state or duration changes. */
  lemma UpdateBeforeExpiry(m: Machine, config: Option<BehaviorConfig>, needs: Needs, dt: real, d: Draws)
    requires ValidDraws(d)
    requires m.current != Eating
    requires m.timer + dt < m.duration
    ensures var r := Update(m, config, needs, dt, d);
            r.current == m.current && r.previous == m.previous && r.duration == m.duration
            && r.timer == m.timer + dt
  {
  }

  /** Once the timer of a state other than `Eating` runs out, with
      non-negative probabilities and at least one candidate row, the frame
      moves to the target of a candidate that admits the current state and
      the needs, restarting the timer. */
  lemma UpdateAtExpiry(m: Machine, config: Option<BehaviorConfig>, needs: Needs, dt: real, d: Draws)
    requires ValidDraws(d)
    requires m.current != Eating
    requires m.timer + dt >= m.duration
    requires NonNegativeRows(ValidTransitions(config, m.current, needs))
    requires ValidTransitions(config, m.current, needs) != []
    ensures var valid := ValidTransitions(config, m.current, needs);
            var r := Update(m, config, needs, dt, d);
            && r.previous == m.current && r.timer == 0.0
            && exists i :: 0 <= i < |valid| && r.current == valid[i].toState && Admits(valid[i], m.current, needs)
  {
    SelectPicksCandidate(m.(timer := m.timer + dt), config, needs, d);
  }
}

=== FILE: strings.dfy ===
/**
 The string operations the scripts rely on, with the semantics of .NET:
 `string.Split(char)` keeps empty pieces and always yields at least one,
 `string.Join(char, list)` puts the separator between consecutive pieces,
 and `int.ToString()` writes decimal digits with a leading minus sign.
 */
module Strings {

  /** Index of the first occurrence of `c` in `s`. */
  function IndexOf(s: string, c: char): (k: nat)
    requires c in s
    ensures k < |s| && s[k] == c
    ensures c !in s[..k]
  {
    if s[0] == c then 0 else 1 + IndexOf(s[1..], c)
  }

  /** `string.Join(sep, parts)`. */
  function Join(parts: seq<string>, sep: char): string
  {
    if |parts| == 0 then ""
    else if |parts| == 1 then parts[0]
    else parts[0] + [sep] + Join(parts[1..], sep)
  }

  /** `s.Split(sep)`: the maximal separator-free pieces, empty ones included. */
  function Split(s: string, sep: char): (parts: seq<string>)
    ensures |parts| >= 1
    ensures forall i :: 0 <= i < |parts| ==> sep !in parts[i]
    ensures Join(parts, sep) == s
    decreases |s|
  {
    if sep !in s then [s]
    else
      var k := IndexOf(s, sep);
      var rest := Split(s[k + 1..], sep);
      assert s == s[..k] + [sep] + s[k + 1..];
      [s[..k]] + rest
  }

  /** Every piece is free of the separator. */
  ghost predicate SeparatorFree(parts: seq<string>, sep: char) {
    forall i :: 0 <= i < |parts| ==> sep !in parts[i]
  }

  /** Splitting a join of separator-free pieces gives the pieces back. */
  lemma {:induction false} SplitJoin(parts: seq<string>, sep: char)
    requires |parts| >= 1
    requires SeparatorFree(parts, sep)
    ensures Split(Join(parts, sep), sep) == parts
    decreases |parts|
  {
    if |parts| == 1 {
      assert Join(parts, sep) == parts[0];
    } else {
      var s := Join(parts, sep);
      var tail := Join(parts[1..], sep);
      assert s == parts[0] + [sep] + tail;
      assert sep in s by { assert s[|parts[0]|] == sep; }
      var k := IndexOf(s, sep);
      assert k == |parts[0]| by {
        assert sep !in parts[0];
        assert forall j :: 0 <= j < |parts[0]| ==> s[j] == parts[0][j];
      }
      assert s[..k] == parts[0];
      assert s[k + 1..] == tail;
      SplitJoin(parts[1..], sep);
      assert Split(s, sep) == [parts[0]] + parts[1..];
    }
  }

  /** Joining three pieces puts the separator between each pair. */
  lemma JoinThree(a: string, b: string, c: string, sep: char)
    ensures Join([a, b, c], sep) == a + [sep] + b + [sep] + c
  {
    assert [a, b, c][1..] == [b, c];
    assert [b, c][1..] == [c];
    assert Join([c], sep) == c;
    assert Join([b, c], sep) == b + [sep] + c;
  }

  /** Prefix test of `string.StartsWith`. */
  predicate StartsWith(s: string, prefix: string) {
    |prefix| <= |s| && s[..|prefix|] == prefix
  }

  function DigitChar(d: nat): (c: char)
    requires d < 10
    ensures '0' <= c <= '9'
  {
    "0123456789"[d]
  }

  /** Decimal digits of a natural number. */
  function NatToString(n: nat): (s: string)
    ensures |s| >= 1
    ensures forall i :: 0 <= i < |s| ==> '0' <= s[i] <= '9'
  {
    if n < 10 then [DigitChar(n)] else NatToString(n / 10) + [DigitChar(n % 10)]
  }

  /** `int.ToString()`. */
  function IntToString(n: int): (s: string)
    ensures |s| >= 1
    ensures forall i :: 0 <= i < |s| ==> s[i] == '-' || '0' <= s[i] <= '9'
  {
    if n < 0 then "-" + NatToString(-n) else NatToString(n)
  }
}

=== FILE: visual_handler.dfy ===
/**
 Which skeleton a modular monster shows: the definition holds one skeleton
 per evolution stage, and the monster shows the stage of its evolution level,
 clamped into the array. The skeleton graphic is replaced only when the
 wanted skeleton differs from the one already shown; each replacement
 rebuilds the graphic and queues the idle animation for the next frame.
 */
module VisualHandler {
  import opened Shared
  import opened Data
  import Monster

  /** The skeleton graphic: the asset it shows and how many times it has
      been rebuilt for a new asset. */
  datatype Graphic = Graphic(asset: Option<SkeletonAsset>, rebuilds: nat)

  /** The stage of `level` in an array of `n` skeletons. */
  function StageIndex(level: int, n: nat): (i: nat)
    requires n > 0
    ensures i < n
    ensures 0 <= level < n ==> i == level
    ensures level < 0 ==> i == 0
    ensures level >= n ==> i == n - 1
  {
    ClampInt(level, 0, n - 1)
  }

  /** `GetCurrentSkeletonData`: nothing without a definition or with a null
      or empty skeleton array; otherwise the skeleton of the monster's stage. */
  function GetCurrentSkeletonData(m: Monster.Monster): (r: Option<SkeletonAsset>)
    ensures r.None? <==> m.definition.None? || m.definition.value.monsterSpine.None?
                         || |m.definition.value.monsterSpine.value| == 0
    ensures r.Some? ==> r.value in m.definition.value.monsterSpine.value
    ensures r.Some? && 0 <= m.evolutionLevel < |m.definition.value.monsterSpine.value| ==>
              r.value == m.definition.value.monsterSpine.value[m.evolutionLevel]
  {
    if m.definition.None? || m.definition.value.monsterSpine.None? || |m.definition.value.monsterSpine.value| == 0 then None
    else
      var spine := m.definition.value.monsterSpine.value;
      Some(spine[StageIndex(m.evolutionLevel, |spine|)])
  }

  /** `SetSpineDataBasedOnEvolution` (and `ApplyMonsterVisuals`, whose
      animation call is not modelled): nothing without a definition or a
      graphic; the wanted skeleton replaces a different one and rebuilds the
      graphic once. */
  function ApplyMonsterVisuals(m: Monster.Monster, g: Option<Graphic>): (r: Option<Graphic>)
    ensures g.None? || m.definition.None? ==> r == g
    ensures g.Some? ==> r.Some?
    ensures g.Some? && m.definition.Some? && GetCurrentSkeletonData(m).Some? ==>
              r.value.asset == GetCurrentSkeletonData(m)
    ensures g.Some? && GetCurrentSkeletonData(m).None? ==> r == g
    ensures g.Some? ==> (r.value.rebuilds == g.value.rebuilds + 1 <==> r != g)
  {
    if g.None? || m.definition.None? then g
    else
      var target := GetCurrentSkeletonData(m);
      if target.Some? && g.value.asset != target then Some(Graphic(target, g.value.rebuilds + 1))
      else g
  }

  /** Refreshing the visuals a second time changes nothing: the graphic is
      rebuilt at most once per change of stage. */
  lemma ApplyTwiceIsApplyOnce(m: Monster.Monster, g: Option<Graphic>)
    ensures ApplyMonsterVisuals(m, ApplyMonsterVisuals(m, g)) == ApplyMonsterVisuals(m, g)
  {
  }

  /** Levels beyond the last stage all show the last skeleton, and negative
      levels show the first. */
  lemma StagesSaturate(m: Monster.Monster, level: int)
    requires m.definition.Some? && m.definition.value.monsterSpine.Some?
    requires |m.definition.value.monsterSpine.value| > 0
    ensures var spine := m.definition.value.monsterSpine.value;
            && (level >= |spine| ==> GetCurrentSkeletonData(m.(evolutionLevel := level)) == Some(spine[|spine| - 1]))
            && (level < 0 ==> GetCurrentSkeletonData(m.(evolutionLevel := level)) == Some(spine[0]))
  {
  }
}

=== FILE: weighted.dfy ===
/**
 The cumulative-weight pick shared by both behaviour state machines and the
 gacha rarity roll: walk the candidates in order, adding each weight to a
 running total, and take the first one whose running total reaches the roll.
 */
module Weighted {
  import opened Shared

  /** Sum of the first `n` weights. */
  function PrefixSum(w: seq<real>, n: nat): real
    requires n <= |w|
  {
    if n == 0 then 0.0 else PrefixSum(w, n - 1) + w[n - 1]
  }

  /** The running total just after candidate `j` has been added. */
  function Cumulative(w: seq<real>, j: nat): real
    requires j < |w|
  {
    PrefixSum(w, j + 1)
  }

  function Total(w: seq<real>): real {
    PrefixSum(w, |w|)
  }

  ghost predicate NonNegative(w: seq<real>) {
    forall i :: 0 <= i < |w| ==> w[i] >= 0.0
  }

  /** The loop of the pick from position `i` on, with `acc` the running total so far. */
  function Walk(w: seq<real>, roll: real, i: nat, acc: real): (r: Option<nat>)
    requires i <= |w| && acc == PrefixSum(w, i)
    requires forall j :: 0 <= j < i ==> Cumulative(w, j) < roll
    ensures r.Some? ==> i <= r.value < |w| && roll <= Cumulative(w, r.value)
    ensures r.Some? ==> forall j :: 0 <= j < r.value ==> Cumulative(w, j) < roll
    ensures r.None? ==> forall j :: 0 <= j < |w| ==> Cumulative(w, j) < roll
    decreases |w| - i
  {
    if i == |w| then None
    else if roll <= acc + w[i] then Some(i)
    else Walk(w, roll, i + 1, acc + w[i])
  }

  /** Index of the first candidate whose cumulative weight is at least `roll`,
      or `None` when the loop runs out (the caller then changes nothing). */
  function FirstReaching(w: seq<real>, roll: real): (r: Option<nat>)
    ensures r.Some? ==> r.value < |w| && roll <= Cumulative(w, r.value)
    ensures r.Some? ==> forall j :: 0 <= j < r.value ==> Cumulative(w, j) < roll
    ensures r.None? ==> forall j :: 0 <= j < |w| ==> Cumulative(w, j) < roll
  {
    Walk(w, roll, 0, 0.0)
  }

  /** Non-negative weights have a non-decreasing running total. */
  lemma {:induction false} PrefixMonotone(w: seq<real>, m: nat, n: nat)
    requires NonNegative(w)
    requires m <= n <= |w|
    ensures PrefixSum(w, m) <= PrefixSum(w, n)
    decreases n - m
  {
    if m < n {
      PrefixMonotone(w, m, n - 1);
    }
  }

  /** A roll no larger than the total always selects some candidate. */
  lemma RollWithinTotalPicks(w: seq<real>, roll: real)
    requires |w| > 0
    requires roll <= Total(w)
    ensures FirstReaching(w, roll).Some?
  {
    assert Cumulative(w, |w| - 1) == Total(w);
  }

  /** `Random.Range(0, total)` over non-negative weights always selects a
      candidate, so the pick never falls through. */
  lemma UnitRollPicks(w: seq<real>, u: real)
    requires |w| > 0
    requires NonNegative(w)
    requires IsUnitDraw(u)
    ensures FirstReaching(w, RangeDraw(0.0, Total(w), u)).Some?
  {
    PrefixMonotone(w, 0, |w|);
    RollWithinTotalPicks(w, RangeDraw(0.0, Total(w), u));
  }

  /** For non-negative weights and a positive roll, the pick is exactly the
      candidate whose cumulative interval `(before, before + weight]` holds the roll. */
  lemma PickIsBucket(w: seq<real>, roll: real, i: nat)
    requires NonNegative(w)
    requires roll > 0.0
    requires i < |w|
    ensures FirstReaching(w, roll) == Some(i) <==> PrefixSum(w, i) < roll <= PrefixSum(w, i + 1)
  {
    var r := FirstReaching(w, roll);
    if r == Some(i) && i > 0 {
      assert Cumulative(w, i - 1) == PrefixSum(w, i);
    }
    if PrefixSum(w, i) < roll <= PrefixSum(w, i + 1) {
      assert Cumulative(w, i) == PrefixSum(w, i + 1);
      if r.Some? && r.value < i {
        PrefixMonotone(w, r.value + 1, i);
      }
    }
  }
}
